=== FILE: README.md ===
# Spyglass ripple selection, position helpers and settings, in Dafny

This project models three parts of Spyglass, the Frank Lab's DataJoint
pipeline for neurophysiology data, and proves properties of the model.

- **Ripple detection inputs** (`src/spyglass/ripple/v1/ripple.py`):
  - `interpolate_to_new_time`, which aligns a time-indexed table onto new sample times;
  - `RippleLFPSelection.validate_key` and `set_lfp_electrodes`, which choose the ripple-band LFP electrodes;
  - the assembly of the LFP and speed inputs in `get_ripple_lfps_and_position_info`;
  - the detector dispatch of `make`;
  - `get_Kay_ripple_consensus_trace`.
- **Position helpers** (`src/spyglass/common/common_position.py`):
  - `_fix_kwargs`;
  - the column layout of `_data_to_df`;
  - `_fix_col_names`;
  - the epoch and output file name computed in `PositionVideo.make`;
  - `PositionVideo.fill_nan`;
  - the node and edge bookkeeping of the interactive `NodePicker`.
- **Configuration** (`src/spyglass/settings.py`): `SpyglassConfig`, which resolves the base directory and ten data directories. It does this from three sources:
  - a directory passed in;
  - DataJoint's `custom` configuration;
  - the environment.

  It also:
  - records the environment defaults, the Kachery zone and the debug mode;
  - exposes the directory properties;
  - builds the DataJoint configuration (`_dj_stores`, `_dj_custom`, `_generate_dj_config`).

## Modules

| module | what it holds |
|---|---|
| `Wrappers` | `Option` and `Result` |
| `Text` | Python string operations used by the source: lower and upper case, substring search, `str.replace`, `int()`, `str(int)` and `:02d` formatting |
| `Frames` | a pandas table (`Frame`: column labels, a time index, rows of cells that are a number or missing), and `reindex`, `interpolate(method="linear")`, `.loc[lo:hi]`, `pd.concat`, boolean column masks and `np.unique` on it |
| `Alignment` | `interpolate_to_new_time` |
| `RippleSelection` | `validate_key`, `set_lfp_electrodes`, the detector registry |
| `RippleAssembly` | the electrode mask, the valid-time restriction, `get_ripple_lfps_and_position_info`, `make` |
| `Consensus` | `get_Kay_ripple_consensus_trace` |
| `PositionColumns` | `_fix_col_names`, `_fix_kwargs`, `_data_to_df` columns |
| `PositionVideo` | the epoch and file name of `PositionVideo.make`, and `fill_nan` |
| `NodePicking` | `NodePicker` as a class with its `_nodes` and `edges` fields |
| `Settings` | `SpyglassConfig`: a class with the supplied base directory, the loaded configuration and the DataJoint defaults as fields, and the functions and lemmas that specify `load_config` and the getters |

How the world outside is represented:

- **Passed in as values:**
  - the environment, DataJoint's custom configuration and the set of existing paths are a `World`;
  - the band table, the LFP data and the position table are arguments.
- **Passed in as function parameters:** the Hilbert envelope, the Gaussian smoothing and the square root.

## Model

| member | source | states |
|---|---|---|
| Frames.Unique | src/spyglass/ripple/v1/ripple.py:34-36 | `np.unique`: the result is strictly increasing and holds exactly the values of the input |
| Frames.UniqueOfSortedPlusPresent | src/spyglass/ripple/v1/ripple.py:34-36 | adding to a strictly increasing index only values it already holds leaves its `np.unique` equal to it |
| Frames.Reindex | src/spyglass/ripple/v1/ripple.py:38-40 | `reindex` fails (duplicate labels) exactly when the index repeats a time; otherwise the result has the target as index, the same columns, and at each target time the stored row or an all-missing row |
| Frames.Interpolate | src/spyglass/ripple/v1/ripple.py:39 | linear fill keeps index and columns, and each cell is filled from its column alone |
| Frames.FillKeepsValues | src/spyglass/ripple/v1/ripple.py:39 | the fill never changes a cell that holds a value |
| Frames.FillMissingIff | src/spyglass/ripple/v1/ripple.py:39 | after the fill a cell is missing exactly when no value sits at or above it in its column (leading gaps stay) |
| Frames.InterpolateGapFree | src/spyglass/ripple/v1/ripple.py:39 | a table without missing cells is left unchanged by the fill |
| Frames.SliceRows | src/spyglass/ripple/v1/ripple.py:261 | `.loc[lo:hi]`, taken as the filter `lo <= t <= hi`: exactly those labels, never more rows than there were |
| Frames.SliceRowsPositions | src/spyglass/ripple/v1/ripple.py:261 | row `k` of the slice is, label and cells, the `k`-th row of the table whose label lies within `[lo, hi]`: the in-range rows, all of them, in their original order |
| Frames.SliceRowsIncreasing | src/spyglass/ripple/v1/ripple.py:268 | a slice of a strictly increasing index is strictly increasing |
| Frames.Concat | src/spyglass/ripple/v1/ripple.py:259-265 | `pd.concat` refuses exactly an empty list of tables; otherwise it stacks their rows |
| Frames.SelectColumns | src/spyglass/ripple/v1/ripple.py:238 | `.loc[:, mask]` fails exactly when the mask's length differs from the column count; otherwise it keeps the index and exactly the masked columns, in order, with their cells |
| Frames.TruePositions | src/spyglass/ripple/v1/ripple.py:238 | the positions a boolean mask selects: every true position, only true positions, in increasing order |
| Frames.ColumnNamed | src/spyglass/ripple/v1/ripple.py:279 | `position_info[speed_name]` fails exactly when no column has that name; otherwise it is a series on the table's index |
| Alignment.UnionIndex | src/spyglass/ripple/v1/ripple.py:33-36 | the intermediate index is strictly increasing and holds exactly the old and the new times |
| Alignment.InterpolateToNewTime | src/spyglass/ripple/v1/ripple.py:30-41 | succeeds exactly when the old index has no repeated time; the result is indexed by the new times and keeps the columns |
| Alignment.AlignedCell | src/spyglass/ripple/v1/ripple.py:37-41 | each aligned cell is the linear fill of the widened table at that new time's position in the union |
| Alignment.AlignKeepsValues | src/spyglass/ripple/v1/ripple.py:37-41 | a value the table holds at a time that is also a new time comes through unchanged |
| Alignment.AlignMissingIff | src/spyglass/ripple/v1/ripple.py:37-41 | an aligned cell is missing exactly when its column has no value at or before that time |
| Alignment.WideColumnMissingUpTo | src/spyglass/ripple/v1/ripple.py:38 | no value up to a position of the widened column means no old value up to that time |
| Alignment.WideColumnMissingFrom | src/spyglass/ripple/v1/ripple.py:38 | no old value up to a time means no value up to its position in the widened column |
| Alignment.ReindexOwnIndex | src/spyglass/ripple/v1/ripple.py:38 | reindexing onto one's own repeat-free index changes nothing |
| Alignment.InterpolateLeadingGaps | src/spyglass/ripple/v1/ripple.py:39 | the fill leaves a table whose only gaps are leading ones unchanged |
| Alignment.AlignOntoOwnIndex | src/spyglass/ripple/v1/ripple.py:30-41 | aligning a table with a strictly increasing index and only leading gaps onto its own index returns it unchanged |
| Alignment.AlignGapFree | src/spyglass/ripple/v1/ripple.py:30-41 | a gap-free table on a strictly increasing index is its own alignment |
| Alignment.AlignIdempotent | src/spyglass/ripple/v1/ripple.py:30-41 | aligning an aligned table onto the same strictly increasing times again changes nothing |
| RippleSelection.ValidateKey | src/spyglass/ripple/v1/ripple.py:57-61 | accepts exactly the filter names whose lower-case form contains `ripple`; otherwise the ripple-filter error |
| RippleSelection.ValidateKeyIgnoresCase | src/spyglass/ripple/v1/ripple.py:60 | two names equal up to case get the same verdict |
| RippleSelection.ValidateKeyAcceptsRipple | src/spyglass/ripple/v1/ripple.py:60 | any name containing `ripple` or `Ripple` is accepted |
| RippleSelection.RowsWithId | src/spyglass/ripple/v1/ripple.py:94-95 | `.loc[id]` on the id-indexed table: exactly the rows with that id, empty exactly when the id is absent |
| RippleSelection.LocByIdsCovers | src/spyglass/ripple/v1/ripple.py:93-95 | the selected rows carry exactly the requested ids |
| RippleSelection.LocByIdsInRows | src/spyglass/ripple/v1/ripple.py:93-95 | every selected row is a row of the band table |
| RippleSelection.LocByIdsSorted | src/spyglass/ripple/v1/ripple.py:90-95 | ascending requested ids give rows in ascending id order |
| RippleSelection.ElectrodeKeys | src/spyglass/ripple/v1/ripple.py:91-107 | the unknown-electrode error happens exactly when some requested id is not in the band table; the filter error exactly when every id is known and `validate_key` refuses the filter; success exactly when every id is known and the filter passes, and then every row carries the group name |
| RippleSelection.ElectrodeKeysOrdered | src/spyglass/ripple/v1/ripple.py:105-106 | for a sorted list the inserted rows are in ascending id order, are band-table rows with requested ids, and every requested id has a row |
| RippleSelection.DefaultListHasNoUnknown | src/spyglass/ripple/v1/ripple.py:84-107 | with the default list (every electrode of the band table) only the filter name can make selection fail |
| RippleSelection.SortInPlace | src/spyglass/ripple/v1/ripple.py:90 | `electrode_list.sort()`: the array ends sorted and is a permutation of what it held |
| RippleSelection.Sink | src/spyglass/ripple/v1/ripple.py:90 | one insertion step extends the sorted prefix by one and keeps the multiset |
| RippleSelection.SortedPermutationUnique | src/spyglass/ripple/v1/ripple.py:90 | two sorted arrangements of the same ids are equal, so the sorted list does not depend on how the sort went |
| RippleSelection.SetLfpElectrodes | src/spyglass/ripple/v1/ripple.py:64-117 | a given list is sorted in place (a permutation) and the rows inserted are `ElectrodeKeys` of it; without a list the rows are `ElectrodeKeys` of the sorted band-table ids |
| RippleSelection.DetectorRegistryClosed | src/spyglass/ripple/v1/ripple.py:21-24 | the registry finds exactly the two detector names, each naming its own detector |
| RippleAssembly.PresentIds | src/spyglass/ripple/v1/ripple.py:225-227 | the kept electrodes are exactly the requested ones the LFP dataset has |
| RippleAssembly.ElectrodeIndices | src/spyglass/ripple/v1/ripple.py:228-230 | one dataset position per id, holding that id |
| RippleAssembly.MaskOf | src/spyglass/ripple/v1/ripple.py:224-231 | one flag per dataset column; a flag is set exactly on the first column of each requested electrode |
| RippleAssembly.MaskOfDistinct | src/spyglass/ripple/v1/ripple.py:224-231 | without repeated electrodes the mask is plain membership in the request |
| RippleAssembly.MaskIgnoresUnknown | src/spyglass/ripple/v1/ripple.py:225-227 | requested ids the dataset lacks do not change the mask, which depends only on the present ones |
| RippleAssembly.ElectrodeMask | src/spyglass/ripple/v1/ripple.py:224-231 | the mask built by writing `True` at each index equals `MaskOf` |
| RippleAssembly.ClipIntervals | src/spyglass/ripple/v1/ripple.py:252-257 | the intersected intervals lie inside the position table's first and last times |
| RippleAssembly.ClipIntervalsCovers | src/spyglass/ripple/v1/ripple.py:252-257 | a time is covered after the intersection exactly when it is within the position times and covered by a valid interval |
| RippleAssembly.ConcatSlicesIndex | src/spyglass/ripple/v1/ripple.py:259-272 | the concatenated slices hold exactly the table's times that some interval covers |
| RippleAssembly.ConcatRowsAppend | src/spyglass/ripple/v1/ripple.py:259-272 | concatenation keeps the order of its pieces |
| RippleAssembly.RestrictToIntervals | src/spyglass/ripple/v1/ripple.py:259-272 | fails exactly when there is no interval; otherwise keeps the columns and exactly the covered times |
| RippleAssembly.RestrictInIntervalOrder | src/spyglass/ripple/v1/ripple.py:259-272 | rows for earlier intervals come before rows for later ones |
| RippleAssembly.LfpsAndPosition | src/spyglass/ripple/v1/ripple.py:208-282 | on success the speed series is indexed by the LFP table's times, one value per LFP row |
| RippleAssembly.LfpsAndPositionRows | src/spyglass/ripple/v1/ripple.py:238-272 | the LFP rows are exactly the LFP times within the position times and covered by a valid interval; the columns are exactly the masked electrodes, in order |
| RippleAssembly.LfpsAndPositionMaskFirst | src/spyglass/ripple/v1/ripple.py:224-238 | an electrode list whose length differs from the LFP column count fails at the column selection |
| RippleAssembly.LfpsAndPositionNoInterval | src/spyglass/ripple/v1/ripple.py:252-272 | an empty position table fails when reading its first time; otherwise the empty-concatenation error happens exactly when no interval survives the intersection |
| RippleAssembly.Make | src/spyglass/ripple/v1/ripple.py:169-185 | the detector called is the one named in the parameters, given equally long time, LFP and speed inputs |
| RippleAssembly.MakeDispatch | src/spyglass/ripple/v1/ripple.py:169-185 | assembly errors pass through; otherwise `make` succeeds exactly for the two registered names, with the LFP times and the speed values |
| Consensus.Rank | src/spyglass/ripple/v1/ripple.py:289-292 | the place of a row among the valid rows, within range for a valid row |
| Consensus.ValidValuesAt | src/spyglass/ripple/v1/ripple.py:291-292 | a valid row's numbers sit at its rank among the valid rows, and the next row's rank is one more |
| Consensus.ValidValuesPrefix | src/spyglass/ripple/v1/ripple.py:291-292 | the valid rows of a prefix are a prefix of the valid rows |
| Consensus.RankSkipsInvalid | src/spyglass/ripple/v1/ripple.py:289 | an invalid row takes no place among the valid rows |
| Consensus.RankIncreasing | src/spyglass/ripple/v1/ripple.py:295-299 | ranks of valid rows increase with the row, so smoothed values go back in row order |
| Consensus.RankOnto | src/spyglass/ripple/v1/ripple.py:295-299 | every smoothed value belongs to some valid row |
| Consensus.SumSquares | src/spyglass/ripple/v1/ripple.py:294 | a row's energy is never negative |
| Consensus.EnvelopeGrid | src/spyglass/ripple/v1/ripple.py:288-293 | each valid row holds its envelope row; every other cell is missing |
| Consensus.RowEnergies | src/spyglass/ripple/v1/ripple.py:294 | each valid row's energy is the sum of squares of its envelope; an invalid row's is missing |
| Consensus.ValidEnergies | src/spyglass/ripple/v1/ripple.py:295-296 | the energies of the valid rows, in order, are the sums of squares of the envelope rows |
| Consensus.Broadcast | src/spyglass/ripple/v1/ripple.py:291-293 | the envelope stretched to one row per valid row and one value per channel, a length-1 axis serving every position |
| Consensus.BroadcastExact | src/spyglass/ripple/v1/ripple.py:291-293 | an envelope already of the valid rows' shape is stored unchanged |
| Consensus.Spread | src/spyglass/ripple/v1/ripple.py:295-299 | one smoothed value per valid row, a single value serving them all; a full-length result is kept as it is |
| Consensus.StoreSmoothed | src/spyglass/ripple/v1/ripple.py:295-301 | each valid row gets the square root of its smoothed value; invalid rows stay missing |
| Consensus.ConsensusTrace | src/spyglass/ripple/v1/ripple.py:285-302 | fails exactly when the envelope or the smoothed energies do not broadcast onto the valid rows (a single row, channel value or smoothed value serves them all); otherwise it keeps the index, is missing exactly on rows with a missing channel, and each valid row holds the square root of its smoothed energy |
| PositionColumns.Matches | src/spyglass/common/common_position.py:1061 | the positions of the columns carrying a label: all of them, only those, in increasing order |
| PositionColumns.SelectionOnce | src/spyglass/common/common_position.py:1061-1069 | with every requested label present, `df[names]` has at least one column per label, and exactly one per label exactly when no label is repeated |
| PositionColumns.SelectionOnceAt | src/spyglass/common/common_position.py:1061-1069 | with no label repeated, `df[names]` takes each label's own column, in label order |
| PositionColumns.SelectionAgain | src/spyglass/common/common_position.py:1059-1061 | selecting the same distinct labels again from what `df[names]` returned keeps every column in place |
| PositionColumns.Relabel | src/spyglass/common/common_position.py:1062-1081 | assigning `columns` fails with a length mismatch exactly when the number of names differs, and otherwise keeps the index and data under the new names |
| PositionColumns.FixColNames | src/spyglass/common/common_position.py:1041-1083 | on success the index is kept and every default name labels a column; when the default names were not already there, the first four columns are the default names |
| PositionColumns.Convention | src/spyglass/common/common_position.py:1049-1070 | the convention tried first that the columns contain; none exactly when none of the three conventions is present |
| PositionColumns.FixColNamesConvention | src/spyglass/common/common_position.py:1059-1069 | with a convention present, the result holds every column carrying one of its labels, label by label (`Selection`); the default names are kept as they are, and renaming an indexed convention fails with a length mismatch exactly when one of its labels is repeated |
| PositionColumns.FixColNamesDistinct | src/spyglass/common/common_position.py:1059-1069 | with each of the convention's labels on one column, the result is exactly the four default names, each holding the convention's column |
| PositionColumns.FixColNamesZeroBeforeOne | src/spyglass/common/common_position.py:1062-1069 | with both indexed conventions present, the zero-indexed columns are taken; the call succeeds exactly when no zero-indexed label is repeated, and otherwise fails with the renaming's length mismatch |
| PositionColumns.FixColNamesFallback | src/spyglass/common/common_position.py:1070-1081 | without a convention: a refusal at the prompt is the unexpected-columns error, fewer than four columns fail the renaming, and otherwise the first four columns are renamed and the rest kept |
| PositionColumns.FixColNamesIdempotent | src/spyglass/common/common_position.py:1059-1069 | fixing the names of a table that a convention fixed successfully changes nothing, repeated default labels included |
| PositionColumns.FixKwargs | src/spyglass/common/common_position.py:217-249 | fails exactly when a required parameter is still false after the legacy fallback; on success all three required parameters are true, and each of the four parameters, orientation included, is its own value when that is true and otherwise what its legacy keyword holds (possibly nothing) |
| PositionColumns.FixKwargsPrecedence | src/spyglass/common/common_position.py:225-249 | given new-style values are returned as they are; an orientation std-dev given nowhere is `None` |
| PositionColumns.FixKwargsLegacyOnly | src/spyglass/common/common_position.py:225-234 | the legacy names alone suffice |
| PositionColumns.FixKwargsZeroIsMissing | src/spyglass/common/common_position.py:229-243 | a zero speed std-dev with no legacy value is the missing-parameter error |
| PositionColumns.DataToDfColumns | src/spyglass/common/common_position.py:457-496 | six columns, or seven with `video_frame_ind` first |
| PositionColumns.DataToDfColumnsSplit | src/spyglass/common/common_position.py:457-468 | each data column is the prefix followed by its fixed suffix |
| PositionColumns.DataToDfColumnsDistinct | src/spyglass/common/common_position.py:457-496 | the columns never clash, whatever the prefix |
| PositionVideo.EpochOf | src/spyglass/common/common_position.py:834-841 | fails exactly when the interval name, with `pos ` and ` valid times` removed, is no integer for `int()`; otherwise the epoch is that integer plus one |
| PositionVideo.StripIntervalWords | src/spyglass/common/common_position.py:836-838 | removing `pos ` and ` valid times` from `pos N valid times` leaves `N` |
| PositionVideo.EpochOfIntervalName | src/spyglass/common/common_position.py:834-841 | the interval name of epoch index `n` reads back as epoch `n + 1` |
| PositionVideo.EpochOfRejects | src/spyglass/common/common_position.py:834-841 | a name `pos <body> valid times` whose body holds a character that is neither whitespace, a sign nor a digit is refused |
| Text.ParseIntRejects | src/spyglass/common/common_position.py:834-838 | `int()` fails on any text holding a character that is neither whitespace, a sign nor a digit, wherever it stands |
| PositionVideo.OutputFilename | src/spyglass/common/common_position.py:851-855 | the video file name ends in `.mp4` and is long enough to hold its fields |
| PositionVideo.OutputFilenameFields | src/spyglass/common/common_position.py:851-855 | for `X.nwb` with a dot-free stem `X` the name is `X_<epoch>_<parameters>.mp4`, with an epoch field of at least two characters that reads back as the epoch |
| PositionVideo.Digitize | src/spyglass/common/common_position.py:910 | `np.digitize` on rising bins: a count of at most all the bins, which `DigitizeBrackets` places |
| PositionVideo.DigitizeDecreasing | src/spyglass/common/common_position.py:910 | `np.digitize` on falling bins: a count of at most all the bins, which `DigitizeDecreasingBrackets` places |
| PositionVideo.DigitizeBrackets | src/spyglass/common/common_position.py:910 | on rising bins the result `k` brackets the time: the first `k` bins are at or below it and the rest above |
| PositionVideo.DigitizeDecreasingBrackets | src/spyglass/common/common_position.py:910 | on falling bins the result `k` brackets the time from the other side: the first `k` bins are above it and the rest at or below |
| PositionVideo.DigitizeMonotone | src/spyglass/common/common_position.py:910 | a later time never lands in an earlier frame |
| PositionVideo.FrameSlot | src/spyglass/common/common_position.py:910 | `np.digitize(t, video_time[1:])`, counting up on rising and down on falling timestamps: every sample lands in an existing video frame |
| PositionVideo.FrameSlotWithinFrame | src/spyglass/common/common_position.py:910 | on rising timestamps a sample lands in frame `s` with `video_time[s] <= t < video_time[s + 1]`, the first frame taking every earlier sample and the last every later one |
| PositionVideo.SampleRow | src/spyglass/common/common_position.py:918 | the row written for a sample: its own row, or the single row when `variable` has one row and NumPy broadcasts it |
| PositionVideo.FillNan | src/spyglass/common/common_position.py:909-920 | fails exactly when the timestamps after the first neither rise nor fall throughout (`np.digitize` raises), when samples and sample times differ in number and there is not a single row to broadcast, or when there are sample times but no frames; otherwise there is one row per video frame, frames no sample lands in are all missing, and a frame holds the row of the last sample that lands in it |
| PositionVideo.SpreadSamples | src/spyglass/common/common_position.py:912-918 | the filling once the checks pass: one row per video frame, frames no sample lands in all missing, and each frame the row of the last sample that lands in it |
| NodePicking.SqDist | src/spyglass/common/common_position.py:737-739 | a squared distance is never negative |
| NodePicking.FirstNearest | src/spyglass/common/common_position.py:740 | `np.argmin`: a nearest node, and no earlier node is as near |
| NodePicking.RemoveAt | src/spyglass/common/common_position.py:788 | `list.pop(k)`: one fewer element, the others in order |
| NodePicking.AddToEdgesShape | src/spyglass/common/common_position.py:741-744 | adding a node keeps every edge but the last complete, puts the node last, and either fills the open edge or opens a new one |
| NodePicking.TwoClicksMakeAnEdge | src/spyglass/common/common_position.py:735-744 | two control-clicks on a fresh picker make one edge; a third opens the next |
| NodePicking.NodePicker.constructor | src/spyglass/common/common_position.py:687-692 | a new picker has no nodes and one empty edge |
| NodePicking.NodePicker.Nearest | src/spyglass/common/common_position.py:737-740 | the scan returns the first nearest node |
| NodePicking.NodePicker.RemovePoint | src/spyglass/common/common_position.py:782-788 | removes the node nearest the point, if there is one, and leaves the edges |
| NodePicking.NodePicker.Clear | src/spyglass/common/common_position.py:790-793 | no nodes and one empty edge |
| NodePicking.NodePicker.ClickEvent | src/spyglass/common/common_position.py:722-746 | the effect of each click kind on nodes and edges; control-left with no node is an error that changes nothing; the edge shape is kept |
| Settings.LookupOr | src/spyglass/settings.py:219 | a key absent from the dictionary gives the default |
| Settings.LookupOrFinds | src/spyglass/settings.py:219 | a key of a dictionary finds its own value |
| Settings.UpperInjective | src/spyglass/settings.py:220 | upper-casing tells apart names without capitals |
| Settings.VarForSamePrefix | src/spyglass/settings.py:217-220 | within one family, two default names share a variable exactly when they are equal |
| Settings.VarForLead | src/spyglass/settings.py:220 | a variable starts with its family's initial, upper-cased |
| Settings.DirToVarUnknownKey | src/spyglass/settings.py:217-220 | a key that is not a directory of its family names the family's base variable |
| Settings.VarForEndsInR | src/spyglass/settings.py:220 | every variable ends in `_DIR` |
| Settings.DirEntries | src/spyglass/settings.py:113-114 | the directories in visiting order, family after family |
| Settings.RelativeDirEntries | src/spyglass/settings.py:34-50 | the ten directories, seven Spyglass then three Kachery ones |
| Settings.EntryNames | src/spyglass/settings.py:34-50 | every default name is lower-case and none is `base`; the first seven are Spyglass directories, the rest Kachery ones |
| Settings.EntryNamesDistinct | src/spyglass/settings.py:45-49 | only Kachery `cloud` and `storage` share a family and a default name |
| Settings.EntryVars | src/spyglass/settings.py:217-220 | each directory's variable is named after its family and default name |
| Settings.EntryVarsCollide | src/spyglass/settings.py:45-49 | of the ten directories only Kachery `cloud` and `storage` share a variable |
| Settings.EntryVarsNotBase | src/spyglass/settings.py:112-130 | no directory's variable is `SPYGLASS_BASE_DIR` or `KACHERY_BASE_DIR` |
| Settings.ResolveBase | src/spyglass/settings.py:99-103 | the base is set exactly when one of its three sources is |
| Settings.ResolveBasePrecedence | src/spyglass/settings.py:99-103 | the supplied base wins, then the custom `base`, then `SPYGLASS_BASE_DIR` |
| Settings.JoinPath | src/spyglass/settings.py:127 | `str(Path(base) / name)` for a name of one component: the base as written, a separator unless the base already ends in one, then the name; pathlib's normalisation of the base is not modelled |
| Settings.StripQuotes | src/spyglass/settings.py:128 | the result has no double quote, and a string without one is unchanged |
| Settings.ResolveDir | src/spyglass/settings.py:115-128 | a resolved directory never contains a double quote |
| Settings.ResolveDirPrecedence | src/spyglass/settings.py:115-128 | custom Spyglass entry, then custom Kachery entry, then the environment variable (only without a supplied base), then the default under the base |
| Settings.ResolveDirIgnoresEnv | src/spyglass/settings.py:117-121 | with a base supplied, no environment variable changes any directory |
| Settings.UnsetDirIsDefault | src/spyglass/settings.py:123-128 | a directory nothing sets is its default name under the base |
| Settings.JoinedIsNotBase | src/spyglass/settings.py:127-128 | a path under the base is never the base itself |
| Settings.KacheryZone | src/spyglass/settings.py:132-138 | the environment's zone, else the custom one, else `franklab.default`, and never empty |
| Settings.ConfigDirsKeys | src/spyglass/settings.py:112-130 | `config_dirs` holds the base variable and one variable per directory, nothing else |
| Settings.ConfigDirsLastWins | src/spyglass/settings.py:130 | a directory that no later one shares a variable with keeps its resolved location |
| Settings.ConfigDirsBase | src/spyglass/settings.py:112 | `SPYGLASS_BASE_DIR` holds the base when no directory is named after it |
| Settings.ConfigDirsAbsent | src/spyglass/settings.py:112-130 | a name that is no directory variable is not in `config_dirs` |
| Settings.ConfigDirsVarsEndInR | src/spyglass/settings.py:112-130 | every key of `config_dirs` ends in `R` |
| Settings.CollectGroup | src/spyglass/settings.py:114-130 | the inner loop records one family's directories exactly as `ConfigDirs` specifies |
| Settings.CollectConfigDirs | src/spyglass/settings.py:112-130 | the two loops build exactly `ConfigDirs` of all directories |
| Settings.EnvFoldKeys | src/spyglass/settings.py:158-162 | `_load_env_vars` sets exactly the variables it has defaults for |
| Settings.EnvFoldValues | src/spyglass/settings.py:158-162 | each variable comes from the environment when set there, else from its default |
| Settings.LoadedEnvValues | src/spyglass/settings.py:61-65 | the three environment defaults are exactly what is loaded, each from the environment or its default |
| Settings.AssembleDir | src/spyglass/settings.py:146-152 | a directory keeps its location in the assembled configuration |
| Settings.AssembleSetting | src/spyglass/settings.py:146-152 | no directory or environment default overrides the zone, the debug mode or `prepopulate` |
| Settings.AssembleSettings | src/spyglass/settings.py:146-152 | the assembled zone, debug mode and `prepopulate` |
| Settings.AssembleAbsent | src/spyglass/settings.py:146-152 | a name ending in `R` that is no directory variable is not in the configuration |
| Settings.MergeKeep | src/spyglass/settings.py:146-152 | a key the right side of a merge lacks keeps the left side's value |
| Settings.NameEndingInR | src/spyglass/settings.py:146-152 | setting and environment names never end in `R`, as directory variables do |
| Settings.LoadedPartsNamed | src/spyglass/settings.py:146-152 | the parts of the loaded configuration are named as `load_config` names them |
| Settings.AssembledLastWins | src/spyglass/settings.py:130-152 | a directory that no later one shares a variable with has its resolved location in the final configuration |
| Settings.LoadedConfigDir | src/spyglass/settings.py:112-152 | every directory variable holds its resolved location; Kachery `cloud` holds `storage`'s |
| Settings.LoadedConfigSettings | src/spyglass/settings.py:112-152 | the loaded base, zone, debug mode and `prepopulate` |
| Settings.SpyglassUnknownKey | src/spyglass/settings.py:217-220 | a key that is no Spyglass directory reads `SPYGLASS_BASE_DIR` |
| Settings.SpyglassDirAfterLoad | src/spyglass/settings.py:391-425 | after loading, each Spyglass directory property returns that directory's resolved location |
| Settings.BaseDirAfterLoad | src/spyglass/settings.py:391-429 | after loading, `base_dir` is the base and `debug_mode` the custom flag, else false |
| Settings.WaveformReadsBaseVar | src/spyglass/settings.py:419-421 | as written, `waveform_dir` reads `SPYGLASS_BASE_DIR` |
| Settings.WaveformDirIsBaseDir | src/spyglass/settings.py:419-421 | as written, `waveform_dir` returns the base directory after any load |
| Settings.WaveformDirMisses | src/spyglass/settings.py:411-421 | as written, `waveform_dir` differs from `waveforms_dir` whenever nothing sets the waveforms directory |
| Settings.WaveformDirIsWaveformsDir | src/spyglass/settings.py:411-413 | corrected, `waveform_dir` returns the resolved waveforms directory (its default under the base when nothing sets it) |
| Settings.SpyglassDirsSection | src/spyglass/settings.py:363-372 | `spyglass_dirs` has the base and the seven Spyglass keys |
| Settings.SpyglassSectionBase | src/spyglass/settings.py:364 | `spyglass_dirs` holds the base directory as `base` |
| Settings.SpyglassSectionDir | src/spyglass/settings.py:365-371 | `spyglass_dirs` holds each Spyglass directory as resolved |
| Settings.KacheryDirsAsWritten | src/spyglass/settings.py:373-381 | as written, `kachery_dirs` has the keys `cloud`, `storage` and `temp` |
| Settings.KacheryUnknownKey | src/spyglass/settings.py:217-220 | a key that is no Kachery directory reads `KACHERY_BASE_DIR` |
| Settings.LoadedConfigHasNoKacheryBase | src/spyglass/settings.py:112-152 | the loaded configuration never holds `KACHERY_BASE_DIR` |
| Settings.KacheryTempReadsBaseVar | src/spyglass/settings.py:380 | as written, Kachery `temp` reads `KACHERY_BASE_DIR` |
| Settings.KacheryTempIsAlwaysNone | src/spyglass/settings.py:380 | as written, Kachery `temp` is `None` after any load |
| Settings.KacheryDirsSection | src/spyglass/settings.py:373-381 | corrected, `kachery_dirs` has exactly the keys `cloud`, `storage` and `temp` (their values: `Settings.KacheryDirsAfterLoad`) |
| Settings.KacheryDirsAfterLoad | src/spyglass/settings.py:373-381 | corrected, each Kachery entry holds its resolved directory, `cloud` sharing `storage`'s |
| Settings.DjStores | src/spyglass/settings.py:339-355 | the stores are exactly `raw` and `analysis` |
| Settings.DjStoreAfterLoad | src/spyglass/settings.py:339-355 | after loading, the raw and analysis stores sit at the resolved raw and analysis directories |
| Settings.DjCustomSection | src/spyglass/settings.py:357-384 | `custom` as written: exactly the debug mode, both directory sections and the zone, with the as-written `kachery_dirs`, so `temp` is `None` after any load (`KacheryTempIsAlwaysNone`) |
| Settings.DjCustomSectionCorrected | src/spyglass/settings.py:357-384 | corrected, `custom` has the same keys, its `kachery_dirs` being the corrected section |
| Settings.DjCustomKachery | src/spyglass/settings.py:373-381 | the program's and the corrected `kachery_dirs` have the same keys and agree on all but `temp` |
| Settings.DebugModeText | src/spyglass/settings.py:362 | a custom true or false flag is written back as `true` or `false` |
| Settings.OverridesHold | src/spyglass/settings.py:256-265 | the keyword arguments gain host, port, TLS and a given user, and keep everything else |
| Settings.MergePrecedence | src/spyglass/settings.py:267-268 | in the merge the keyword arguments win, then `custom`, then `stores`, then the defaults |
| Settings.DjConfigKeys | src/spyglass/settings.py:252-268 | the keys of the generated configuration |
| Settings.DjConfigConnection | src/spyglass/settings.py:256-268 | host, port and TLS always come from the arguments, and the user does when given |
| Settings.DjConfigPrecedence | src/spyglass/settings.py:256-268 | other keyword arguments win over `stores`, `custom` and the defaults; `custom` and `stores` win over the defaults |
| Settings.SpyglassConfig.constructor | src/spyglass/settings.py:21-59 | nothing loaded, the base directory as supplied, the DataJoint defaults from the keyword arguments |
| Settings.SpyglassConfig.LoadEnvVars | src/spyglass/settings.py:158-162 | the loop loads exactly the three default variables, each from the environment or its default |
| Settings.SpyglassConfig.LoadConfig | src/spyglass/settings.py:67-156 | a loaded configuration is returned as is unless reload is forced; otherwise it fails exactly when no usable base exists, changing nothing, and on success the configuration is `LoadedConfig` |
| Settings.SpyglassConfig.GenerateDjConfig | src/spyglass/settings.py:222-268 | a given base directory is kept and forces a reload, which can fail only on a missing base; the result is the merged DataJoint configuration, with `custom` as the program builds it (Kachery `temp` is `None`) |

## Left out

- DataJoint fetches and inserts, NWB and analysis-file I/O, printing, plotting and video writing. The tables these read are arguments.
- The ripple detectors themselves, the Hilbert envelope (`get_envelope`), `gaussian_smooth` and `np.sqrt`. The envelope, the smoothing and the square root are function parameters of `Consensus.ConsensusTrace`.
- `interval_list_intersect` and `get_electrode_indices` are not part of this model.
  - `RippleAssembly.ClipIntervals` models the intersection with one interval as clipping each valid interval to it and dropping empty results.
  - `RippleAssembly.ElectrodeIndices` takes an id's first position in the dataset.
- Numbers are reals. NaN is the `Missing` cell, so floating-point rounding is not modelled.
- `Frames.Interpolate` models only pandas' default forward fill: linear between neighbours by row position, the last value carried on, and leading gaps left.
- `RippleSelection.SetLfpElectrodes`:
  - Sort stability is not modelled; ids are plain integers.
  - The insertion into `RippleLFPSelection` and its part table is not modelled. The result is the rows that would be inserted.
  - The `UserWarning` of `validate_key` is an error value.
- `PositionColumns.FixColNames`: the user's answer to the prompt is a parameter.
- `PositionVideo.FillNan`:
  - It models only a two-dimensional `variable`. The one-dimensional `IndexError` path is not modelled.
  - When several samples land in one frame it keeps the last, which is NumPy's behaviour for repeated indices.
  - When the sample rows fail to broadcast and there are also no frames, it reports the shape mismatch. Which of the two errors NumPy raises first is not modelled.
  - Timestamps are reals, so NaN timestamps in `np.digitize`'s monotonicity check are not modelled.
- `PositionVideo.EpochOf`: `Text.ParseInt` reads ASCII digits only. Python's `int()` also accepts underscores between digits and non-ASCII decimal digits and whitespace; these are not modelled.
- `Frames.SliceRows`: it models `.loc[lo:hi]` as the filter `lo <= t <= hi`, which is what pandas does on a monotonic index. On a non-monotonic index pandas slices by position between the two labels, or raises `KeyError` when a label is missing; this is not modelled.
- `Settings.JoinPath`: pathlib's normalisation is not modelled. `str(Path(base) / name)` drops `.` components and repeated or trailing separators of the base (`./data` gives `data/raw`). The model keeps the base as written.
- `PositionVideo.make`: only the epoch and the output file name are modelled. The downsampling by `np.digitize(right=True)` and the rest are not.
- `NodePicking.NodePicker.ClickEvent`:
  - Drawing (`redraw`), `connect`, `disconnect` and the video frame are not modelled.
  - `node_positions` is the `nodes` field.
- `Settings`:
  - Writing `os.environ`, creating directories and updating the global `dj.config` are not modelled. This covers `_set_dj_config_stores` and `save_dj_config`, and with them the stores check that can raise.
  - The module-level singleton is not modelled.
  - Path existence is the `existing` set of the `World`.
- `Consensus.ConsensusTrace`: results are two-dimensional envelopes and one-dimensional smoothed energies. A one-dimensional envelope of one value per channel broadcasts as the single row `Consensus.Broadcast` accepts; results of other dimensions are not representable.
- `Consensus.ValidValues`: its own contract states only a length bound. Its meaning is stated by `Consensus.ValidValuesAt`, `Consensus.RankSkipsInvalid` and `Consensus.RankOnto`.
- `RippleAssembly.LfpsAndPosition`: its own contract covers the success case only. Its rows and errors are stated by `RippleAssembly.LfpsAndPositionRows`, `RippleAssembly.LfpsAndPositionMaskFirst` and `RippleAssembly.LfpsAndPositionNoInterval`.
- `Frames.ColumnNamed`: the contract does not state the values of the series, only its index and length.
- `Frames.ColumnNamed`: column labels are taken as distinct. With a repeated `speed_name` label pandas returns a table of all its columns, not a series; the model takes the first column.
- `Frames.Reindex`: pandas also accepts a repeated index label when the target is that very index. The only caller reindexes onto a sorted union of distinct times, so this case is not modelled.

## Findings

| source | as written | input that shows it | evidently intended | confidence | as-written member | corrected member |
|---|---|---|---|---|---|---|
| src/spyglass/settings.py:419-421 | `waveform_dir` looks up `dir_to_var("waveform")`. `waveform` is no Spyglass directory, so it reads `SPYGLASS_BASE_DIR` and returns the base directory. | any load in which nothing sets the waveforms directory: `waveform_dir` is the base, `waveforms_dir` is `<base>/waveforms` | the waveforms directory, as `waveforms_dir` returns it | high (not executed) | Settings.WaveformDirMisses | Settings.WaveformDirIsWaveformsDir |
| src/spyglass/settings.py:380 | `_dj_custom` fills Kachery `temp` from `dir_to_var("tmp", "kachery")`. `tmp` is the default name, not the key, so it reads `KACHERY_BASE_DIR`, which `load_config` never sets, and the value is always `None`. | any loaded configuration: `kachery_dirs["temp"]` is `None` although `KACHERY_TMP_DIR` is set | the resolved Kachery temp directory, from `dir_to_var("temp", "kachery")`, as `DjCustomSectionCorrected` holds it | high (not executed) | Settings.KacheryTempIsAlwaysNone | Settings.KacheryDirsAfterLoad |

=== FILE: Alignment.dfy ===
/**
 * `interpolate_to_new_time` of ripple/v1/ripple.py: bring a time-indexed
 * table onto a new time base. The table is widened to the sorted union of
 * its own times and the new times, its gaps are filled by pandas' linear
 * fill, and exactly the new times are kept.
 */
module Alignment {
  import opened Wrappers
  import opened Frames

  /** The sorted, de-duplicated union of the old and the new times. */
  function UnionIndex(oldTime: seq<real>, newTime: seq<real>): (u: seq<real>)
    ensures StrictlyIncreasing(u)
    ensures forall t :: t in u <==> t in oldTime || t in newTime
  {
    Unique(oldTime + newTime)
  }

  /**
   * The aligned table: its index is exactly `newTime` (same length and order,
   * repeats included) and its columns are those of `df`. pandas refuses the
   * widening step when `df`'s own index repeats a time.
   */
  function InterpolateToNewTime<L>(df: Frame<L>, newTime: seq<real>): (r: Result<Frame<L>, FrameError>)
    requires WellFormed(df)
    ensures r.Ok? <==> Distinct(df.index)
    ensures r.Err? ==> r.error == DuplicateLabels
    ensures r.Ok? ==> WellFormed(r.value) && r.value.index == newTime && r.value.columns == df.columns
  {
    var union := UnionIndex(df.index, newTime);
    match Reindex(df, union)
    case Err(e) => Err(e)
    case Ok(wide) => Reindex(Interpolate(wide), newTime)
  }

  /** The filled cell that the aligned table shows at new time `t`, read from the widened table. */
  lemma AlignedCell<L>(df: Frame<L>, newTime: seq<real>, k: nat, c: nat)
    requires WellFormed(df) && Distinct(df.index)
    requires k < |newTime| && c < |df.columns|
    ensures var union := UnionIndex(df.index, newTime);
            var wide := Reindex(df, union).value;
            newTime[k] in union &&
            InterpolateToNewTime(df, newTime).value.rows[k][c]
              == FillAt(Column(wide, c), IndexOf(union, newTime[k]))
  {
    var union := UnionIndex(df.index, newTime);
    assert newTime[k] in newTime;
  }

  /**
   * A time present both in the old index and in `newTime` keeps every value
   * the old table held there.
   */
  lemma {:induction false} AlignKeepsValues<L>(df: Frame<L>, newTime: seq<real>, k: nat, c: nat)
    requires WellFormed(df) && Distinct(df.index)
    requires k < |newTime| && c < |df.columns| && newTime[k] in df.index
    requires df.rows[IndexOf(df.index, newTime[k])][c].Num?
    ensures InterpolateToNewTime(df, newTime).value.rows[k][c] == df.rows[IndexOf(df.index, newTime[k])][c]
  {
    var union := UnionIndex(df.index, newTime);
    var wide := Reindex(df, union).value;
    AlignedCell(df, newTime, k, c);
    var u := IndexOf(union, newTime[k]);
    assert Column(wide, c)[u] == wide.rows[u][c] == RowAt(df, union[u])[c];
    FillKeepsValues(Column(wide, c), u);
  }

  /** Column `c` of `df` widened onto `union`. */
  function WideColumn<L>(df: Frame<L>, union: seq<real>, c: nat): (col: seq<Cell>)
    requires WellFormed(df) && Distinct(df.index) && c < |df.columns|
    ensures |col| == |union|
    ensures forall p :: 0 <= p < |union| ==> col[p] == RowAt(df, union[p])[c]
  {
    Column(Reindex(df, union).value, c)
  }

  /** No value up to position `u` of the widened column means no old value up to time `union[u]`. */
  lemma WideColumnMissingUpTo<L>(df: Frame<L>, union: seq<real>, c: nat, u: nat)
    requires WellFormed(df) && Distinct(df.index) && c < |df.columns|
    requires StrictlyIncreasing(union) && u < |union|
    requires forall t :: t in df.index ==> t in union
    requires forall p :: 0 <= p <= u ==> WideColumn(df, union, c)[p].Missing?
    ensures forall j :: 0 <= j < |df.index| && df.index[j] <= union[u] ==> df.rows[j][c].Missing?
  {
    var col := WideColumn(df, union, c);
    forall j | 0 <= j < |df.index| && df.index[j] <= union[u] ensures df.rows[j][c].Missing? {
      assert df.index[j] in df.index;
      var p := IndexOf(union, df.index[j]);
      assert p <= u;
      IndexOfDistinct(df.index, j);
      assert col[p] == df.rows[j][c];
    }
  }

  /** No old value up to time `union[u]` means no value up to position `u` of the widened column. */
  lemma WideColumnMissingFrom<L>(df: Frame<L>, union: seq<real>, c: nat, u: nat)
    requires WellFormed(df) && Distinct(df.index) && c < |df.columns|
    requires StrictlyIncreasing(union) && u < |union|
    requires forall j :: 0 <= j < |df.index| && df.index[j] <= union[u] ==> df.rows[j][c].Missing?
    ensures forall p :: 0 <= p <= u ==> WideColumn(df, union, c)[p].Missing?
  {
    var col := WideColumn(df, union, c);
    forall p | 0 <= p <= u ensures col[p].Missing? {
      if union[p] in df.index {
        var j := IndexOf(df.index, union[p]);
        assert union[p] <= union[u];
        assert col[p] == df.rows[j][c];
      }
    }
  }

  /**
   * A value of the aligned table is missing exactly when the old table has no
   * value in that column at any time up to and including the new time: gaps
   * before the first sample stay missing, every later time is filled.
   */
  lemma {:induction false} AlignMissingIff<L>(df: Frame<L>, newTime: seq<real>, k: nat, c: nat)
    requires WellFormed(df) && Distinct(df.index)
    requires k < |newTime| && c < |df.columns|
    ensures InterpolateToNewTime(df, newTime).value.rows[k][c].Missing?
        <==> forall j :: 0 <= j < |df.index| && df.index[j] <= newTime[k] ==> df.rows[j][c].Missing?
  {
    var union := UnionIndex(df.index, newTime);
    AlignedCell(df, newTime, k, c);
    var u := IndexOf(union, newTime[k]);
    var col := WideColumn(df, union, c);
    FillMissingIff(col, u);
    if forall p :: 0 <= p <= u ==> col[p].Missing? {
      WideColumnMissingUpTo(df, union, c, u);
    }
    if forall j :: 0 <= j < |df.index| && df.index[j] <= union[u] ==> df.rows[j][c].Missing? {
      WideColumnMissingFrom(df, union, c, u);
    }
  }

  /** In every column, once a value appears no later cell is missing. */
  predicate OnlyLeadingGaps<L>(f: Frame<L>) {
    forall i, j, c :: 0 <= i < j < |f.rows| && 0 <= c < |f.rows[i]| && c < |f.rows[j]| && f.rows[i][c].Num?
      ==> f.rows[j][c].Num?
  }

  /** Reindexing onto one's own repeat-free index changes nothing. */
  lemma ReindexOwnIndex<L>(f: Frame<L>)
    requires WellFormed(f) && Distinct(f.index)
    ensures Reindex(f, f.index) == Ok(f)
  {
    var g := Reindex(f, f.index).value;
    forall k | 0 <= k < |f.index| ensures g.rows[k] == f.rows[k] {
      IndexOfDistinct(f.index, k);
    }
    assert g.rows == f.rows;
    assert g == f;
  }

  /** The linear fill leaves a table whose only gaps are leading ones as it is. */
  lemma InterpolateLeadingGaps<L>(f: Frame<L>)
    requires WellFormed(f) && OnlyLeadingGaps(f)
    ensures Interpolate(f) == f
  {
    var g := Interpolate(f);
    forall r | 0 <= r < |f.rows| ensures g.rows[r] == f.rows[r] {
      forall c | 0 <= c < |f.columns| ensures g.rows[r][c] == f.rows[r][c] {
        var col := Column(f, c);
        if col[r].Missing? {
          FillMissingIff(col, r);
        }
      }
    }
  }

  /**
   * Aligning a table onto its own strictly increasing index returns it as it
   * is, provided its only gaps are leading ones (in particular when it has
   * none).
   */
  lemma {:induction false} AlignOntoOwnIndex<L>(df: Frame<L>)
    requires WellFormed(df) && StrictlyIncreasing(df.index) && OnlyLeadingGaps(df)
    ensures InterpolateToNewTime(df, df.index) == Ok(df)
  {
    UniqueOfSortedPlusPresent(df.index, df.index);
    ReindexOwnIndex(df);
    InterpolateLeadingGaps(df);
  }

  /** A table without missing values, on a strictly increasing index, is its own alignment. */
  lemma AlignGapFree<L>(df: Frame<L>)
    requires WellFormed(df) && StrictlyIncreasing(df.index) && GapFree(df)
    ensures InterpolateToNewTime(df, df.index) == Ok(df)
  {
    AlignOntoOwnIndex(df);
  }

  /**
   * Alignment is idempotent: aligning an aligned table again onto the same
   * strictly increasing times gives it back unchanged.
   */
  lemma {:induction false} AlignIdempotent<L>(df: Frame<L>, newTime: seq<real>)
    requires WellFormed(df) && Distinct(df.index) && StrictlyIncreasing(newTime)
    ensures var out := InterpolateToNewTime(df, newTime).value;
            InterpolateToNewTime(out, newTime) == Ok(out)
  {
    var out := InterpolateToNewTime(df, newTime).value;
    forall i, j, c | 0 <= i < j < |out.rows| && 0 <= c < |out.rows[i]| && c < |out.rows[j]| && out.rows[i][c].Num?
      ensures out.rows[j][c].Num?
    {
      AlignMissingIff(df, newTime, i, c);
      AlignMissingIff(df, newTime, j, c);
      assert newTime[i] < newTime[j];
    }
    AlignOntoOwnIndex(out);
  }
}

=== FILE: Consensus.dfy ===
/**
 * `RippleTimesV1.get_Kay_ripple_consensus_trace` (ripple/v1/ripple.py),
 * modelled for its handling of missing samples. The Hilbert envelope, the
 * Gaussian smoothing and the square root are numeric routines of other
 * libraries and are parameters here; the model fixes which rows they see
 * and where their results land.
 */
module Consensus {
  import opened Wrappers
  import opened Frames

  /** numpy refuses to store a result whose shape does not broadcast to the rows it replaces. */
  datatype ConsensusError = ShapeMismatch

  /** `np.all(pd.notnull(row))`: every channel has a value. */
  predicate RowValid(row: seq<Cell>) {
    forall c :: 0 <= c < |row| ==> row[c].Num?
  }

  function Values(row: seq<Cell>): (xs: seq<real>)
    requires RowValid(row)
    ensures |xs| == |row| && forall c :: 0 <= c < |row| ==> row[c] == Num(xs[c])
  {
    seq(|row|, c requires 0 <= c < |row| => row[c].v)
  }

  /** `np.asarray(lfps)[not_null]`: the fully valid rows, in order, as plain numbers. */
  function ValidValues(rows: seq<seq<Cell>>): (vs: seq<seq<real>>)
    ensures |vs| <= |rows|
  {
    if rows == [] then []
    else
      var last := rows[|rows| - 1];
      ValidValues(rows[..|rows| - 1]) + (if RowValid(last) then [Values(last)] else [])
  }

  /** The number of valid rows before row `i`: where row `i`'s results sit among the valid rows. */
  function Rank(rows: seq<seq<Cell>>, i: nat): (k: nat)
    requires i <= |rows|
    ensures k <= |ValidValues(rows)|
    ensures i < |rows| && RowValid(rows[i]) ==> k < |ValidValues(rows)|
  {
    ValidValuesPrefix(rows, i);
    if i < |rows| then
      ValidValuesPrefix(rows, i + 1);
      assert rows[..i + 1][..i] == rows[..i];
      |ValidValues(rows[..i])|
    else |ValidValues(rows[..i])|
  }

  /** The valid rows of a prefix are a prefix of the valid rows. */
  lemma {:induction false} ValidValuesPrefix(rows: seq<seq<Cell>>, i: nat)
    requires i <= |rows|
    ensures ValidValues(rows[..i]) <= ValidValues(rows)
    decreases |rows| - i
  {
    if i < |rows| {
      ValidValuesPrefix(rows, i + 1);
      assert rows[..i + 1][..i] == rows[..i];
    } else {
      assert rows[..i] == rows;
    }
  }

  /** A valid row's numbers sit at its rank among the valid rows. */
  lemma ValidValuesAt(rows: seq<seq<Cell>>, i: nat)
    requires i < |rows| && RowValid(rows[i])
    ensures Rank(rows, i) < |ValidValues(rows)|
    ensures ValidValues(rows)[Rank(rows, i)] == Values(rows[i])
    ensures Rank(rows, i + 1) == Rank(rows, i) + 1
  {
    assert rows[..i + 1][..i] == rows[..i];
    ValidValuesPrefix(rows, i + 1);
  }

  /** An invalid row takes no place among the valid rows. */
  lemma RankSkipsInvalid(rows: seq<seq<Cell>>, i: nat)
    requires i < |rows| && !RowValid(rows[i])
    ensures Rank(rows, i + 1) == Rank(rows, i)
  {
    assert rows[..i + 1][..i] == rows[..i];
  }

  /** Ranks of valid rows increase with the row: results keep the row order. */
  lemma {:induction false} RankIncreasing(rows: seq<seq<Cell>>, a: nat, b: nat)
    requires a < b < |rows| && RowValid(rows[a])
    ensures Rank(rows, a) < Rank(rows, b)
    decreases b - a
  {
    if b == a + 1 {
      ValidValuesAt(rows, a);
    } else {
      RankIncreasing(rows, a, b - 1);
      if RowValid(rows[b - 1]) {
        ValidValuesAt(rows, b - 1);
      } else {
        RankSkipsInvalid(rows, b - 1);
      }
    }
  }

  /** Every valid position is the rank of some valid row: no smoothed value is lost. */
  lemma {:induction false} RankOnto(rows: seq<seq<Cell>>, v: nat)
    requires v < |ValidValues(rows)|
    ensures exists i :: 0 <= i < |rows| && RowValid(rows[i]) && Rank(rows, i) == v
  {
    var init := rows[..|rows| - 1];
    var last := rows[|rows| - 1];
    assert rows[..|rows| - 1] == init;
    if v < |ValidValues(init)| {
      RankOnto(init, v);
      var i :| 0 <= i < |init| && RowValid(init[i]) && Rank(init, i) == v;
      assert init[..i] == rows[..i];
    } else {
      assert RowValid(last);
      assert rows[..|rows| - 1] == init;
    }
  }

  /** The row's channel energy: the sum of squares. */
  function SumSquares(xs: seq<real>): (s: real)
    ensures s >= 0.0
  {
    if xs == [] then 0.0 else SumSquares(xs[..|xs| - 1]) + xs[|xs| - 1] * xs[|xs| - 1]
  }

  /** The envelope has one row per valid row and one column per channel. */
  predicate EnvelopeFits(env: seq<seq<real>>, count: nat, width: nat) {
    |env| == count && forall v :: 0 <= v < |env| ==> |env[v]| == width
  }

  /** The index a broadcast reads along an axis of length `n`: a length-1 axis serves every position. */
  function Along(n: nat, i: nat): (j: nat)
    requires n == 1 || i < n
    ensures j < n
    ensures n != 1 ==> j == i
  {
    if n == 1 then 0 else i
  }

  /**
   * The envelope numpy accepts for `trace[not_null] = envelope`: a row per
   * valid row or a single row, each with a value per channel or a single value.
   */
  predicate EnvelopeBroadcasts(env: seq<seq<real>>, count: nat, width: nat) {
    (|env| == count || |env| == 1) && forall v :: 0 <= v < |env| ==> |env[v]| == width || |env[v]| == 1
  }

  /** The envelope stretched to the valid rows' shape, as numpy's broadcasting stores it. */
  function Broadcast(env: seq<seq<real>>, count: nat, width: nat): (full: seq<seq<real>>)
    requires EnvelopeBroadcasts(env, count, width)
    ensures EnvelopeFits(full, count, width)
    ensures forall v, c :: 0 <= v < count && 0 <= c < width ==>
              full[v][c] == env[Along(|env|, v)][Along(|env[Along(|env|, v)]|, c)]
  {
    seq(count, v requires 0 <= v < count =>
      var row := env[Along(|env|, v)];
      seq(width, c requires 0 <= c < width => row[Along(|row|, c)]))
  }

  /** An envelope that already has the valid rows' shape is stored as it is. */
  lemma BroadcastExact(env: seq<seq<real>>, count: nat, width: nat)
    requires EnvelopeFits(env, count, width)
    ensures EnvelopeBroadcasts(env, count, width)
    ensures Broadcast(env, count, width) == env
  {
    var full := Broadcast(env, count, width);
    forall v | 0 <= v < count
      ensures full[v] == env[v]
    {
      if width == 1 {
        assert full[v][0] == env[v][0];
      }
    }
  }

  /** `trace[not_null] = smoothed`: one value per valid row, or one value for all of them. */
  function Spread(xs: seq<real>, count: nat): (ys: seq<real>)
    requires |xs| == count || |xs| == 1
    ensures |ys| == count && forall v :: 0 <= v < count ==> ys[v] == xs[Along(|xs|, v)]
    ensures |xs| == count ==> ys == xs
  {
    seq(count, v requires 0 <= v < count => xs[Along(|xs|, v)])
  }

  function SumSquaresEach(env: seq<seq<real>>): (e: seq<real>)
    ensures |e| == |env| && forall v :: 0 <= v < |env| ==> e[v] == SumSquares(env[v])
  {
    seq(|env|, v requires 0 <= v < |env| => SumSquares(env[v]))
  }

  /** `np.full_like(lfps, np.nan)`, then the envelope written into the valid rows. */
  method EnvelopeGrid(rows: seq<seq<Cell>>, width: nat, env: seq<seq<real>>) returns (grid: array2<Cell>)
    requires EnvelopeFits(env, |ValidValues(rows)|, width)
    ensures fresh(grid) && grid.Length0 == |rows| && grid.Length1 == width
    ensures forall a, c :: 0 <= a < |rows| && 0 <= c < width ==>
              grid[a, c] == if RowValid(rows[a]) then Num(env[Rank(rows, a)][c]) else Missing
  {
    var n := |rows|;
    grid := new Cell[n, width]((i, c) => Missing);
    var i := 0;
    while i < n
      invariant 0 <= i <= n
      invariant forall a, c :: 0 <= a < n && 0 <= c < width ==>
                  grid[a, c] == if a < i && RowValid(rows[a]) then Num(env[Rank(rows, a)][c]) else Missing
    {
      if RowValid(rows[i]) {
        var v := Rank(rows, i);
        var c := 0;
        while c < width
          invariant 0 <= c <= width
          invariant forall a, d :: 0 <= a < n && 0 <= d < width ==>
                      grid[a, d] == if (a < i && RowValid(rows[a])) || (a == i && d < c)
                                    then Num(env[Rank(rows, a)][d]) else Missing
        {
          grid[i, c] := Num(env[v][c]);
          c := c + 1;
        }
      }
      i := i + 1;
    }
  }

  /** `np.sum(trace ** 2, axis=1)`: one energy per row; a missing cell makes the row's sum missing. */
  method RowEnergies(rows: seq<seq<Cell>>, width: nat, env: seq<seq<real>>, grid: array2<Cell>)
    returns (trace: array<Cell>)
    requires EnvelopeFits(env, |ValidValues(rows)|, width)
    requires forall a :: 0 <= a < |rows| && !RowValid(rows[a]) ==> width > 0
    requires grid.Length0 == |rows| && grid.Length1 == width
    requires forall a, c :: 0 <= a < |rows| && 0 <= c < width ==>
               grid[a, c] == if RowValid(rows[a]) then Num(env[Rank(rows, a)][c]) else Missing
    ensures fresh(trace) && trace.Length == |rows|
    ensures forall a :: 0 <= a < |rows| ==>
              trace[a] == if RowValid(rows[a]) then Num(SumSquares(env[Rank(rows, a)])) else Missing
  {
    var n := |rows|;
    trace := new Cell[n];
    var i := 0;
    while i < n
      invariant 0 <= i <= n
      invariant forall a :: 0 <= a < i ==>
                  trace[a] == if RowValid(rows[a]) then Num(SumSquares(env[Rank(rows, a)])) else Missing
    {
      var acc := Num(0.0);
      var c := 0;
      ghost var xs := if RowValid(rows[i]) then env[Rank(rows, i)] else [];
      while c < width
        invariant 0 <= c <= width
        invariant RowValid(rows[i]) ==> acc == Num(SumSquares(xs[..c]))
        invariant !RowValid(rows[i]) ==> acc == if c == 0 then Num(0.0) else Missing
      {
        if RowValid(rows[i]) {
          assert xs[..c + 1][..c] == xs[..c];
        }
        var x := grid[i, c];
        acc := if acc.Num? && x.Num? then Num(acc.v + x.v * x.v) else Missing;
        c := c + 1;
      }
      if RowValid(rows[i]) {
        assert xs[..width] == xs;
      }
      trace[i] := acc;
      i := i + 1;
    }
  }

  /** `trace[not_null]`: the energies of the valid rows, in row order. */
  method ValidEnergies(rows: seq<seq<Cell>>, env: seq<seq<real>>, trace: array<Cell>)
    returns (energies: seq<real>)
    requires |env| == |ValidValues(rows)| && trace.Length == |rows|
    requires forall a :: 0 <= a < |rows| ==>
               trace[a] == if RowValid(rows[a]) then Num(SumSquares(env[Rank(rows, a)])) else Missing
    ensures energies == SumSquaresEach(env)
  {
    var n := |rows|;
    energies := [];
    var i := 0;
    while i < n
      invariant 0 <= i <= n
      invariant energies == SumSquaresEach(env[..Rank(rows, i)])
    {
      if RowValid(rows[i]) {
        ValidValuesAt(rows, i);
        assert env[..Rank(rows, i + 1)] == env[..Rank(rows, i)] + [env[Rank(rows, i)]];
        energies := energies + [trace[i].v];
      } else {
        RankSkipsInvalid(rows, i);
      }
      i := i + 1;
    }
    assert rows[..n] == rows;
    assert env[..Rank(rows, n)] == env;
  }

  /** `trace[not_null] = smoothed`, then `np.sqrt` over the whole trace. */
  method StoreSmoothed(rows: seq<seq<Cell>>, smoothed: seq<real>, sqrt: real -> real, trace: array<Cell>)
    requires |smoothed| == |ValidValues(rows)| && trace.Length == |rows|
    requires forall a :: 0 <= a < |rows| ==> (trace[a].Missing? <==> !RowValid(rows[a]))
    modifies trace
    ensures forall a :: 0 <= a < |rows| ==>
              trace[a] == if RowValid(rows[a]) then Num(sqrt(smoothed[Rank(rows, a)])) else Missing
  {
    var i := 0;
    while i < |rows|
      invariant 0 <= i <= |rows|
      invariant forall a :: 0 <= a < |rows| ==>
                  if a < i then trace[a] == if RowValid(rows[a]) then Num(sqrt(smoothed[Rank(rows, a)])) else Missing
                  else trace[a] == old(trace[a])
    {
      if RowValid(rows[i]) {
        trace[i] := Num(sqrt(smoothed[Rank(rows, i)]));
      } else {
        trace[i] := Missing;
      }
      i := i + 1;
    }
  }

  /**
   * The consensus trace: the envelope of the valid rows, summed over
   * channels as squares, smoothed over the valid rows taken together, then
   * the square root; rows with any missing channel stay missing. Both masked
   * assignments broadcast a result with a single row, value or channel.
   * `envelope`, `smooth` and `sqrt` stand for `get_envelope`,
   * `gaussian_smooth` (with its sigma and sampling rate) and `np.sqrt`.
   */
  method ConsensusTrace(lfps: Frame<int>, envelope: seq<seq<real>> -> seq<seq<real>>,
                        smooth: seq<real> -> seq<real>, sqrt: real -> real)
    returns (r: Result<Series, ConsensusError>)
    requires WellFormed(lfps)
    ensures var count, env := |ValidValues(lfps.rows)|, envelope(ValidValues(lfps.rows));
            r.Err? <==> !EnvelopeBroadcasts(env, count, |lfps.columns|)
                        || var s := |smooth(SumSquaresEach(Broadcast(env, count, |lfps.columns|)))|;
                           s != count && s != 1
    ensures r.Ok? ==> r.value.index == lfps.index && |r.value.values| == |lfps.rows|
    ensures r.Ok? ==> forall i :: 0 <= i < |lfps.rows| ==>
              (r.value.values[i].Missing? <==> !RowValid(lfps.rows[i]))
    ensures r.Ok? ==> var count, env := |ValidValues(lfps.rows)|, envelope(ValidValues(lfps.rows));
            EnvelopeBroadcasts(env, count, |lfps.columns|) &&
            var smoothed := smooth(SumSquaresEach(Broadcast(env, count, |lfps.columns|)));
            (|smoothed| == count || |smoothed| == 1) &&
            forall i :: 0 <= i < |lfps.rows| && RowValid(lfps.rows[i]) ==>
              r.value.values[i] == Num(sqrt(Spread(smoothed, count)[Rank(lfps.rows, i)]))
  {
    var rows := lfps.rows;
    var width := |lfps.columns|;
    var count := |ValidValues(rows)|;
    var raw := envelope(ValidValues(rows));
    if !EnvelopeBroadcasts(raw, count, width) {
      return Err(ShapeMismatch);
    }
    var env := Broadcast(raw, count, width);
    assert forall a :: 0 <= a < |rows| && !RowValid(rows[a]) ==> width > 0;
    var grid := EnvelopeGrid(rows, width, env);
    var trace := RowEnergies(rows, width, env, grid);
    var energies := ValidEnergies(rows, env, trace);
    var smoothed := smooth(energies);
    if |smoothed| != count && |smoothed| != 1 {
      return Err(ShapeMismatch);
    }
    StoreSmoothed(rows, Spread(smoothed, count), sqrt, trace);
    r := Ok(Series(lfps.index, trace[..]));
  }
}

=== FILE: Frames.dfy ===
/**
 * The slice of pandas and numpy that the ripple pipeline uses, on a
 * time-indexed table: `np.unique`, `reindex`, `interpolate(method="linear")`,
 * label slicing `.loc[a:b]`, `pd.concat`, boolean column selection and
 * column access. Times and values are reals; NaN is the cell `Missing`.
 */
module Frames {
  import opened Wrappers

  /** One value of a numeric column: NaN is `Missing`. */
  datatype Cell = Missing | Num(v: real)

  /**
   * A table: column labels, a time index and one row of cells per index
   * entry. `L` is the label type (positional integers for LFP data,
   * names for position data).
   */
  datatype Frame<L> = Frame(columns: seq<L>, index: seq<real>, rows: seq<seq<Cell>>)

  /** A single column with its time index. */
  datatype Series = Series(index: seq<real>, values: seq<Cell>)

  datatype FrameError =
    | DuplicateLabels     // reindex on an axis with duplicate labels
    | NothingToConcat     // pd.concat of an empty list
    | MaskLengthMismatch  // boolean column mask of the wrong length
    | NoSuchColumn        // column label not present
    | EmptyIndex          // positional access into an empty index

  /** Every row has one cell per column and one index entry. */
  predicate WellFormed<L>(f: Frame<L>) {
    |f.index| == |f.rows| && forall r :: 0 <= r < |f.rows| ==> |f.rows[r]| == |f.columns|
  }

  predicate StrictlyIncreasing(s: seq<real>) {
    forall i, j :: 0 <= i < j < |s| ==> s[i] < s[j]
  }

  predicate Distinct(s: seq<real>) {
    forall i, j :: 0 <= i < j < |s| ==> s[i] != s[j]
  }

  /** The position of the first occurrence of `t` in `s`. */
  function IndexOf<T(==)>(s: seq<T>, t: T): (k: nat)
    requires t in s
    ensures k < |s| && s[k] == t
    ensures forall j :: 0 <= j < k ==> s[j] != t
  {
    if s[0] == t then 0 else 1 + IndexOf(s[1..], t)
  }

  lemma IndexOfDistinct(s: seq<real>, k: nat)
    requires Distinct(s) && k < |s|
    ensures IndexOf(s, s[k]) == k
  {
  }

  // ---------------------------------------------------------------------
  // np.unique

  /** Insert `x` into a strictly increasing sequence, dropping it if present. */
  function InsertSorted(s: seq<real>, x: real): (r: seq<real>)
    requires StrictlyIncreasing(s)
    ensures StrictlyIncreasing(r)
    ensures forall t :: t in r <==> t in s || t == x
  {
    if s == [] then [x]
    else if x < s[0] then [x] + s
    else if x == s[0] then s
    else
      var tail := InsertSorted(s[1..], x);
      assert forall k :: 0 <= k < |tail| ==> s[0] < tail[k] by {
        forall k | 0 <= k < |tail| ensures s[0] < tail[k] {
          assert tail[k] in tail;
          if tail[k] != x {
            var j := IndexOf(s[1..], tail[k]);
            assert s[0] < s[1..][j];
          }
        }
      }
      [s[0]] + tail
  }

  /** `np.unique(s)`: the distinct values of `s` in ascending order. */
  function Unique(s: seq<real>): (r: seq<real>)
    ensures StrictlyIncreasing(r)
    ensures forall t :: t in r <==> t in s
  {
    if s == [] then []
    else
      var r := InsertSorted(Unique(s[..|s| - 1]), s[|s| - 1]);
      assert forall t :: t in s <==> t in s[..|s| - 1] || t == s[|s| - 1] by {
        assert s == s[..|s| - 1] + [s[|s| - 1]];
      }
      r
  }

  /** Inserting a value above every element appends it. */
  lemma {:induction false} InsertSortedAbove(s: seq<real>, x: real)
    requires StrictlyIncreasing(s)
    requires forall k :: 0 <= k < |s| ==> s[k] < x
    ensures InsertSorted(s, x) == s + [x]
  {
    if s != [] {
      InsertSortedAbove(s[1..], x);
      assert s == [s[0]] + s[1..];
    }
  }

  /** Inserting a value already present changes nothing. */
  lemma {:induction false} InsertSortedPresent(s: seq<real>, x: real)
    requires StrictlyIncreasing(s) && x in s
    ensures InsertSorted(s, x) == s
  {
    if s[0] != x {
      InsertSortedPresent(s[1..], x);
      assert s == [s[0]] + s[1..];
    }
  }

  /** A strictly increasing sequence is its own `np.unique`. */
  lemma {:induction false} UniqueOfSorted(s: seq<real>)
    requires StrictlyIncreasing(s)
    ensures Unique(s) == s
  {
    if s != [] {
      var init := s[..|s| - 1];
      UniqueOfSorted(init);
      InsertSortedAbove(init, s[|s| - 1]);
      assert init + [s[|s| - 1]] == s;
    }
  }

  /** Adding values already present in a strictly increasing sequence leaves its `np.unique` unchanged. */
  lemma {:induction false} UniqueOfSortedPlusPresent(s: seq<real>, t: seq<real>)
    requires StrictlyIncreasing(s)
    requires forall k :: 0 <= k < |t| ==> t[k] in s
    ensures Unique(s + t) == s
    decreases |t|
  {
    if t == [] {
      assert s + t == s;
      UniqueOfSorted(s);
    } else {
      var u := s + t;
      assert u[..|u| - 1] == s + t[..|t| - 1];
      UniqueOfSortedPlusPresent(s, t[..|t| - 1]);
      InsertSortedPresent(s, t[|t| - 1]);
    }
  }

  // ---------------------------------------------------------------------
  // reindex

  function MissingRow(width: nat): (r: seq<Cell>)
    ensures |r| == width && forall c :: 0 <= c < width ==> r[c] == Missing
  {
    seq(width, _ => Missing)
  }

  /** The row `reindex` gives label `t`: the row stored under `t`, or all missing. */
  function RowAt<L>(f: Frame<L>, t: real): (row: seq<Cell>)
    requires WellFormed(f)
    ensures |row| == |f.columns|
  {
    if t in f.index then f.rows[IndexOf(f.index, t)] else MissingRow(|f.columns|)
  }

  /**
   * `f.reindex(index=target)`: one row per target label, taken from `f` where
   * the label exists and missing elsewhere. pandas refuses when `f`'s own
   * index has a repeated label, unless `target` is that very index; the one
   * caller reindexes onto a sorted union of distinct times, which a repeated
   * label never equals, so that exception is not modelled.
   */
  function Reindex<L>(f: Frame<L>, target: seq<real>): (r: Result<Frame<L>, FrameError>)
    requires WellFormed(f)
    ensures r.Ok? <==> Distinct(f.index)
    ensures r.Err? ==> r.error == DuplicateLabels
    ensures r.Ok? ==> WellFormed(r.value) && r.value.columns == f.columns && r.value.index == target
    ensures r.Ok? ==> forall k :: 0 <= k < |target| ==> r.value.rows[k] == RowAt(f, target[k])
  {
    if !Distinct(f.index) then Err(DuplicateLabels)
    else Ok(Frame(f.columns, target, seq(|target|, k requires 0 <= k < |target| => RowAt(f, target[k]))))
  }

  // ---------------------------------------------------------------------
  // interpolate(method="linear")

  /** Column `c` of `f`, top to bottom. */
  function Column<L>(f: Frame<L>, c: nat): (col: seq<Cell>)
    requires WellFormed(f) && c < |f.columns|
    ensures |col| == |f.rows|
    ensures forall r :: 0 <= r < |f.rows| ==> col[r] == f.rows[r][c]
  {
    seq(|f.rows|, r requires 0 <= r < |f.rows| => f.rows[r][c])
  }

  /** The nearest position before `i` that holds a value. */
  function LastValidBefore(col: seq<Cell>, i: nat): (p: Option<nat>)
    requires i <= |col|
    ensures p.Some? ==> p.value < i && col[p.value].Num?
    ensures p.Some? ==> forall j :: p.value < j < i ==> col[j].Missing?
    ensures p.None? ==> forall j :: 0 <= j < i ==> col[j].Missing?
  {
    if i == 0 then None
    else if col[i - 1].Num? then Some(i - 1)
    else LastValidBefore(col, i - 1)
  }

  /** The nearest position after `i` that holds a value. */
  function NextValidAfter(col: seq<Cell>, i: nat): (q: Option<nat>)
    requires i < |col|
    ensures q.Some? ==> i < q.value < |col| && col[q.value].Num?
    ensures q.Some? ==> forall j :: i < j < q.value ==> col[j].Missing?
    ensures q.None? ==> forall j :: i < j < |col| ==> col[j].Missing?
    decreases |col| - i
  {
    if i + 1 == |col| then None
    else if col[i + 1].Num? then Some(i + 1)
    else NextValidAfter(col, i + 1)
  }

  /**
   * pandas' linear fill of one cell. Rows count as evenly spaced (the index
   * is ignored): a gap between two values is filled on the straight line
   * between them by row position, a gap after the last value repeats it,
   * and a gap before the first value stays missing.
   */
  function FillAt(col: seq<Cell>, i: nat): Cell
    requires i < |col|
  {
    if col[i].Num? then col[i]
    else match LastValidBefore(col, i)
      case None => Missing
      case Some(p) =>
        match NextValidAfter(col, i)
        case None => col[p]
        case Some(q) =>
          Num(col[p].v + (col[q].v - col[p].v) * ((i - p) as real) / ((q - p) as real))
  }

  /** `f.interpolate(method="linear")`, column by column. */
  function Interpolate<L>(f: Frame<L>): (g: Frame<L>)
    requires WellFormed(f)
    ensures WellFormed(g) && g.columns == f.columns && g.index == f.index
    ensures forall r, c :: 0 <= r < |f.rows| && 0 <= c < |f.columns| ==> g.rows[r][c] == FillAt(Column(f, c), r)
  {
    Frame(f.columns, f.index,
      seq(|f.rows|, r requires 0 <= r < |f.rows| =>
        seq(|f.columns|, c requires 0 <= c < |f.columns| => FillAt(Column(f, c), r))))
  }

  /** A value present in a cell is never changed by the fill. */
  lemma FillKeepsValues(col: seq<Cell>, i: nat)
    requires i < |col| && col[i].Num?
    ensures FillAt(col, i) == col[i]
  {
  }

  /** The fill leaves a cell missing exactly when no value sits at or above it in the column. */
  lemma FillMissingIff(col: seq<Cell>, i: nat)
    requires i < |col|
    ensures FillAt(col, i).Missing? <==> forall p :: 0 <= p <= i ==> col[p].Missing?
  {
    if col[i].Missing? {
      match LastValidBefore(col, i)
      case None =>
      case Some(p) =>
        assert col[p].Num?;
    }
  }

  predicate GapFree<L>(f: Frame<L>) {
    forall r, c :: 0 <= r < |f.rows| && 0 <= c < |f.rows[r]| ==> f.rows[r][c].Num?
  }

  /** A table without missing cells is left as it is. */
  lemma InterpolateGapFree<L>(f: Frame<L>)
    requires WellFormed(f) && GapFree(f)
    ensures Interpolate(f) == f
  {
    var g := Interpolate(f);
    forall r | 0 <= r < |f.rows| ensures g.rows[r] == f.rows[r] {
      forall c | 0 <= c < |f.columns| ensures g.rows[r][c] == f.rows[r][c] {
        assert Column(f, c)[r] == f.rows[r][c];
      }
    }
  }

  // ---------------------------------------------------------------------
  // Label slicing and concatenation

  /** `f.loc[lo:hi]`, as pandas reads it on a monotonic index: the rows with `lo <= t <= hi`, in order. */
  function SliceRows<L>(f: Frame<L>, lo: real, hi: real): (g: Frame<L>)
    requires WellFormed(f)
    ensures WellFormed(g) && g.columns == f.columns
    ensures forall k :: 0 <= k < |g.index| ==> lo <= g.index[k] <= hi
    ensures forall t :: t in g.index <==> t in f.index && lo <= t <= hi
    ensures |g.index| <= |f.index|
    decreases |f.rows|
  {
    if f.rows == [] then Frame(f.columns, [], [])
    else
      var rest := SliceRows(Frame(f.columns, f.index[1..], f.rows[1..]), lo, hi);
      assert forall t :: t in f.index <==> t == f.index[0] || t in f.index[1..] by {
        assert f.index == [f.index[0]] + f.index[1..];
      }
      if lo <= f.index[0] <= hi then
        Frame(f.columns, [f.index[0]] + rest.index, [f.rows[0]] + rest.rows)
      else rest
  }

  /** Which entries of `index` lie within `[lo, hi]`. */
  function InRange(index: seq<real>, lo: real, hi: real): (mask: seq<bool>)
    ensures |mask| == |index| && forall j :: 0 <= j < |index| ==> (mask[j] <==> lo <= index[j] <= hi)
  {
    seq(|index|, j requires 0 <= j < |index| => lo <= index[j] <= hi)
  }

  /**
   * The slice keeps exactly the rows whose label lies within `[lo, hi]`,
   * each with its label and cells, in their original order: row `k` of the
   * slice is row `TruePositions(InRange(f.index, lo, hi))[k]` of `f`.
   */
  lemma {:induction false} SliceRowsPositions<L>(f: Frame<L>, lo: real, hi: real)
    requires WellFormed(f)
    ensures var ps := TruePositions(InRange(f.index, lo, hi));
            Picks(SliceRows(f, lo, hi).index, f.index, ps) && Picks(SliceRows(f, lo, hi).rows, f.rows, ps)
    decreases |f.rows|
  {
    if f.rows != [] {
      var tail := Frame(f.columns, f.index[1..], f.rows[1..]);
      SliceRowsPositions(tail, lo, hi);
      var b := lo <= f.index[0] <= hi;
      var rest := SliceRows(tail, lo, hi);
      var tps := TruePositions(InRange(tail.index, lo, hi));
      SliceRowsCons(f, lo, hi);
      InRangeCons(f.index, lo, hi);
      assert f.index == [f.index[0]] + tail.index && f.rows == [f.rows[0]] + tail.rows;
      PrependPositions(f.index[0], tail.index, b, rest.index, tps);
      PrependPositions(f.rows[0], tail.rows, b, rest.rows, tps);
    }
  }

  /** The slice of a non-empty table: its first row, when within bounds, then the slice of the rest. */
  lemma SliceRowsCons<L>(f: Frame<L>, lo: real, hi: real)
    requires WellFormed(f) && f.rows != []
    ensures var rest := SliceRows(Frame(f.columns, f.index[1..], f.rows[1..]), lo, hi);
            var keep := lo <= f.index[0] <= hi;
            && SliceRows(f, lo, hi).index == (if keep then [f.index[0]] else []) + rest.index
            && SliceRows(f, lo, hi).rows == (if keep then [f.rows[0]] else []) + rest.rows
  {
  }

  /** The in-range positions of a non-empty index: `0` when its first label is within bounds, then those of the rest, shifted. */
  lemma InRangeCons(index: seq<real>, lo: real, hi: real)
    requires index != []
    ensures TruePositions(InRange(index, lo, hi))
            == (if lo <= index[0] <= hi then [0] else []) + Shift(TruePositions(InRange(index[1..], lo, hi)))
  {
    assert InRange(index, lo, hi) == [lo <= index[0] <= hi] + InRange(index[1..], lo, hi);
    TruePositionsCons(lo <= index[0] <= hi, InRange(index[1..], lo, hi));
  }

  /** `out` holds the entries of `src` at positions `ps`, in that order. */
  ghost predicate Picks<T>(out: seq<T>, src: seq<T>, ps: seq<nat>) {
    |out| == |ps| && forall k :: 0 <= k < |ps| ==> ps[k] < |src| && out[k] == src[ps[k]]
  }

  /** Picking positions `tps` of `tail` and keeping or dropping `head` picks the shifted positions of `[head] + tail`. */
  lemma PrependPositions<T>(head: T, tail: seq<T>, keep: bool, kept: seq<T>, tps: seq<nat>)
    requires Picks(kept, tail, tps)
    ensures Picks((if keep then [head] else []) + kept, [head] + tail, (if keep then [0] else []) + Shift(tps))
  {
  }

  /** Each position moved one place on. */
  function Shift(ps: seq<nat>): (r: seq<nat>)
    ensures |r| == |ps| && forall k :: 0 <= k < |ps| ==> r[k] == ps[k] + 1
  {
    seq(|ps|, k requires 0 <= k < |ps| => ps[k] + 1)
  }

  /** The true positions of a mask with one more entry in front. */
  lemma {:induction false} TruePositionsCons(b: bool, rest: seq<bool>)
    ensures TruePositions([b] + rest) == (if b then [0] else []) + Shift(TruePositions(rest))
    decreases |rest|
  {
    var m := [b] + rest;
    if rest != [] {
      var init := rest[..|rest| - 1];
      assert m[..|m| - 1] == [b] + init;
      TruePositionsCons(b, init);
      var last := if rest[|rest| - 1] then [|rest|] else [];
      assert TruePositions(rest) == TruePositions(init) + (if rest[|rest| - 1] then [|rest| - 1] else []);
      assert Shift(TruePositions(rest)) == Shift(TruePositions(init)) + last;
    } else {
      assert m[..|m| - 1] == [];
    }
  }

  /** A slice of a strictly increasing index is strictly increasing. */
  lemma {:induction false} SliceRowsIncreasing<L>(f: Frame<L>, lo: real, hi: real)
    requires WellFormed(f) && StrictlyIncreasing(f.index)
    ensures StrictlyIncreasing(SliceRows(f, lo, hi).index)
    decreases |f.rows|
  {
    if f.rows != [] {
      var tail := Frame(f.columns, f.index[1..], f.rows[1..]);
      SliceRowsIncreasing(tail, lo, hi);
      var rest := SliceRows(tail, lo, hi);
      forall k | 0 <= k < |rest.index| ensures f.index[0] < rest.index[k] {
        assert rest.index[k] in tail.index;
      }
    }
  }

  /** `pd.concat(fs, axis=0)` of tables with the same columns. */
  function ConcatRows<L>(columns: seq<L>, fs: seq<Frame<L>>): (g: Frame<L>)
    requires forall i :: 0 <= i < |fs| ==> WellFormed(fs[i]) && fs[i].columns == columns
    ensures WellFormed(g) && g.columns == columns
    ensures |g.index| == |g.rows|
  {
    if fs == [] then Frame(columns, [], [])
    else
      var rest := ConcatRows(columns, fs[1..]);
      assert WellFormed(fs[0]);
      var rows := fs[0].rows + rest.rows;
      assert forall r :: 0 <= r < |rows| ==> |rows[r]| == |columns| by {
        forall r | 0 <= r < |rows| ensures |rows[r]| == |columns| {
          if r < |fs[0].rows| {
            assert rows[r] == fs[0].rows[r];
          } else {
            assert rows[r] == rest.rows[r - |fs[0].rows|];
          }
        }
      }
      Frame(columns, fs[0].index + rest.index, rows)
  }

  /** `pd.concat`, which refuses an empty list. */
  function Concat<L>(columns: seq<L>, fs: seq<Frame<L>>): (r: Result<Frame<L>, FrameError>)
    requires forall i :: 0 <= i < |fs| ==> WellFormed(fs[i]) && fs[i].columns == columns
    ensures r.Err? <==> fs == []
    ensures r.Err? ==> r.error == NothingToConcat
    ensures r.Ok? ==> r.value == ConcatRows(columns, fs)
  {
    if fs == [] then Err(NothingToConcat) else Ok(ConcatRows(columns, fs))
  }

  // ---------------------------------------------------------------------
  // Column selection

  /** The positions of `mask` that are true, in order. */
  function TruePositions(mask: seq<bool>): (ps: seq<nat>)
    ensures forall k :: 0 <= k < |ps| ==> ps[k] < |mask| && mask[ps[k]]
    ensures forall c :: 0 <= c < |mask| && mask[c] ==> c in ps
    ensures forall k, j :: 0 <= k < j < |ps| ==> ps[k] < ps[j]
  {
    if mask == [] then []
    else
      var init := TruePositions(mask[..|mask| - 1]);
      if mask[|mask| - 1] then init + [|mask| - 1] else init
  }

  /** `f.loc[:, mask]`: the columns where the mask is true, in their original order. */
  function SelectColumns<L>(f: Frame<L>, mask: seq<bool>): (r: Result<Frame<L>, FrameError>)
    requires WellFormed(f)
    ensures r.Err? <==> |mask| != |f.columns|
    ensures r.Err? ==> r.error == MaskLengthMismatch
    ensures r.Ok? ==> WellFormed(r.value) && r.value.index == f.index
    ensures r.Ok? ==> |r.value.columns| == |TruePositions(mask)|
    ensures r.Ok? ==> forall k :: 0 <= k < |r.value.columns| ==>
              r.value.columns[k] == f.columns[TruePositions(mask)[k]]
    ensures r.Ok? ==> forall i, k :: 0 <= i < |f.rows| && 0 <= k < |r.value.columns| ==>
              r.value.rows[i][k] == f.rows[i][TruePositions(mask)[k]]
  {
    if |mask| != |f.columns| then Err(MaskLengthMismatch)
    else
      var ps := TruePositions(mask);
      Ok(Frame(
        seq(|ps|, k requires 0 <= k < |ps| => f.columns[ps[k]]),
        f.index,
        seq(|f.rows|, i requires 0 <= i < |f.rows| =>
          seq(|ps|, k requires 0 <= k < |ps| => f.rows[i][ps[k]]))))
  }

  /**
   * `f[name]`: the column labelled `name`, as a series on the same index.
   * Column labels are taken as distinct: with a repeated label pandas returns
   * a table of all its columns, and this takes the first.
   */
  function ColumnNamed<L(==)>(f: Frame<L>, name: L): (r: Result<Series, FrameError>)
    requires WellFormed(f)
    ensures r.Err? <==> name !in f.columns
    ensures r.Ok? ==> r.value.index == f.index && |r.value.values| == |f.index|
  {
    if name !in f.columns then Err(NoSuchColumn)
    else Ok(Series(f.index, Column(f, IndexOf(f.columns, name))))
  }
}

=== FILE: NodePicker.dfy ===
/**
 * The node and edge bookkeeping of `NodePicker` (common/common_position.py),
 * the click-driven tool for laying out a track graph on a video frame.
 * Drawing is not modelled; only `_nodes` and `edges` are.
 */
module NodePicking {
  import opened Wrappers

  /** A point in the axes' data coordinates. */
  datatype Point = Point(x: real, y: real)

  /**
   * A matplotlib button press: whether it fell inside the axes, the
   * modifier key held (`None` when there is none) and the mouse button
   * (1 is left, 3 is right).
   */
  datatype MouseEvent = MouseEvent(inAxes: bool, key: Option<string>, button: int, at: Point)

  /** `event.key not in ["control", "shift"]`. */
  predicate Unmodified(key: Option<string>) {
    key != Some("control") && key != Some("shift")
  }

  /** Squared Euclidean distance: it orders nodes as `np.linalg.norm` does. */
  function SqDist(a: Point, b: Point): (d: real)
    ensures d >= 0.0
  {
    (a.x - b.x) * (a.x - b.x) + (a.y - b.y) * (a.y - b.y)
  }

  /** `np.argmin` of the distances to `p`: a nearest node, the first of equally near ones. */
  function FirstNearest(nodes: seq<Point>, p: Point): (k: nat)
    requires nodes != []
    ensures k < |nodes|
    ensures forall j :: 0 <= j < |nodes| ==> SqDist(nodes[k], p) <= SqDist(nodes[j], p)
    ensures forall j :: 0 <= j < k ==> SqDist(nodes[k], p) < SqDist(nodes[j], p)
  {
    if |nodes| == 1 then 0
    else
      var k := FirstNearest(nodes[..|nodes| - 1], p);
      if SqDist(nodes[|nodes| - 1], p) < SqDist(nodes[k], p) then |nodes| - 1 else k
  }

  /** `list.pop(k)`. */
  function RemoveAt<T>(s: seq<T>, k: nat): (r: seq<T>)
    requires k < |s|
    ensures |r| == |s| - 1
    ensures forall j :: 0 <= j < k ==> r[j] == s[j]
    ensures forall j :: k <= j < |r| ==> r[j] == s[j + 1]
  {
    s[..k] + s[k + 1..]
  }

  /** Every edge but the last joins two nodes; the last one is being built and has at most two. */
  predicate EdgesWellShaped(edges: seq<seq<nat>>) {
    |edges| >= 1
    && (forall e :: 0 <= e < |edges| - 1 ==> |edges[e]| == 2)
    && |edges[|edges| - 1]| <= 2
  }

  /** Control-left: the nearest node joins the open edge, or opens a new one when that is full. */
  function AddToEdges(edges: seq<seq<nat>>, node: nat): (r: seq<seq<nat>>)
    requires |edges| >= 1
  {
    var last := edges[|edges| - 1];
    if |last| < 2 then edges[..|edges| - 1] + [last + [node]] else edges + [[node]]
  }

  /** Adding a node to the edges keeps them well shaped, and adds exactly that node at the end. */
  lemma AddToEdgesShape(edges: seq<seq<nat>>, node: nat)
    requires EdgesWellShaped(edges)
    ensures EdgesWellShaped(AddToEdges(edges, node))
    ensures var r := AddToEdges(edges, node);
            r[|r| - 1][|r[|r| - 1]| - 1] == node
            && (|edges[|edges| - 1]| < 2 ==> |r| == |edges| && r[..|r| - 1] == edges[..|edges| - 1])
            && (|edges[|edges| - 1]| == 2 ==> r[..|edges|] == edges)
  {
  }

  /** Two control-left clicks on a fresh picker make one complete edge. */
  lemma TwoClicksMakeAnEdge(a: nat, b: nat)
    ensures AddToEdges(AddToEdges([[]], a), b) == [[a, b]]
    ensures AddToEdges(AddToEdges(AddToEdges([[]], a), b), a) == [[a, b], [a]]
  {
    var e: seq<seq<nat>> := [[]];
    assert e[|e| - 1] == [] && [] + [a] == [a];
    assert e[..0] + [[a]] == [[a]];
    assert AddToEdges(e, a) == [[a]];
    var one: seq<seq<nat>> := [[a]];
    assert one[..0] == [] && one[0] + [b] == [a, b];
    assert one[..0] + [one[0] + [b]] == [[a, b]];
    assert AddToEdges([[a]], b) == [[a, b]];
  }

  datatype PickError = NoNodes  // with no nodes, `node_positions - point` cannot broadcast shape (0,) against (2,)

  class NodePicker {
    var nodes: seq<Point>
    var edges: seq<seq<nat>>

    ghost predicate Valid()
      reads this
    {
      EdgesWellShaped(edges)
    }

    constructor ()
      ensures nodes == [] && edges == [[]]
      ensures Valid()
    {
      nodes := [];
      edges := [[]];
    }

    /** The index of the node nearest `p`, scanning the nodes in order. */
    method Nearest(p: Point) returns (k: nat)
      requires nodes != []
      ensures k == FirstNearest(nodes, p)
    {
      k := 0;
      var i := 1;
      while i < |nodes|
        invariant 1 <= i <= |nodes|
        invariant k == FirstNearest(nodes[..i], p)
      {
        assert nodes[..i + 1][..i] == nodes[..i];
        if SqDist(nodes[i], p) < SqDist(nodes[k], p) {
          k := i;
        }
        i := i + 1;
      }
      assert nodes[..i] == nodes;
    }

    /** `remove_point`: drop the node nearest `p`, if there is any. */
    method RemovePoint(p: Point)
      modifies this
      ensures edges == old(edges)
      ensures old(nodes) == [] ==> nodes == []
      ensures old(nodes) != [] ==> nodes == RemoveAt(old(nodes), FirstNearest(old(nodes), p))
    {
      if |nodes| > 0 {
        var k := Nearest(p);
        nodes := RemoveAt(nodes, k);
      }
    }

    /** `clear`: no nodes, one empty edge. */
    method Clear()
      modifies this
      ensures nodes == [] && edges == [[]]
      ensures Valid()
    {
      nodes := [];
      edges := [[]];
    }

    /**
     * `click_event`. Outside the axes nothing happens; an unmodified left
     * click adds a node, an unmodified right click removes the nearest one,
     * shift-left clears, and control-left adds the nearest node to the edges
     * (an error, leaving everything as it was, when there is no node).
     */
    method ClickEvent(e: MouseEvent) returns (r: Result<(), PickError>)
      requires Valid()
      modifies this
      ensures Valid()
      ensures r.Err? <==> e.inAxes && e.key == Some("control") && e.button == 1 && old(nodes) == []
      ensures !e.inAxes || r.Err? ==> nodes == old(nodes) && edges == old(edges)
      ensures e.inAxes && Unmodified(e.key) && e.button == 1 ==>
                nodes == old(nodes) + [e.at] && edges == old(edges)
      ensures e.inAxes && Unmodified(e.key) && e.button == 3 ==>
                edges == old(edges)
                && (old(nodes) == [] ==> nodes == [])
                && (old(nodes) != [] ==> nodes == RemoveAt(old(nodes), FirstNearest(old(nodes), e.at)))
      ensures e.inAxes && e.key == Some("shift") && e.button == 1 ==> nodes == [] && edges == [[]]
      ensures e.inAxes && e.key == Some("control") && e.button == 1 && old(nodes) != [] ==>
                nodes == old(nodes) && edges == AddToEdges(old(edges), FirstNearest(old(nodes), e.at))
      ensures e.inAxes && !(Unmodified(e.key) && (e.button == 1 || e.button == 3)) && e.button != 1 ==>
                nodes == old(nodes) && edges == old(edges)
    {
      r := Ok(());
      if !e.inAxes {
        return;
      }
      if Unmodified(e.key) && e.button == 1 {
        nodes := nodes + [e.at];
      }
      if Unmodified(e.key) && e.button == 3 {
        RemovePoint(e.at);
      }
      if e.key == Some("shift") && e.button == 1 {
        Clear();
      }
      if e.key == Some("control") && e.button == 1 {
        if nodes == [] {
          return Err(NoNodes);
        }
        var k := Nearest(e.at);
        AddToEdgesShape(edges, k);
        edges := AddToEdges(edges, k);
      }
    }
  }
}

=== FILE: PositionColumns.dfy ===
/**
 * Column and parameter naming in common/common_position.py:
 * `_fix_col_names` (raw LED position columns), `IntervalPositionInfo._fix_kwargs`
 * (new and legacy parameter names) and the column names of
 * `IntervalPositionInfo._data_to_df`.
 */
module PositionColumns {
  import opened Wrappers
  import opened Frames
  import Text

  // ---------------------------------------------------------------------
  // _fix_col_names

  const DefaultCols: seq<string> := ["xloc", "yloc", "xloc2", "yloc2"]
  const OneIdxCols: seq<string> := ["xloc1", "yloc1", "xloc2", "yloc2"]
  const ZeroIdxCols: seq<string> := ["xloc0", "yloc0", "xloc1", "yloc1"]

  /** Every name of `names` is a column. */
  predicate HasAll(cols: seq<string>, names: seq<string>) {
    forall k :: 0 <= k < |names| ==> names[k] in cols
  }

  predicate DistinctNames(names: seq<string>) {
    forall i, j :: 0 <= i < j < |names| ==> names[i] != names[j]
  }

  predicate Ascending(ps: seq<nat>) {
    forall i, j :: 0 <= i < j < |ps| ==> ps[i] < ps[j]
  }

  /** `lo, lo + 1, …, hi - 1`. */
  function Range(lo: nat, hi: nat): (rs: seq<nat>)
    requires lo <= hi
    ensures |rs| == hi - lo && Ascending(rs)
    ensures forall k :: 0 <= k < |rs| ==> rs[k] == lo + k
  {
    seq(hi - lo, k requires 0 <= k < hi - lo => lo + k)
  }

  lemma RangeConcat(lo: nat, mid: nat, hi: nat)
    requires lo <= mid <= hi
    ensures Range(lo, mid) + Range(mid, hi) == Range(lo, hi)
  {
    var xs, ys := Range(lo, mid) + Range(mid, hi), Range(lo, hi);
    forall k | 0 <= k < |ys| ensures xs[k] == ys[k] {
      if k >= mid - lo {
        assert xs[k] == Range(mid, hi)[k - (mid - lo)];
      }
    }
  }

  /** The positions of the columns labelled `name`, left to right. */
  function Matches(cols: seq<string>, name: string): (ps: seq<nat>)
    ensures Ascending(ps)
    ensures forall k :: 0 <= k < |ps| ==> ps[k] < |cols| && cols[ps[k]] == name
    ensures forall p :: 0 <= p < |cols| && cols[p] == name ==> p in ps
  {
    TruePositions(seq(|cols|, p requires 0 <= p < |cols| => cols[p] == name))
  }

  ghost predicate SameElements(xs: seq<nat>, ys: seq<nat>) {
    forall v :: v in xs <==> v in ys
  }

  /** The head of an ascending list is its least element. */
  lemma AscendingHead(xs: seq<nat>, v: nat)
    requires Ascending(xs) && v in xs
    ensures xs[0] <= v
    ensures v != xs[0] ==> v in xs[1..]
  {
    var i :| 0 <= i < |xs| && xs[i] == v;
    if i > 0 {
      assert xs[1..][i - 1] == v;
    }
  }

  /** Past the head of an ascending list, every element is larger. */
  lemma AscendingTail(xs: seq<nat>, v: nat)
    requires Ascending(xs) && xs != [] && v in xs[1..]
    ensures v in xs && xs[0] < v
  {
    var j :| 0 <= j < |xs[1..]| && xs[1..][j] == v;
    assert xs[j + 1] == v;
  }

  /** Two ascending sequences with the same elements are equal. */
  lemma {:induction false} AscendingUnique(xs: seq<nat>, ys: seq<nat>)
    requires Ascending(xs) && Ascending(ys) && SameElements(xs, ys)
    ensures xs == ys
    decreases |xs|
  {
    if xs != [] {
      assert xs[0] in xs;
    }
    if ys != [] {
      assert ys[0] in ys;
    }
    if xs != [] && ys != [] {
      AscendingHead(ys, xs[0]);
      AscendingHead(xs, ys[0]);
      forall v
        ensures v in xs[1..] <==> v in ys[1..]
      {
        if v in xs[1..] {
          AscendingTail(xs, v);
          AscendingHead(ys, v);
        }
        if v in ys[1..] {
          AscendingTail(ys, v);
          AscendingHead(xs, v);
        }
      }
      AscendingUnique(xs[1..], ys[1..]);
      assert xs == [xs[0]] + xs[1..] && ys == [ys[0]] + ys[1..];
    }
  }

  /** Any ascending list of exactly the positions labelled `name` is `Matches`. */
  lemma MatchesAre(cols: seq<string>, name: string, xs: seq<nat>)
    requires Ascending(xs)
    requires forall k :: 0 <= k < |xs| ==> xs[k] < |cols| && cols[xs[k]] == name
    requires forall p :: 0 <= p < |cols| && cols[p] == name ==> p in xs
    ensures Matches(cols, name) == xs
  {
    var ms := Matches(cols, name);
    forall v
      ensures v in ms <==> v in xs
    {
      if v in ms {
        var k :| 0 <= k < |ms| && ms[k] == v;
      }
      if v in xs {
        var k :| 0 <= k < |xs| && xs[k] == v;
      }
    }
    AscendingUnique(ms, xs);
  }

  /**
   * The columns `df[names]` takes: for each name in turn, every column
   * carrying that label, in table order (pandas looks labels up with
   * `get_indexer_non_unique`, so a repeated label brings all its columns).
   */
  function Selection(cols: seq<string>, names: seq<string>): (ps: seq<nat>)
    ensures forall k :: 0 <= k < |ps| ==> ps[k] < |cols|
  {
    if names == [] then []
    else Selection(cols, names[..|names| - 1]) + Matches(cols, names[|names| - 1])
  }

  /** A present name labels at least one column. */
  lemma MatchesPresent(cols: seq<string>, name: string)
    requires name in cols
    ensures |Matches(cols, name)| >= 1
  {
    var p :| 0 <= p < |cols| && cols[p] == name;
    assert p in Matches(cols, name);
  }

  lemma SelectionSnoc(cols: seq<string>, names: seq<string>)
    requires names != []
    ensures Selection(cols, names)
            == Selection(cols, names[..|names| - 1]) + Matches(cols, names[|names| - 1])
  {
  }

  /** Each name labels exactly one column. */
  predicate LabelledOnce(cols: seq<string>, names: seq<string>) {
    forall k :: 0 <= k < |names| ==> |Matches(cols, names[k])| == 1
  }

  /** The requested names but the last, still all present. */
  lemma HasAllInit(cols: seq<string>, names: seq<string>)
    requires names != [] && HasAll(cols, names)
    ensures HasAll(cols, names[..|names| - 1])
  {
    var init := names[..|names| - 1];
    forall k | 0 <= k < |init| ensures init[k] in cols {
      assert init[k] == names[k];
    }
  }

  /** Every name labelling one column, so does every name but the last. */
  lemma LabelledOnceInit(cols: seq<string>, names: seq<string>)
    requires names != []
    ensures LabelledOnce(cols, names) <==>
              LabelledOnce(cols, names[..|names| - 1]) && |Matches(cols, names[|names| - 1])| == 1
  {
    var init := names[..|names| - 1];
    assert forall k :: 0 <= k < |init| ==> init[k] == names[k];
  }

  /**
   * Every requested name present: `df[names]` has one column per name
   * exactly when no name labels two columns.
   */
  lemma {:induction false} SelectionOnce(cols: seq<string>, names: seq<string>)
    requires HasAll(cols, names)
    ensures |Selection(cols, names)| >= |names|
    ensures |Selection(cols, names)| == |names| <==> LabelledOnce(cols, names)
  {
    if names != [] {
      var init := names[..|names| - 1];
      HasAllInit(cols, names);
      SelectionOnce(cols, init);
      LabelledOnceInit(cols, names);
      MatchesPresent(cols, names[|names| - 1]);
      SelectionSnoc(cols, names);
    }
  }

  /** A name labelling one column: that column is its first. */
  lemma MatchesOnce(cols: seq<string>, name: string)
    requires name in cols && |Matches(cols, name)| == 1
    ensures Matches(cols, name) == [IndexOf(cols, name)]
  {
    assert IndexOf(cols, name) in Matches(cols, name);
  }

  /** The first column of each name, in name order. */
  function FirstPositions(cols: seq<string>, names: seq<string>): (ps: seq<nat>)
    requires HasAll(cols, names)
    ensures |ps| == |names|
    ensures forall k :: 0 <= k < |names| ==> ps[k] == IndexOf(cols, names[k])
  {
    if names == [] then []
    else
      HasAllInit(cols, names);
      var init := names[..|names| - 1];
      assert forall k :: 0 <= k < |init| ==> init[k] == names[k];
      FirstPositions(cols, init) + [IndexOf(cols, names[|names| - 1])]
  }

  /** No requested name labelling two columns, each selected column is the name's first. */
  lemma {:induction false} SelectionOnceAt(cols: seq<string>, names: seq<string>)
    requires HasAll(cols, names) && LabelledOnce(cols, names)
    ensures Selection(cols, names) == FirstPositions(cols, names)
  {
    if names != [] {
      var init, last := names[..|names| - 1], names[|names| - 1];
      HasAllInit(cols, names);
      LabelledOnceInit(cols, names);
      SelectionOnceAt(cols, init);
      MatchesOnce(cols, last);
      SelectionSnoc(cols, names);
    }
  }

  /** `df[names]`: the columns `Selection` finds, labels and data together. */
  function PickColumns(df: Frame<string>, names: seq<string>): (g: Frame<string>)
    requires WellFormed(df)
    ensures WellFormed(g) && g.index == df.index
    ensures var ps := Selection(df.columns, names);
            |g.columns| == |ps|
            && (forall k :: 0 <= k < |ps| ==> g.columns[k] == df.columns[ps[k]])
            && forall i, k :: 0 <= i < |df.rows| && 0 <= k < |ps| ==> g.rows[i][k] == df.rows[i][ps[k]]
  {
    var ps := Selection(df.columns, names);
    Frame(
      seq(|ps|, k requires 0 <= k < |ps| => df.columns[ps[k]]),
      df.index,
      seq(|df.rows|, i requires 0 <= i < |df.rows| =>
        seq(|ps|, k requires 0 <= k < |ps| => df.rows[i][ps[k]])))
  }

  /** The picked columns carry every requested name. */
  lemma PickColumnsHasAll(df: Frame<string>, names: seq<string>)
    requires WellFormed(df) && HasAll(df.columns, names)
    ensures HasAll(PickColumns(df, names).columns, names)
  {
    assert PickColumns(df, names).columns == SelectedLabels(df.columns, names);
    SelectedLabelsHasAll(df.columns, names);
  }

  lemma PrefixIn(xs: seq<string>, n: nat, x: string)
    requires n <= |xs| && x in xs[..n]
    ensures x in xs
  {
    var i :| 0 <= i < n && xs[..n][i] == x;
    assert xs[i] == x;
  }

  /** Every requested name present, some selected column carries each. */
  lemma {:induction false} SelectedLabelsHasAll(cols: seq<string>, names: seq<string>)
    requires HasAll(cols, names)
    ensures HasAll(SelectedLabels(cols, names), names)
  {
    if names != [] {
      var init, last := names[..|names| - 1], names[|names| - 1];
      HasAllInit(cols, names);
      SelectedLabelsHasAll(cols, init);
      SelectedLabelsSplit(cols, names);
      SelectionSnoc(cols, names);
      MatchesPresent(cols, last);
      var ls, front := SelectedLabels(cols, names), SelectedLabels(cols, init);
      var n := |front|;
      assert last in ls by {
        assert ls[n] == last;
      }
      forall j | 0 <= j < |names| ensures names[j] in ls {
        if j < |init| {
          assert names[j] == init[j] && init[j] in ls[..n];
          PrefixIn(ls, n, init[j]);
        } else {
          assert names[j] == last;
        }
      }
    }
  }

  /** `df.columns = names`: pandas refuses a list of the wrong length. */
  function Relabel(df: Frame<string>, names: seq<string>): (r: Result<Frame<string>, ColumnError>)
    requires WellFormed(df)
    ensures r.Err? <==> |names| != |df.columns|
    ensures r.Err? ==> r.error == LengthMismatch
    ensures r.Ok? ==> WellFormed(r.value) && r.value.columns == names
                      && r.value.index == df.index && r.value.rows == df.rows
  {
    if |names| != |df.columns| then Err(LengthMismatch) else Ok(Frame(names, df.index, df.rows))
  }

  /** `input_cols[4:]`, which is empty for a shorter list. */
  function Rest(cols: seq<string>): (r: seq<string>)
    ensures |cols| >= 4 ==> r == cols[4..]
    ensures |cols| < 4 ==> r == []
  {
    if |cols| >= 4 then cols[4..] else []
  }

  datatype ColumnError =
    | UnexpectedColumns(columns: seq<string>)  // the user declined the default names
    | LengthMismatch                           // new column names of the wrong number

  /** The user's reply to the prompt accepts the default names. */
  predicate Accepts(answer: string) {
    Text.Lower(answer) == "yes" || Text.Lower(answer) == "y"
  }

  /**
   * `_fix_col_names`. `answer` is the user's reply to the prompt that is
   * shown when none of the three known conventions is present.
   */
  function FixColNames(df: Frame<string>, answer: string): (r: Result<Frame<string>, ColumnError>)
    requires WellFormed(df)
    ensures r.Ok? ==> WellFormed(r.value) && r.value.index == df.index
    ensures r.Ok? ==> HasAll(r.value.columns, DefaultCols)
    ensures r.Ok? && !HasAll(df.columns, DefaultCols) ==>
              |r.value.columns| >= 4 && r.value.columns[..4] == DefaultCols
  {
    if HasAll(df.columns, DefaultCols) then
      PickColumnsHasAll(df, DefaultCols);
      Ok(PickColumns(df, DefaultCols))
    else if HasAll(df.columns, ZeroIdxCols) then Relabel(PickColumns(df, ZeroIdxCols), DefaultCols)
    else if HasAll(df.columns, OneIdxCols) then Relabel(PickColumns(df, OneIdxCols), DefaultCols)
    else if !Accepts(answer) then Err(UnexpectedColumns(df.columns))
    else Relabel(df, DefaultCols + Rest(df.columns))
  }

  /** The convention a column list follows, tried in the order default, zero-indexed, one-indexed. */
  function Convention(cols: seq<string>): (c: Option<seq<string>>)
    ensures c.Some? ==> HasAll(cols, c.value) && |c.value| == 4
    ensures c.None? <==> !HasAll(cols, DefaultCols) && !HasAll(cols, ZeroIdxCols) && !HasAll(cols, OneIdxCols)
  {
    if HasAll(cols, DefaultCols) then Some(DefaultCols)
    else if HasAll(cols, ZeroIdxCols) then Some(ZeroIdxCols)
    else if HasAll(cols, OneIdxCols) then Some(OneIdxCols)
    else None
  }

  /**
   * When a convention is present, whatever the answer: the convention's
   * columns are taken, every column of a repeated label included, in the
   * convention's order. The default names are kept as they are; an indexed
   * convention is renamed to the default names, which fails exactly when
   * one of its labels is repeated.
   */
  lemma FixColNamesConvention(df: Frame<string>, answer: string)
    requires WellFormed(df) && Convention(df.columns).Some?
    ensures var r := FixColNames(df, answer);
            var names := Convention(df.columns).value;
            var ps := Selection(df.columns, names);
            (r.Ok? <==> names == DefaultCols || LabelledOnce(df.columns, names))
            && (r.Err? ==> r.error == LengthMismatch)
            && (r.Ok? ==> r.value.index == df.index && |r.value.columns| == |ps|)
            && (r.Ok? ==> forall i, k :: 0 <= i < |df.rows| && 0 <= k < |ps| ==>
                            r.value.rows[i][k] == df.rows[i][ps[k]])
            && (r.Ok? && names == DefaultCols ==>
                  forall k :: 0 <= k < |ps| ==> r.value.columns[k] == df.columns[ps[k]])
            && (r.Ok? && names != DefaultCols ==> r.value.columns == DefaultCols)
  {
    SelectionOnce(df.columns, Convention(df.columns).value);
  }

  /**
   * Each label of the convention present exactly once: the result is exactly
   * the four default columns, holding the data of the convention's columns in order.
   */
  lemma FixColNamesDistinct(df: Frame<string>, answer: string)
    requires WellFormed(df) && Convention(df.columns).Some?
    requires LabelledOnce(df.columns, Convention(df.columns).value)
    ensures var r := FixColNames(df, answer);
            var names := Convention(df.columns).value;
            r.Ok? && r.value.columns == DefaultCols && r.value.index == df.index
            && forall i, k :: 0 <= i < |df.rows| && 0 <= k < 4 ==>
                 r.value.rows[i][k] == df.rows[i][IndexOf(df.columns, names[k])]
  {
    var names := Convention(df.columns).value;
    SelectionOnceAt(df.columns, names);
    FixColNamesConvention(df, answer);
    if names == DefaultCols {
      var ps := Selection(df.columns, names);
      var r := FixColNames(df, answer);
      assert r.value.columns == DefaultCols by {
        forall k | 0 <= k < 4 ensures r.value.columns[k] == DefaultCols[k] {
          assert df.columns[ps[k]] == names[k];
        }
      }
    }
  }

  /**
   * Both indexed conventions present: the zero-indexed one wins, and a
   * repeated zero-indexed label is the renaming's length error.
   */
  lemma FixColNamesZeroBeforeOne(df: Frame<string>, answer: string)
    requires WellFormed(df) && !HasAll(df.columns, DefaultCols)
    requires HasAll(df.columns, ZeroIdxCols) && HasAll(df.columns, OneIdxCols)
    ensures FixColNames(df, answer).Ok? <==> LabelledOnce(df.columns, ZeroIdxCols)
    ensures FixColNames(df, answer).Err? ==> FixColNames(df, answer).error == LengthMismatch
    ensures FixColNames(df, answer).Ok? ==>
              FixColNames(df, answer).value.rows == PickColumns(df, ZeroIdxCols).rows
  {
    SelectionOnce(df.columns, ZeroIdxCols);
  }

  /**
   * No known convention: a reply other than yes/y is a `ValueError` naming
   * the columns; on acceptance the first four columns take the default
   * names and the rest keep theirs, with the data untouched, and fewer than
   * four columns cannot be renamed.
   */
  lemma FixColNamesFallback(df: Frame<string>, answer: string)
    requires WellFormed(df) && Convention(df.columns).None?
    ensures !Accepts(answer) ==> FixColNames(df, answer) == Err(UnexpectedColumns(df.columns))
    ensures Accepts(answer) && |df.columns| < 4 ==> FixColNames(df, answer) == Err(LengthMismatch)
    ensures Accepts(answer) && |df.columns| >= 4 ==>
              FixColNames(df, answer) == Ok(Frame(DefaultCols + df.columns[4..], df.index, df.rows))
    ensures Accepts(answer) && |df.columns| >= 4 ==>
              FixColNames(df, answer).value.columns[4..] == df.columns[4..]
  {
  }

  /** Distinct labels select themselves, one position each. */
  lemma {:induction false} SelectionOwn(cols: seq<string>, j: nat)
    requires DistinctNames(cols) && j <= |cols|
    ensures Selection(cols, cols[..j]) == Range(0, j)
  {
    if j > 0 {
      assert cols[..j][..j - 1] == cols[..j - 1];
      SelectionSnoc(cols, cols[..j]);
      SelectionOwn(cols, j - 1);
      MatchesAre(cols, cols[j - 1], [j - 1]);
    }
  }

  /** The labels of the selected columns, in selection order. */
  function SelectedLabels(cols: seq<string>, names: seq<string>): (ls: seq<string>)
    ensures |ls| == |Selection(cols, names)|
    ensures forall k :: 0 <= k < |ls| ==> ls[k] == cols[Selection(cols, names)[k]]
  {
    var ps := Selection(cols, names);
    seq(|ps|, k requires 0 <= k < |ps| => cols[ps[k]])
  }

  /** Every selected column carries one of the requested names. */
  lemma {:induction false} SelectedLabelsIn(cols: seq<string>, names: seq<string>)
    ensures forall k :: 0 <= k < |Selection(cols, names)| ==> cols[Selection(cols, names)[k]] in names
  {
    if names != [] {
      var init, last := names[..|names| - 1], names[|names| - 1];
      SelectedLabelsIn(cols, init);
      var a := Selection(cols, init);
      forall k | 0 <= k < |Selection(cols, names)|
        ensures cols[Selection(cols, names)[k]] in names
      {
        if k < |a| {
          var j :| 0 <= j < |init| && init[j] == cols[a[k]];
          assert names[j] == init[j];
        }
      }
    }
  }

  /** What `df[names]` labels: the labels for all names but the last, then the last name's. */
  lemma SelectedLabelsSplit(cols: seq<string>, names: seq<string>)
    requires names != []
    ensures var n := |Selection(cols, names[..|names| - 1])|;
            n <= |Selection(cols, names)|
            && SelectedLabels(cols, names)[..n] == SelectedLabels(cols, names[..|names| - 1])
            && forall p :: n <= p < |Selection(cols, names)| ==> SelectedLabels(cols, names)[p] == names[|names| - 1]
  {
    var init, last := names[..|names| - 1], names[|names| - 1];
    var a, ps := Selection(cols, init), Selection(cols, names);
    var ls, front := SelectedLabels(cols, names), SelectedLabels(cols, init);
    assert ps == a + Matches(cols, last);
    assert ls[..|a|] == front by {
      forall k | 0 <= k < |a| ensures ls[k] == front[k] {
        assert ps[k] == a[k];
      }
    }
    forall p | |a| <= p < |ps| ensures ls[p] == last {
      assert ps[p] == Matches(cols, last)[p - |a|];
    }
  }

  /** Labels appended after `front`, none of them `name`, leave `name`'s columns where they were. */
  lemma MatchesFront(front: seq<string>, back: seq<string>, name: string)
    requires name !in back
    ensures Matches(front + back, name) == Matches(front, name)
  {
    var ls := front + back;
    forall p | 0 <= p < |ls| && ls[p] == name
      ensures p in Matches(front, name)
    {
      assert p < |front|;
    }
    MatchesAre(ls, name, Matches(front, name));
  }

  /** Labels, all `name`, appended after a `front` without it: `name` labels exactly the appended columns. */
  lemma MatchesBack(front: seq<string>, back: seq<string>, name: string)
    requires name !in front
    requires forall p :: 0 <= p < |back| ==> back[p] == name
    ensures Matches(front + back, name) == Range(|front|, |front| + |back|)
  {
    var ls := front + back;
    var rs := Range(|front|, |front| + |back|);
    forall p | 0 <= p < |ls| && ls[p] == name
      ensures p in rs
    {
      assert p >= |front|;
      assert rs[p - |front|] == p;
    }
    MatchesAre(ls, name, rs);
  }

  /** The last of distinct names is none of the others. */
  lemma LastIsNew(names: seq<string>)
    requires names != [] && DistinctNames(names)
    ensures DistinctNames(names[..|names| - 1])
    ensures names[|names| - 1] !in names[..|names| - 1]
  {
    var init := names[..|names| - 1];
    assert forall j :: 0 <= j < |init| ==> init[j] == names[j];
  }

  /**
   * Labels grouped by name: those of `init` selecting themselves in place,
   * then a run of `last`. Selecting `init` and `last` again keeps every column in place.
   */
  lemma GroupedSelection(front: seq<string>, back: seq<string>, init: seq<string>, last: string)
    requires Selection(front, init) == Range(0, |front|)
    requires last !in front && last !in init
    requires forall p :: 0 <= p < |back| ==> back[p] == last
    ensures Selection(front + back, init + [last]) == Range(0, |front| + |back|)
  {
    var names := init + [last];
    assert names[..|names| - 1] == init;
    SelectionSnoc(front + back, names);
    assert forall p :: 0 <= p < |back| ==> back[p] !in init;
    SelectionFront(front, back, init);
    MatchesBack(front, back, last);
    RangeConcat(0, |front|, |front| + |back|);
  }

  /**
   * Selecting the same distinct names again from what `df[names]` returned
   * takes every column once, in place: the labels come grouped in name order.
   */
  lemma {:induction false} SelectionAgain(cols: seq<string>, names: seq<string>)
    requires DistinctNames(names)
    ensures Selection(SelectedLabels(cols, names), names) == Range(0, |Selection(cols, names)|)
  {
    if names != [] {
      var init, last := names[..|names| - 1], names[|names| - 1];
      LastIsNew(names);
      SelectedLabelsSplit(cols, names);
      var ls, front := SelectedLabels(cols, names), SelectedLabels(cols, init);
      var back := ls[|front|..];
      assert ls == front + back;
      SelectionAgain(cols, init);
      SelectedLabelsIn(cols, init);
      assert last !in front;
      assert names == init + [last];
      GroupedSelection(front, back, init, last);
    }
  }

  /** Columns appended with none of the names leave the selection as it was. */
  lemma SelectionFront(front: seq<string>, back: seq<string>, names: seq<string>)
    requires forall p :: 0 <= p < |back| ==> back[p] !in names
    ensures Selection(front + back, names) == Selection(front, names)
  {
    forall k | 0 <= k < |names|
      ensures Matches(front + back, names[k]) == Matches(front, names[k])
    {
      MatchesFront(front, back, names[k]);
    }
    SelectionPrefix(front + back, front, names);
  }

  /** Selections agree on tables whose `Matches` agree for every name. */
  lemma {:induction false} SelectionPrefix(xs: seq<string>, ys: seq<string>, names: seq<string>)
    requires forall k :: 0 <= k < |names| ==> Matches(xs, names[k]) == Matches(ys, names[k])
    ensures Selection(xs, names) == Selection(ys, names)
  {
    if names != [] {
      var init := names[..|names| - 1];
      forall k | 0 <= k < |init| ensures Matches(xs, init[k]) == Matches(ys, init[k]) {
        assert init[k] == names[k];
      }
      SelectionPrefix(xs, ys, init);
    }
  }

  /** Picking every column once, in place, changes nothing. */
  lemma PickInPlace(out: Frame<string>, names: seq<string>)
    requires WellFormed(out) && Selection(out.columns, names) == Range(0, |out.columns|)
    ensures PickColumns(out, names) == out
  {
    var g := PickColumns(out, names);
    assert g.columns == out.columns;
    forall i | 0 <= i < |out.rows| ensures g.rows[i] == out.rows[i] {
      assert |g.rows[i]| == |out.rows[i]|;
    }
    assert g.rows == out.rows;
  }

  /** A table whose names were fixed through a convention is left as it is. */
  lemma FixColNamesIdempotent(df: Frame<string>, answer: string, again: string)
    requires WellFormed(df) && Convention(df.columns).Some?
    ensures FixColNames(df, answer).Ok? ==>
              FixColNames(FixColNames(df, answer).value, again) == FixColNames(df, answer)
  {
    var r := FixColNames(df, answer);
    if r.Ok? {
      assert DistinctNames(DefaultCols);
      if HasAll(df.columns, DefaultCols) {
        SelectionAgain(df.columns, DefaultCols);
        assert r.value.columns == SelectedLabels(df.columns, DefaultCols);
        PickInPlace(r.value, DefaultCols);
      } else {
        assert r.value.columns == DefaultCols[..4];
        SelectionOwn(DefaultCols, 4);
        PickInPlace(r.value, DefaultCols);
      }
    }
  }

  // ---------------------------------------------------------------------
  // _fix_kwargs

  /**
   * A parameter value: `None` is Python's `None`; `Some(0.0)` is a zero,
   * which Python also treats as false.
   */
  predicate Truthy(p: Option<real>) {
    p.Some? && p.value != 0.0
  }

  /** `kwargs.get(key)`. */
  function Get(kwargs: map<string, Option<real>>, key: string): Option<real> {
    if key in kwargs then kwargs[key] else None
  }

  /** A false new-style value is replaced by the legacy key's value. */
  function Resolve(own: Option<real>, kwargs: map<string, Option<real>>, legacy: string): (p: Option<real>)
    ensures Truthy(own) ==> p == own
    ensures !Truthy(own) ==> p == Get(kwargs, legacy)
  {
    if Truthy(own) then own else Get(kwargs, legacy)
  }

  /** The four smoothing and plausibility parameters, resolved. */
  datatype PositionParams = PositionParams(
    orientSmoothingStdDev: Option<real>,
    speedSmoothingStdDev: Option<real>,
    maxLedSeparation: Option<real>,
    maxPlausibleSpeed: Option<real>)

  datatype ParamError = MissingRequiredParameter

  /** `_fix_kwargs`. */
  function FixKwargs(orient: Option<real>, speed: Option<real>, separation: Option<real>, maxSpeed: Option<real>,
                     kwargs: map<string, Option<real>>): (r: Result<PositionParams, ParamError>)
    ensures r.Err? <==> !Truthy(Resolve(speed, kwargs, "head_speed_smoothing_std_dev"))
                        || !Truthy(Resolve(separation, kwargs, "max_separation"))
                        || !Truthy(Resolve(maxSpeed, kwargs, "max_speed"))
    ensures r.Ok? ==> Truthy(r.value.speedSmoothingStdDev) && Truthy(r.value.maxLedSeparation)
                      && Truthy(r.value.maxPlausibleSpeed)
    // each parameter is its own value when that is true, else whatever its legacy key holds
    ensures r.Ok? ==> r.value.orientSmoothingStdDev
                      == if Truthy(orient) then orient else Get(kwargs, "head_orient_smoothing_std_dev")
    ensures r.Ok? ==> r.value.speedSmoothingStdDev
                      == if Truthy(speed) then speed else Get(kwargs, "head_speed_smoothing_std_dev")
    ensures r.Ok? ==> r.value.maxLedSeparation
                      == if Truthy(separation) then separation else Get(kwargs, "max_separation")
    ensures r.Ok? ==> r.value.maxPlausibleSpeed
                      == if Truthy(maxSpeed) then maxSpeed else Get(kwargs, "max_speed")
  {
    var o := Resolve(orient, kwargs, "head_orient_smoothing_std_dev");
    var s := Resolve(speed, kwargs, "head_speed_smoothing_std_dev");
    var m := Resolve(separation, kwargs, "max_separation");
    var v := Resolve(maxSpeed, kwargs, "max_speed");
    if !(Truthy(s) && Truthy(m) && Truthy(v)) then Err(MissingRequiredParameter)
    else Ok(PositionParams(o, s, m, v))
  }

  /**
   * Set new-style values win over legacy keys; a value given only under its
   * legacy key is used; the orientation parameter may stay unset.
   */
  lemma FixKwargsPrecedence(orient: Option<real>, speed: Option<real>, separation: Option<real>,
                            maxSpeed: Option<real>, kwargs: map<string, Option<real>>)
    requires Truthy(speed) && Truthy(separation) && Truthy(maxSpeed)
    ensures FixKwargs(orient, speed, separation, maxSpeed, kwargs).Ok?
    ensures var p := FixKwargs(orient, speed, separation, maxSpeed, kwargs).value;
            p.speedSmoothingStdDev == speed && p.maxLedSeparation == separation && p.maxPlausibleSpeed == maxSpeed
    ensures !Truthy(orient) && "head_orient_smoothing_std_dev" !in kwargs ==>
              FixKwargs(orient, speed, separation, maxSpeed, kwargs).value.orientSmoothingStdDev == None
  {
  }

  /** The legacy names of the v1 parameter table are enough on their own. */
  lemma FixKwargsLegacyOnly(kwargs: map<string, Option<real>>)
    requires "head_speed_smoothing_std_dev" in kwargs && Truthy(kwargs["head_speed_smoothing_std_dev"])
    requires "max_separation" in kwargs && Truthy(kwargs["max_separation"])
    requires "max_speed" in kwargs && Truthy(kwargs["max_speed"])
    ensures FixKwargs(None, None, None, None, kwargs)
            == Ok(PositionParams(Get(kwargs, "head_orient_smoothing_std_dev"), kwargs["head_speed_smoothing_std_dev"],
                                 kwargs["max_separation"], kwargs["max_speed"]))
  {
  }

  /** A zero counts as missing: a zero speed std-dev with no legacy value is an error. */
  lemma FixKwargsZeroIsMissing(orient: Option<real>, separation: Option<real>, maxSpeed: Option<real>,
                               kwargs: map<string, Option<real>>)
    requires "head_speed_smoothing_std_dev" !in kwargs
    ensures FixKwargs(orient, Some(0.0), separation, maxSpeed, kwargs) == Err(MissingRequiredParameter)
  {
  }

  // ---------------------------------------------------------------------
  // _data_to_df column names

  /** What follows the prefix in each of the six column names, in order. */
  const Suffixes: seq<string> :=
    ["position_x", "position_y", "orientation", "velocity_x", "velocity_y", "speed"]

  const FrameIndexColumn: string := "video_frame_ind"

  /** The columns of `_data_to_df(data, prefix, add_frame_ind)`. */
  function DataToDfColumns(prefix: string, addFrameInd: bool): (cols: seq<string>)
    ensures |cols| == if addFrameInd then 7 else 6
    ensures addFrameInd ==> cols[0] == FrameIndexColumn
  {
    var pos := prefix + "position";
    var ori := prefix + "orientation";
    var vel := prefix + "velocity";
    var base := [pos + "_x", pos + "_y", ori, vel + "_x", vel + "_y", prefix + "speed"];
    if addFrameInd then [FrameIndexColumn] + base else base
  }

  /**
   * Every data column is the prefix followed by its fixed suffix, so the
   * prefix and the quantity can be read back from the name.
   */
  lemma DataToDfColumnsSplit(prefix: string, addFrameInd: bool)
    ensures var cols := DataToDfColumns(prefix, addFrameInd);
            var off := if addFrameInd then 1 else 0;
            forall k :: 0 <= k < 6 ==>
              |cols[k + off]| == |prefix| + |Suffixes[k]|
              && cols[k + off][..|prefix|] == prefix && cols[k + off][|prefix|..] == Suffixes[k]
  {
    var cols := DataToDfColumns(prefix, addFrameInd);
    var off := if addFrameInd then 1 else 0;
    forall k | 0 <= k < 6
      ensures cols[k + off][..|prefix|] == prefix && cols[k + off][|prefix|..] == Suffixes[k]
    {
      assert cols[k + off] == prefix + Suffixes[k];
    }
  }

  /** The column names never clash, whatever the prefix. */
  lemma DataToDfColumnsDistinct(prefix: string, addFrameInd: bool)
    ensures var cols := DataToDfColumns(prefix, addFrameInd);
            forall i, j :: 0 <= i < j < |cols| ==> cols[i] != cols[j]
  {
    var cols := DataToDfColumns(prefix, addFrameInd);
    var off := if addFrameInd then 1 else 0;
    DataToDfColumnsSplit(prefix, addFrameInd);
    forall i, j | 0 <= i < j < |cols| ensures cols[i] != cols[j] {
      if i >= off {
        assert cols[i][|prefix|..] == Suffixes[i - off];
        assert cols[j][|prefix|..] == Suffixes[j - off];
      } else {
        // the frame-index column ends in 'd' where no data column ends in "ind"
        var c := cols[j];
        assert c[|prefix|..] == Suffixes[j - off];
        assert c[|c| - 1] == Suffixes[j - off][|Suffixes[j - off]| - 1];
        if j - off == 5 {
          assert c[|c| - 2] == 'e';
          assert FrameIndexColumn[|FrameIndexColumn| - 2] == 'n';
        }
      }
    }
  }
}

=== FILE: PositionVideo.dfy ===
/**
 * `PositionVideo` in common/common_position.py: the epoch and output file
 * name derived in `make`, and `fill_nan`, which spreads samples over
 * video frames.
 */
module PositionVideo {
  import opened Wrappers
  import opened Frames
  import Text

  // ---------------------------------------------------------------------
  // Epoch and output file name

  datatype VideoError =
    | NotAnEpoch     // int() of the stripped interval name fails
    | NotMonotonic   // fill_nan: the video timestamps after the first neither rise nor fall throughout
    | ShapeMismatch  // fill_nan: samples and sample times differ in number, and there is not one sample to broadcast
    | NoVideoFrames  // fill_nan: sample times but no video timestamps

  /** The interval name with the words `"pos "` and `" valid times"` removed wherever they occur. */
  function IntervalNumeral(intervalName: string): string {
    Text.ReplaceAll(Text.ReplaceAll(intervalName, "pos ", ""), " valid times", "")
  }

  /** The epoch of a position interval `"pos N valid times"`: the number `N`, plus one. */
  function EpochOf(intervalName: string): (r: Result<int, VideoError>)
    ensures r.Err? ==> r.error == NotAnEpoch
    ensures r.Err? <==> Text.ParseInt(IntervalNumeral(intervalName)).None?
    ensures r.Ok? ==> Text.ParseInt(IntervalNumeral(intervalName)) == Some(r.value - 1)
  {
    match Text.ParseInt(IntervalNumeral(intervalName))
    case None => Err(NotAnEpoch)
    case Some(n) => Ok(n + 1)
  }

  /** Removing the fixed words around a numeral leaves the numeral. */
  lemma {:induction false} StripIntervalWords(body: string)
    requires forall i :: 0 <= i < |body| ==> body[i] != 'p' && body[i] != ' '
    ensures IntervalNumeral("pos " + body + " valid times") == body
  {
    var tail := " valid times";
    assert "pos " + body + tail == "pos " + (body + tail);
    Text.ReplaceAllAtStart("pos ", body + tail, "");
    assert forall i :: 0 <= i < |tail| ==> tail[i] != 'p';
    assert forall i :: 0 <= i < |body + tail| ==> (body + tail)[i] != 'p';
    Text.ReplaceAllSkips(body + tail, [], "pos ", "");
    assert body + tail + [] == body + tail;
    assert "" + (body + tail) == body + tail;
    Text.ReplaceAllAtEnd(body, tail, "");
    assert body + "" == body;
  }

  /** The interval name of epoch index `n` reads back as epoch `n + 1`. */
  lemma EpochOfIntervalName(n: nat)
    ensures EpochOf("pos " + Text.NatToString(n) + " valid times") == Ok(n + 1)
  {
    var digits := Text.NatToString(n);
    assert forall i :: 0 <= i < |digits| ==> Text.IsDigit(digits[i]);
    StripIntervalWords(digits);
    Text.ParseIntToString(n);
  }

  /**
   * A name whose middle part holds anything but whitespace, a sign or
   * digits is refused rather than guessed at.
   */
  lemma EpochOfRejects(body: string, c: char)
    requires forall i :: 0 <= i < |body| ==> body[i] != 'p' && body[i] != ' '
    requires c in body && !Text.IsSpace(c) && !Text.IsDigit(c) && c != '-' && c != '+'
    ensures EpochOf("pos " + body + " valid times") == Err(NotAnEpoch)
  {
    StripIntervalWords(body);
    Text.ParseIntRejects(body, c);
  }

  /** `f"{nwb_base_filename}_{epoch:02d}_{param_name}.mp4"`. */
  function OutputFilename(nwbFileName: string, epoch: int, paramName: string): (name: string)
    ensures |name| >= |paramName| + 7
    ensures name[|name| - 4..] == ".mp4"
  {
    Text.ParseFormat02(epoch);
    Text.ReplaceAll(nwbFileName, ".nwb", "") + "_" + Text.Format02(epoch) + "_" + paramName + ".mp4"
  }

  /**
   * For a file `X.nwb` whose stem has no dot, the video is named
   * `X_<epoch, two digits at least>_<parameters>.mp4`, and the epoch field
   * reads back as the epoch.
   */
  lemma OutputFilenameFields(stem: string, epoch: int, paramName: string)
    requires forall i :: 0 <= i < |stem| ==> stem[i] != '.'
    ensures OutputFilename(stem + ".nwb", epoch, paramName)
            == stem + "_" + Text.Format02(epoch) + "_" + paramName + ".mp4"
    ensures |Text.Format02(epoch)| >= 2 && Text.ParseInt(Text.Format02(epoch)) == Some(epoch)
  {
    Text.ReplaceAllAtEnd(stem, ".nwb", "");
    assert stem + "" == stem;
    Text.ParseFormat02(epoch);
  }

  // ---------------------------------------------------------------------
  // fill_nan

  /** `np.digitize(t, bins)` for increasing bins: how many bins lie at or below `t`. */
  function Digitize(bins: seq<real>, t: real): (k: nat)
    ensures k <= |bins|
  {
    if bins == [] then 0
    else Digitize(bins[..|bins| - 1], t) + (if bins[|bins| - 1] <= t then 1 else 0)
  }

  /** `np.digitize(t, bins)` for decreasing bins: how many bins lie above `t`. */
  function DigitizeDecreasing(bins: seq<real>, t: real): (k: nat)
    ensures k <= |bins|
  {
    if bins == [] then 0
    else DigitizeDecreasing(bins[..|bins| - 1], t) + (if t < bins[|bins| - 1] then 1 else 0)
  }

  predicate NonDecreasing(s: seq<real>) {
    forall i, j :: 0 <= i < j < |s| ==> s[i] <= s[j]
  }

  predicate NonIncreasing(s: seq<real>) {
    forall i, j :: 0 <= i < j < |s| ==> s[i] >= s[j]
  }

  /** The bins `np.digitize` accepts; on any others it raises `ValueError`. */
  predicate Monotonic(s: seq<real>) {
    NonDecreasing(s) || NonIncreasing(s)
  }

  /** On increasing bins the count brackets `t`: `bins[k - 1] <= t < bins[k]`. */
  lemma {:induction false} DigitizeBrackets(bins: seq<real>, t: real)
    requires NonDecreasing(bins)
    ensures var k := Digitize(bins, t);
            (forall i :: 0 <= i < k ==> bins[i] <= t) && (forall i :: k <= i < |bins| ==> t < bins[i])
  {
    if bins != [] {
      var init := bins[..|bins| - 1];
      DigitizeBrackets(init, t);
      var k0 := Digitize(init, t);
      if bins[|bins| - 1] <= t {
        forall i | 0 <= i < |bins| - 1 ensures bins[i] <= t {
          assert bins[i] <= bins[|bins| - 1];
        }
      }
    }
  }

  /** On decreasing bins the count brackets `t` from the other side: `bins[k - 1] > t >= bins[k]`. */
  lemma {:induction false} DigitizeDecreasingBrackets(bins: seq<real>, t: real)
    requires NonIncreasing(bins)
    ensures var k := DigitizeDecreasing(bins, t);
            (forall i :: 0 <= i < k ==> t < bins[i]) && (forall i :: k <= i < |bins| ==> bins[i] <= t)
  {
    if bins != [] {
      var init := bins[..|bins| - 1];
      DigitizeDecreasingBrackets(init, t);
      if t < bins[|bins| - 1] {
        forall i | 0 <= i < |bins| - 1 ensures t < bins[i] {
          assert bins[i] >= bins[|bins| - 1];
        }
      }
    }
  }

  /** A later time never lands in an earlier frame. */
  lemma {:induction false} DigitizeMonotone(bins: seq<real>, s: real, t: real)
    requires s <= t
    ensures Digitize(bins, s) <= Digitize(bins, t)
  {
    if bins != [] {
      DigitizeMonotone(bins[..|bins| - 1], s, t);
    }
  }

  /** `video_time[1:]`, empty for no timestamps. */
  function Bins(videoTime: seq<real>): (bins: seq<real>)
    ensures |bins| == if videoTime == [] then 0 else |videoTime| - 1
    ensures forall i :: 0 <= i < |bins| ==> bins[i] == videoTime[i + 1]
  {
    if videoTime == [] then [] else videoTime[1..]
  }

  /**
   * The video frame of a sample at time `t`: `np.digitize(t, video_time[1:])`,
   * which counts the bins at or below `t` when they never fall and those
   * above `t` when they never rise.
   */
  function FrameSlot(videoTime: seq<real>, t: real): (k: nat)
    ensures videoTime != [] ==> k < |videoTime|
  {
    if NonDecreasing(Bins(videoTime)) then Digitize(Bins(videoTime), t) else DigitizeDecreasing(Bins(videoTime), t)
  }

  /**
   * On rising timestamps a sample lands in the last frame that has started
   * by its time (the first frame taking every earlier sample): the frame
   * `s` with `video_time[s] <= t < video_time[s + 1]`.
   */
  lemma FrameSlotWithinFrame(videoTime: seq<real>, t: real)
    requires videoTime != [] && NonDecreasing(Bins(videoTime))
    ensures var s := FrameSlot(videoTime, t);
            (s > 0 ==> videoTime[s] <= t) && (s + 1 < |videoTime| ==> t < videoTime[s + 1])
  {
    DigitizeBrackets(Bins(videoTime), t);
  }

  /** No sample after `k` and before `m` lands in the same frame as sample `k`. */
  predicate LastBefore(videoTime: seq<real>, variableTime: seq<real>, k: nat, m: nat)
    requires k < |variableTime| && m <= |variableTime|
  {
    forall j :: k < j < m ==> FrameSlot(videoTime, variableTime[j]) != FrameSlot(videoTime, variableTime[k])
  }

  /** No later sample lands in the same frame as sample `k`: `k`'s value is the one kept there. */
  predicate LastInSlot(videoTime: seq<real>, variableTime: seq<real>, k: nat)
    requires k < |variableTime|
  {
    LastBefore(videoTime, variableTime, k, |variableTime|)
  }

  /** None of the first `m` samples lands in frame `s`. */
  predicate Unhit(videoTime: seq<real>, variableTime: seq<real>, s: nat, m: nat)
    requires m <= |variableTime|
  {
    forall j :: 0 <= j < m ==> FrameSlot(videoTime, variableTime[j]) != s
  }

  /** The row assigned for sample `k`: NumPy broadcasts a single row to every sample time. */
  function SampleRow(variable: seq<seq<Cell>>, k: nat): (row: seq<Cell>)
    requires |variable| == 1 || k < |variable|
    ensures |variable| == 1 ==> row == variable[0]
    ensures |variable| != 1 ==> row == variable[k]
  {
    if |variable| == 1 then variable[0] else variable[k]
  }

  /**
   * `fill_nan(variable, video_time, variable_time)`: one row of `width`
   * missing values per video frame, then each sample's row written into its
   * frame, a later sample overwriting an earlier one in the same frame.
   */
  method FillNan(variable: seq<seq<Cell>>, width: nat, videoTime: seq<real>, variableTime: seq<real>)
    returns (r: Result<seq<seq<Cell>>, VideoError>)
    requires forall k :: 0 <= k < |variable| ==> |variable[k]| == width
    ensures r.Err? <==> !Monotonic(Bins(videoTime))
                        || (|variable| != |variableTime| && |variable| != 1)
                        || (variableTime != [] && videoTime == [])
    ensures r.Err? ==> r.error == if !Monotonic(Bins(videoTime)) then NotMonotonic
                                  else if |variable| != |variableTime| && |variable| != 1 then ShapeMismatch
                                  else NoVideoFrames
    ensures r.Ok? ==> |r.value| == |videoTime|
    ensures r.Ok? ==> forall s :: 0 <= s < |videoTime| && Unhit(videoTime, variableTime, s, |variableTime|)
                        ==> r.value[s] == MissingRow(width)
    ensures r.Ok? ==> forall k :: 0 <= k < |variableTime| && LastInSlot(videoTime, variableTime, k) ==>
              r.value[FrameSlot(videoTime, variableTime[k])] == SampleRow(variable, k)
  {
    if !Monotonic(Bins(videoTime)) {
      return Err(NotMonotonic);
    }
    if |variable| != |variableTime| && |variable| != 1 {
      return Err(ShapeMismatch);
    }
    if variableTime != [] && videoTime == [] {
      return Err(NoVideoFrames);
    }
    var filled := SpreadSamples(variable, width, videoTime, variableTime);
    r := Ok(filled);
  }

  /**
   * The frames after the first `k` samples are written: frames none of
   * them lands in are still missing, and a frame holds the row of the last
   * of them that lands in it.
   */
  ghost predicate SpreadUpTo(filled: seq<seq<Cell>>, variable: seq<seq<Cell>>, width: nat,
                             videoTime: seq<real>, variableTime: seq<real>, k: nat)
    requires k <= |variableTime| && (|variable| == |variableTime| || |variable| == 1)
  {
    && |filled| == |videoTime|
    && (forall s :: 0 <= s < |filled| && Unhit(videoTime, variableTime, s, k) ==> filled[s] == MissingRow(width))
    && (forall j :: 0 <= j < k && LastBefore(videoTime, variableTime, j, k) ==>
          FrameSlot(videoTime, variableTime[j]) < |filled|
          && filled[FrameSlot(videoTime, variableTime[j])] == SampleRow(variable, j))
  }

  /** Writing sample `k`'s row into its frame extends the written prefix by one sample. */
  lemma SpreadStep(filled: seq<seq<Cell>>, variable: seq<seq<Cell>>, width: nat,
                   videoTime: seq<real>, variableTime: seq<real>, k: nat)
    requires k < |variableTime| && (|variable| == |variableTime| || |variable| == 1) && videoTime != []
    requires SpreadUpTo(filled, variable, width, videoTime, variableTime, k)
    ensures var slot := FrameSlot(videoTime, variableTime[k]);
            SpreadUpTo(filled[slot := SampleRow(variable, k)], variable, width, videoTime, variableTime, k + 1)
  {
    var slot := FrameSlot(videoTime, variableTime[k]);
    var next := filled[slot := SampleRow(variable, k)];
    forall s | 0 <= s < |next| && Unhit(videoTime, variableTime, s, k + 1) ensures next[s] == MissingRow(width) {
      assert s != slot && Unhit(videoTime, variableTime, s, k);
    }
    forall j | 0 <= j < k + 1 && LastBefore(videoTime, variableTime, j, k + 1)
      ensures next[FrameSlot(videoTime, variableTime[j])] == SampleRow(variable, j)
    {
      if j < k {
        assert LastBefore(videoTime, variableTime, j, k) && FrameSlot(videoTime, variableTime[j]) != slot;
      }
    }
  }

  /** The filling loop of `fill_nan`, once `np.digitize` and NumPy's shape checks have passed. */
  method SpreadSamples(variable: seq<seq<Cell>>, width: nat, videoTime: seq<real>, variableTime: seq<real>)
    returns (out: seq<seq<Cell>>)
    requires forall k :: 0 <= k < |variable| ==> |variable[k]| == width
    requires |variable| == |variableTime| || |variable| == 1
    requires variableTime != [] ==> videoTime != []
    ensures |out| == |videoTime|
    ensures forall s :: 0 <= s < |videoTime| && Unhit(videoTime, variableTime, s, |variableTime|)
              ==> out[s] == MissingRow(width)
    ensures forall k :: 0 <= k < |variableTime| && LastInSlot(videoTime, variableTime, k) ==>
              out[FrameSlot(videoTime, variableTime[k])] == SampleRow(variable, k)
  {
    var filled := new seq<Cell>[|videoTime|](_ => MissingRow(width));
    var k := 0;
    while k < |variableTime|
      invariant 0 <= k <= |variableTime|
      invariant SpreadUpTo(filled[..], variable, width, videoTime, variableTime, k)
    {
      var slot := FrameSlot(videoTime, variableTime[k]);
      ghost var before := filled[..];
      SpreadStep(before, variable, width, videoTime, variableTime, k);
      filled[slot] := SampleRow(variable, k);
      assert filled[..] == before[slot := SampleRow(variable, k)];
      k := k + 1;
    }
    out := filled[..];
  }
}

=== FILE: RippleAssembly.dfy ===
/**
 * `RippleTimesV1.get_ripple_lfps_and_position_info` and the detector
 * dispatch of `RippleTimesV1.make` (ripple/v1/ripple.py): choose the LFP
 * columns of the selected electrodes, restrict LFP and position rows to
 * the valid times that lie within the position data, and bring speed onto
 * the LFP time base.
 */
module RippleAssembly {
  import opened Wrappers
  import opened Frames
  import Alignment
  import RippleSelection

  // ---------------------------------------------------------------------
  // The electrode mask

  /** `[elec for elec in electrode_keys if elec in ripple_lfp_electrodes]`. */
  function PresentIds(requested: seq<int>, dataset: seq<int>): (v: seq<int>)
    ensures forall e :: e in v <==> e in requested && e in dataset
    ensures forall k :: 0 <= k < |v| ==> v[k] in dataset
  {
    if requested == [] then []
    else
      var rest := PresentIds(requested[1..], dataset);
      assert forall e :: e in requested <==> e == requested[0] || e in requested[1..] by {
        assert requested == [requested[0]] + requested[1..];
      }
      if requested[0] in dataset then [requested[0]] + rest else rest
  }

  /** `get_electrode_indices`: the dataset position of each id (its first occurrence). */
  function ElectrodeIndices(dataset: seq<int>, ids: seq<int>): (ix: seq<nat>)
    requires forall k :: 0 <= k < |ids| ==> ids[k] in dataset
    ensures |ix| == |ids|
    ensures forall k :: 0 <= k < |ids| ==> ix[k] < |dataset| && dataset[ix[k]] == ids[k]
  {
    seq(|ids|, k requires 0 <= k < |ids| => IndexOf(dataset, ids[k]))
  }

  /**
   * `elec_mask`: one flag per dataset electrode, set exactly where a requested
   * id sits in the dataset (at its first position); requested ids the
   * dataset lacks leave no trace.
   */
  function MaskOf(dataset: seq<int>, requested: seq<int>): (m: seq<bool>)
    ensures |m| == |dataset|
    ensures forall i :: 0 <= i < |dataset| ==>
              (m[i] <==> dataset[i] in requested && IndexOf(dataset, dataset[i]) == i)
  {
    var valid := PresentIds(requested, dataset);
    var ix := ElectrodeIndices(dataset, valid);
    assert forall i :: 0 <= i < |dataset| ==>
             (i in ix <==> dataset[i] in requested && IndexOf(dataset, dataset[i]) == i) by {
      forall i | 0 <= i < |dataset|
        ensures i in ix <==> dataset[i] in requested && IndexOf(dataset, dataset[i]) == i
      {
        if i in ix {
          var k :| 0 <= k < |ix| && ix[k] == i;
          assert ix[k] == IndexOf(dataset, valid[k]);
        }
        if dataset[i] in requested && IndexOf(dataset, dataset[i]) == i {
          assert dataset[i] in valid;
          var k :| 0 <= k < |valid| && valid[k] == dataset[i];
          assert ix[k] == i;
        }
      }
    }
    seq(|dataset|, i requires 0 <= i < |dataset| => i in ix)
  }

  /** On a dataset without repeated electrodes the mask is plain membership in the request. */
  lemma MaskOfDistinct(dataset: seq<int>, requested: seq<int>)
    requires forall i, j :: 0 <= i < j < |dataset| ==> dataset[i] != dataset[j]
    ensures forall i :: 0 <= i < |dataset| ==> (MaskOf(dataset, requested)[i] <==> dataset[i] in requested)
  {
    forall i | 0 <= i < |dataset| ensures IndexOf(dataset, dataset[i]) == i {
      var p := IndexOf(dataset, dataset[i]);
      assert !(p < i) && !(i < p);
    }
  }

  /** Requested ids the dataset lacks are dropped without effect: only the present ones matter. */
  lemma MaskIgnoresUnknown(dataset: seq<int>, requested: seq<int>, unknown: seq<int>)
    requires forall e :: e in unknown ==> e !in dataset
    ensures MaskOf(dataset, requested + unknown) == MaskOf(dataset, requested)
    ensures MaskOf(dataset, requested) == MaskOf(dataset, PresentIds(requested, dataset))
  {
    var m1 := MaskOf(dataset, requested + unknown);
    var m2 := MaskOf(dataset, requested);
    forall i | 0 <= i < |dataset| ensures m1[i] == m2[i] {
      assert dataset[i] in dataset;
      assert dataset[i] in requested + unknown <==> dataset[i] in requested || dataset[i] in unknown;
    }
  }

  /**
   * Lines 224-231: a boolean array of the dataset's length, all false,
   * then set at the index of every requested id present in the dataset.
   */
  method ElectrodeMask(dataset: seq<int>, requested: seq<int>) returns (m: seq<bool>)
    ensures m == MaskOf(dataset, requested)
  {
    var valid: seq<int> := [];
    var k := 0;
    while k < |requested|
      invariant 0 <= k <= |requested|
      invariant forall e :: e in valid <==> e in requested[..k] && e in dataset
    {
      assert requested[..k + 1] == requested[..k] + [requested[k]];
      if requested[k] in dataset {
        valid := valid + [requested[k]];
      }
      k := k + 1;
    }
    assert requested[..k] == requested;

    var mask := new bool[|dataset|](i => false);
    var j := 0;
    while j < |valid|
      invariant 0 <= j <= |valid|
      invariant mask.Length == |dataset|
      invariant forall e :: e in valid <==> e in requested && e in dataset
      invariant forall i :: 0 <= i < |dataset| ==>
                  (mask[i] <==> dataset[i] in valid[..j] && IndexOf(dataset, dataset[i]) == i)
    {
      assert valid[j] in valid;
      var p := IndexOf(dataset, valid[j]);
      assert valid[..j + 1] == valid[..j] + [valid[j]];
      mask[p] := true;
      j := j + 1;
    }
    assert valid[..j] == valid;
    m := mask[..];
    assert forall i :: 0 <= i < |dataset| ==> m[i] == MaskOf(dataset, requested)[i];
  }

  // ---------------------------------------------------------------------
  // Valid times

  /** A closed time interval `[start, stop]`. */
  datatype Interval = Interval(start: real, stop: real)

  predicate Within(iv: Interval, t: real) {
    iv.start <= t <= iv.stop
  }

  /** Some interval of `ivs` contains `t`. */
  predicate Covered(ivs: seq<Interval>, t: real) {
    exists k :: 0 <= k < |ivs| && Within(ivs[k], t)
  }

  lemma CoveredCons(ivs: seq<Interval>, t: real)
    requires ivs != []
    ensures Covered(ivs, t) <==> Within(ivs[0], t) || Covered(ivs[1..], t)
  {
    if Covered(ivs, t) {
      var k :| 0 <= k < |ivs| && Within(ivs[k], t);
      if k > 0 {
        assert Within(ivs[1..][k - 1], t);
      }
    }
    if Covered(ivs[1..], t) {
      var k :| 0 <= k < |ivs[1..]| && Within(ivs[1..][k], t);
      assert Within(ivs[k + 1], t);
    }
  }

  /**
   * `interval_list_intersect(valid_times, [lo, hi])`: each valid interval cut
   * to `[lo, hi]`, dropped when nothing is left, in the given order.
   */
  function ClipIntervals(valid: seq<Interval>, lo: real, hi: real): (r: seq<Interval>)
    ensures |r| <= |valid|
    ensures forall k :: 0 <= k < |r| ==> lo <= r[k].start <= r[k].stop <= hi
  {
    if valid == [] then []
    else
      var s := if valid[0].start < lo then lo else valid[0].start;
      var e := if valid[0].stop < hi then valid[0].stop else hi;
      var rest := ClipIntervals(valid[1..], lo, hi);
      if s <= e then [Interval(s, e)] + rest else rest
  }

  /** A time is in a clipped interval exactly when it is in `[lo, hi]` and in some valid interval. */
  lemma {:induction false} ClipIntervalsCovers(valid: seq<Interval>, lo: real, hi: real, t: real)
    ensures Covered(ClipIntervals(valid, lo, hi), t) <==> lo <= t <= hi && Covered(valid, t)
  {
    if valid != [] {
      ClipIntervalsCovers(valid[1..], lo, hi, t);
      CoveredCons(valid, t);
      var r := ClipIntervals(valid, lo, hi);
      var rest := ClipIntervals(valid[1..], lo, hi);
      if r != rest {
        CoveredCons(r, t);
        assert r[1..] == rest;
      }
    }
  }

  /** One `.loc[start:stop]` slice per interval, in interval order. */
  function SliceEach<L>(f: Frame<L>, ivs: seq<Interval>): (fs: seq<Frame<L>>)
    requires WellFormed(f)
    ensures |fs| == |ivs|
    ensures forall k :: 0 <= k < |ivs| ==>
              fs[k] == SliceRows(f, ivs[k].start, ivs[k].stop) && WellFormed(fs[k]) && fs[k].columns == f.columns
  {
    seq(|ivs|, k requires 0 <= k < |ivs| => SliceRows(f, ivs[k].start, ivs[k].stop))
  }

  /** The concatenated slices hold exactly the times of `f` that some interval covers. */
  lemma {:induction false} ConcatSlicesIndex<L>(f: Frame<L>, ivs: seq<Interval>, t: real)
    requires WellFormed(f)
    ensures t in ConcatRows(f.columns, SliceEach(f, ivs)).index <==> t in f.index && Covered(ivs, t)
  {
    if ivs != [] {
      var fs := SliceEach(f, ivs);
      assert fs[1..] == SliceEach(f, ivs[1..]);
      ConcatSlicesIndex(f, ivs[1..], t);
      var g := ConcatRows(f.columns, fs);
      var rest := ConcatRows(f.columns, fs[1..]);
      assert g.index == fs[0].index + rest.index;
      CoveredCons(ivs, t);
    }
  }

  /** Concatenation keeps the order of its pieces: the rows of earlier tables come first. */
  lemma {:induction false} ConcatRowsAppend<L>(columns: seq<L>, a: seq<Frame<L>>, b: seq<Frame<L>>)
    requires forall i :: 0 <= i < |a| ==> WellFormed(a[i]) && a[i].columns == columns
    requires forall i :: 0 <= i < |b| ==> WellFormed(b[i]) && b[i].columns == columns
    ensures ConcatRows(columns, a + b).index == ConcatRows(columns, a).index + ConcatRows(columns, b).index
    ensures ConcatRows(columns, a + b).rows == ConcatRows(columns, a).rows + ConcatRows(columns, b).rows
  {
    if a != [] {
      assert (a + b)[1..] == a[1..] + b;
      ConcatRowsAppend(columns, a[1..], b);
    } else {
      assert a + b == b;
    }
  }

  /**
   * The valid-time restriction of lines 259-272: the concatenation of the
   * per-interval slices, which pandas refuses when there is no interval.
   */
  function RestrictToIntervals<L>(f: Frame<L>, ivs: seq<Interval>): (r: Result<Frame<L>, FrameError>)
    requires WellFormed(f)
    ensures r.Err? <==> ivs == []
    ensures r.Err? ==> r.error == NothingToConcat
    ensures r.Ok? ==> WellFormed(r.value) && r.value.columns == f.columns
    ensures r.Ok? ==> forall t :: t in r.value.index <==> t in f.index && Covered(ivs, t)
  {
    forall t ensures t in ConcatRows(f.columns, SliceEach(f, ivs)).index <==> t in f.index && Covered(ivs, t) {
      ConcatSlicesIndex(f, ivs, t);
    }
    Concat(f.columns, SliceEach(f, ivs))
  }

  /** Restricting to `a + b` lists the rows for `a` before the rows for `b`. */
  lemma RestrictInIntervalOrder<L>(f: Frame<L>, a: seq<Interval>, b: seq<Interval>)
    requires WellFormed(f) && a != [] && b != []
    ensures RestrictToIntervals(f, a + b).value.index ==
            RestrictToIntervals(f, a).value.index + RestrictToIntervals(f, b).value.index
  {
    assert SliceEach(f, a + b) == SliceEach(f, a) + SliceEach(f, b);
    ConcatRowsAppend(f.columns, SliceEach(f, a), SliceEach(f, b));
  }

  // ---------------------------------------------------------------------
  // get_ripple_lfps_and_position_info

  /** The speed series and the ripple-band LFP table handed to the detector. */
  datatype RippleInputs = RippleInputs(speed: Series, lfps: Frame<int>)

  /**
   * `get_ripple_lfps_and_position_info`. `lfp` is the ripple-band table with
   * positional column labels, `lfpElectrodes` its electrode ids, `selected`
   * the electrode ids of the selection, `validTimes` the target interval
   * list and `position` the position table. Errors, in the order pandas
   * meets them: a mask of the wrong length, empty position data, no valid
   * interval within the position span, repeated position times, no column
   * `speedName`.
   */
  function LfpsAndPosition(lfp: Frame<int>, lfpElectrodes: seq<int>, selected: seq<int>,
                           validTimes: seq<Interval>, position: Frame<string>, speedName: string)
    : (r: Result<RippleInputs, FrameError>)
    requires WellFormed(lfp) && WellFormed(position)
    ensures r.Ok? ==> r.value.speed.index == r.value.lfps.index
    ensures r.Ok? ==> |r.value.speed.values| == |r.value.lfps.index| == |r.value.lfps.rows|
  {
    match SelectColumns(lfp, MaskOf(lfpElectrodes, selected))
    case Err(e) => Err(e)
    case Ok(rippleLfp) =>
      if position.index == [] then Err(EmptyIndex)
      else
        var ivs := ClipIntervals(validTimes, position.index[0], position.index[|position.index| - 1]);
        match RestrictToIntervals(position, ivs)
        case Err(e) => Err(e)
        case Ok(pos) =>
          match RestrictToIntervals(rippleLfp, ivs)
          case Err(e) => Err(e)
          case Ok(lfps) =>
            match Alignment.InterpolateToNewTime(pos, lfps.index)
            case Err(e) => Err(e)
            case Ok(aligned) =>
              match ColumnNamed(aligned, speedName)
              case Err(e) => Err(e)
              case Ok(speed) => Ok(RippleInputs(speed, lfps))
  }

  /**
   * On success the LFP rows are exactly the recorded times inside a valid
   * interval and inside the span of the position data, and the LFP columns
   * are the selected electrodes in dataset order.
   */
  lemma LfpsAndPositionRows(lfp: Frame<int>, lfpElectrodes: seq<int>, selected: seq<int>,
                            validTimes: seq<Interval>, position: Frame<string>, speedName: string, t: real)
    requires WellFormed(lfp) && WellFormed(position)
    requires LfpsAndPosition(lfp, lfpElectrodes, selected, validTimes, position, speedName).Ok?
    ensures var out := LfpsAndPosition(lfp, lfpElectrodes, selected, validTimes, position, speedName).value;
            var lo := position.index[0];
            var hi := position.index[|position.index| - 1];
            (t in out.lfps.index <==> t in lfp.index && lo <= t <= hi && Covered(validTimes, t))
            && |out.lfps.columns| == |TruePositions(MaskOf(lfpElectrodes, selected))|
            && (forall k :: 0 <= k < |out.lfps.columns| ==>
                  out.lfps.columns[k] == lfp.columns[TruePositions(MaskOf(lfpElectrodes, selected))[k]])
  {
    var rippleLfp := SelectColumns(lfp, MaskOf(lfpElectrodes, selected)).value;
    var lo := position.index[0];
    var hi := position.index[|position.index| - 1];
    ClipIntervalsCovers(validTimes, lo, hi, t);
  }

  /** The electrode mask must have one flag per LFP column, or the selection fails first. */
  lemma LfpsAndPositionMaskFirst(lfp: Frame<int>, lfpElectrodes: seq<int>, selected: seq<int>,
                                 validTimes: seq<Interval>, position: Frame<string>, speedName: string)
    requires WellFormed(lfp) && WellFormed(position)
    requires |lfpElectrodes| != |lfp.columns|
    ensures LfpsAndPosition(lfp, lfpElectrodes, selected, validTimes, position, speedName) == Err(MaskLengthMismatch)
  {
  }

  /**
   * With a well-sized mask and position data present, the call fails for
   * want of a valid interval exactly when no valid interval meets the span
   * of the position data.
   */
  lemma LfpsAndPositionNoInterval(lfp: Frame<int>, lfpElectrodes: seq<int>, selected: seq<int>,
                                  validTimes: seq<Interval>, position: Frame<string>, speedName: string)
    requires WellFormed(lfp) && WellFormed(position)
    requires |lfpElectrodes| == |lfp.columns|
    ensures position.index == [] ==>
              LfpsAndPosition(lfp, lfpElectrodes, selected, validTimes, position, speedName) == Err(EmptyIndex)
    ensures position.index != [] ==>
              (LfpsAndPosition(lfp, lfpElectrodes, selected, validTimes, position, speedName) == Err(NothingToConcat)
               <==> ClipIntervals(validTimes, position.index[0], position.index[|position.index| - 1]) == [])
  {
  }

  // ---------------------------------------------------------------------
  // make: the detector dispatch

  /** What `make` hands to the chosen detector. */
  datatype DetectorCall = DetectorCall(
    detector: RippleSelection.Detector,
    time: seq<real>,
    filteredLfps: seq<seq<Cell>>,
    speed: seq<Cell>)

  datatype MakeError =
    | AssemblyFailed(cause: FrameError)  // from get_ripple_lfps_and_position_info
    | UnknownDetector                    // KeyError in RIPPLE_DETECTION_ALGORITHMS

  /**
   * The computing part of `make`: assemble the inputs, then look the
   * algorithm up in the registry and call it on the LFP times, values and speed.
   */
  function Make(lfp: Frame<int>, lfpElectrodes: seq<int>, selected: seq<int>,
                validTimes: seq<Interval>, position: Frame<string>, speedName: string, algorithm: string)
    : (r: Result<DetectorCall, MakeError>)
    requires WellFormed(lfp) && WellFormed(position)
    ensures r.Ok? ==> RippleSelection.DetectorName(r.value.detector) == algorithm
    ensures r.Ok? ==> |r.value.time| == |r.value.filteredLfps| == |r.value.speed|
  {
    match LfpsAndPosition(lfp, lfpElectrodes, selected, validTimes, position, speedName)
    case Err(e) => Err(AssemblyFailed(e))
    case Ok(inputs) =>
      RippleSelection.DetectorRegistryClosed(algorithm);
      match RippleSelection.DetectorNamed(algorithm)
      case None => Err(UnknownDetector)
      case Some(d) => Ok(DetectorCall(d, inputs.lfps.index, inputs.lfps.rows, inputs.speed.values))
  }

  /**
   * Assembly errors come before the registry lookup; once the inputs are
   * assembled the call succeeds exactly for the two registered names.
   */
  lemma MakeDispatch(lfp: Frame<int>, lfpElectrodes: seq<int>, selected: seq<int>,
                     validTimes: seq<Interval>, position: Frame<string>, speedName: string, algorithm: string)
    requires WellFormed(lfp) && WellFormed(position)
    ensures var a := LfpsAndPosition(lfp, lfpElectrodes, selected, validTimes, position, speedName);
            var r := Make(lfp, lfpElectrodes, selected, validTimes, position, speedName, algorithm);
            (a.Err? ==> r == Err(AssemblyFailed(a.error)))
            && (a.Ok? ==> (r.Ok? <==> algorithm == "Kay_ripple_detector" || algorithm == "Karlsson_ripple_detector"))
            && (a.Ok? && r.Ok? ==> r.value.time == a.value.lfps.index && r.value.speed == a.value.speed.values)
  {
    RippleSelection.DetectorRegistryClosed(algorithm);
  }
}

=== FILE: RippleSelection.dfy ===
/**
 * Choosing the LFP channels for ripple detection (ripple/v1/ripple.py):
 * `RippleLFPSelection.validate_key`, `RippleLFPSelection.set_lfp_electrodes`
 * and the registry of detection algorithms.
 */
module RippleSelection {
  import opened Wrappers
  import Text

  datatype SelectionError =
    | NotARippleFilter   // validate_key: "Please use a ripple filter"
    | UnknownElectrode   // set_lfp_electrodes: an id not in the LFPBand dataset

  // ---------------------------------------------------------------------
  // validate_key

  /** `validate_key`: the band-pass filter's name must mention "ripple", in any case. */
  function ValidateKey(filterName: string): (r: Result<(), SelectionError>)
    ensures r.Ok? <==> exists i :: Text.OccursAt(Text.Lower(filterName), "ripple", i)
    ensures r.Err? ==> r.error == NotARippleFilter
  {
    Text.ContainsIffOccurs(Text.Lower(filterName), "ripple");
    if Text.Contains(Text.Lower(filterName), "ripple") then Ok(()) else Err(NotARippleFilter)
  }

  /** Capitals do not matter: a name accepted in one case is accepted in every case. */
  lemma ValidateKeyIgnoresCase(a: string, b: string)
    requires Text.Lower(a) == Text.Lower(b)
    ensures ValidateKey(a) == ValidateKey(b)
  {
  }

  /** A name that is "ripple" plus anything before or after it is accepted. */
  lemma {:induction false} ValidateKeyAcceptsRipple(prefix: string, suffix: string)
    ensures ValidateKey(prefix + "Ripple" + suffix).Ok?
    ensures ValidateKey(prefix + "ripple" + suffix).Ok?
  {
    var n := |prefix|;
    var s1 := prefix + "Ripple" + suffix;
    var s2 := prefix + "ripple" + suffix;
    assert Text.Lower(s1)[n..n + 6] == "ripple";
    assert Text.OccursAt(Text.Lower(s1), "ripple", n);
    assert Text.Lower(s2)[n..n + 6] == "ripple";
    assert Text.OccursAt(Text.Lower(s2), "ripple", n);
  }

  // ---------------------------------------------------------------------
  // set_lfp_electrodes

  /** A row of `LFPBandSelection.LFPBandElectrode` for the key: the fields of its primary key that vary. */
  datatype BandElectrode = BandElectrode(electrodeId: int, electrodeGroupName: string, referenceElectId: int)

  /** A row to insert into `RippleLFPSelection.RippleLFPElectrode`. */
  datatype RippleElectrode = RippleElectrode(electrode: BandElectrode, groupName: string)

  predicate Sorted(s: seq<int>) {
    forall i, j :: 0 <= i < j < |s| ==> s[i] <= s[j]
  }

  /** The `electrode_id` column of the band table. */
  function ElectrodeIds(rows: seq<BandElectrode>): (ids: seq<int>)
    ensures |ids| == |rows|
    ensures forall k :: 0 <= k < |rows| ==> ids[k] == rows[k].electrodeId
  {
    seq(|rows|, k requires 0 <= k < |rows| => rows[k].electrodeId)
  }

  /** The rows of the band table whose electrode id is `id`, in table order. */
  function RowsWithId(rows: seq<BandElectrode>, id: int): (m: seq<BandElectrode>)
    ensures forall k :: 0 <= k < |m| ==> m[k].electrodeId == id && m[k] in rows
    ensures forall k :: 0 <= k < |rows| && rows[k].electrodeId == id ==> rows[k] in m
    ensures m == [] <==> id !in ElectrodeIds(rows)
  {
    if rows == [] then []
    else
      var rest := RowsWithId(rows[1..], id);
      ElectrodeIdsCons(rows);
      if rows[0].electrodeId == id then [rows[0]] + rest else rest
  }

  lemma ElectrodeIdsCons(rows: seq<BandElectrode>)
    requires rows != []
    ensures forall x :: x in ElectrodeIds(rows) <==> x == rows[0].electrodeId || x in ElectrodeIds(rows[1..])
    ensures forall k :: 1 <= k < |rows| ==> rows[k] == rows[1..][k - 1]
  {
    assert ElectrodeIds(rows) == [rows[0].electrodeId] + ElectrodeIds(rows[1..]);
  }

  /**
   * `.set_index("electrode_id").loc[ids]`: for each id in turn, every band row
   * carrying it. pandas raises `KeyError` when an id has no row.
   */
  function LocByIds(rows: seq<BandElectrode>, ids: seq<int>): (m: seq<BandElectrode>)
    requires forall k :: 0 <= k < |ids| ==> ids[k] in ElectrodeIds(rows)
  {
    if ids == [] then [] else RowsWithId(rows, ids[0]) + LocByIds(rows, ids[1..])
  }

  /** The selected rows carry exactly the requested ids: each requested id contributes a row, and no other id does. */
  lemma {:induction false} LocByIdsCovers(rows: seq<BandElectrode>, ids: seq<int>)
    requires forall k :: 0 <= k < |ids| ==> ids[k] in ElectrodeIds(rows)
    ensures forall id :: id in ElectrodeIds(LocByIds(rows, ids)) <==> id in ids
  {
    if ids != [] {
      LocByIdsCovers(rows, ids[1..]);
      var head, rest := RowsWithId(rows, ids[0]), LocByIds(rows, ids[1..]);
      ElectrodeIdsConcat(head, rest);
      RowsWithIdIds(rows, ids[0]);
      assert forall id :: id in ids <==> id == ids[0] || id in ids[1..];
    }
  }

  lemma ElectrodeIdsConcat(a: seq<BandElectrode>, b: seq<BandElectrode>)
    ensures ElectrodeIds(a + b) == ElectrodeIds(a) + ElectrodeIds(b)
  {
  }

  /** The rows found for an id present in the table carry that id and no other. */
  lemma RowsWithIdIds(rows: seq<BandElectrode>, id: int)
    requires id in ElectrodeIds(rows)
    ensures forall x :: x in ElectrodeIds(RowsWithId(rows, id)) <==> x == id
  {
    var m := RowsWithId(rows, id);
    assert ElectrodeIds(m)[0] == id;
  }

  /** Requested ids in ascending order give rows in ascending electrode-id order. */
  lemma {:induction false} LocByIdsSorted(rows: seq<BandElectrode>, ids: seq<int>)
    requires forall k :: 0 <= k < |ids| ==> ids[k] in ElectrodeIds(rows)
    requires Sorted(ids)
    ensures forall i, j :: 0 <= i < j < |LocByIds(rows, ids)| ==>
              LocByIds(rows, ids)[i].electrodeId <= LocByIds(rows, ids)[j].electrodeId
  {
    if ids != [] {
      LocByIdsSorted(rows, ids[1..]);
      LocByIdsCovers(rows, ids[1..]);
      var head := RowsWithId(rows, ids[0]);
      var tail := LocByIds(rows, ids[1..]);
      var m := LocByIds(rows, ids);
      assert m == head + tail;
      forall i, j | 0 <= i < j < |m| ensures m[i].electrodeId <= m[j].electrodeId {
        if j >= |head| {
          assert m[j] == tail[j - |head|];
          var id := tail[j - |head|].electrodeId;
          assert id in ids[1..];
          var q :| 0 <= q < |ids[1..]| && ids[1..][q] == id;
          assert ids[0] <= ids[q + 1];
          if i >= |head| {
            assert m[i] == tail[i - |head|];
          }
        }
      }
    }
  }

  /** The ids `set_lfp_electrodes` uses when it is given none: every electrode of the band table. */
  function DefaultElectrodeList(rows: seq<BandElectrode>): seq<int> {
    ElectrodeIds(rows)
  }

  /**
   * What `set_lfp_electrodes` inserts for an electrode list already sorted in
   * place: the band rows for those ids tagged with `groupName`, or `KeyError`
   * when an id is not in the band table; only then is the filter name checked.
   */
  function ElectrodeKeys(rows: seq<BandElectrode>, ids: seq<int>, groupName: string, filterName: string)
    : (r: Result<seq<RippleElectrode>, SelectionError>)
    ensures r.Err? && r.error == UnknownElectrode <==> exists k :: 0 <= k < |ids| && ids[k] !in ElectrodeIds(rows)
    ensures r.Err? && r.error == NotARippleFilter <==>
              (forall k :: 0 <= k < |ids| ==> ids[k] in ElectrodeIds(rows)) && ValidateKey(filterName).Err?
    ensures r.Ok? <==> (forall k :: 0 <= k < |ids| ==> ids[k] in ElectrodeIds(rows)) && ValidateKey(filterName).Ok?
    ensures r.Ok? ==> forall k :: 0 <= k < |r.value| ==> r.value[k].groupName == groupName
  {
    if exists k :: 0 <= k < |ids| && ids[k] !in ElectrodeIds(rows) then Err(UnknownElectrode)
    else if ValidateKey(filterName).Err? then Err(NotARippleFilter)
    else
      var m := LocByIds(rows, ids);
      Ok(seq(|m|, k requires 0 <= k < |m| => RippleElectrode(m[k], groupName)))
  }

  /** The accepted rows come in ascending electrode-id order and cover exactly the requested ids. */
  lemma ElectrodeKeysOrdered(rows: seq<BandElectrode>, ids: seq<int>, groupName: string, filterName: string)
    requires Sorted(ids)
    requires ElectrodeKeys(rows, ids, groupName, filterName).Ok?
    ensures var keys := ElectrodeKeys(rows, ids, groupName, filterName).value;
            (forall i, j :: 0 <= i < j < |keys| ==> keys[i].electrode.electrodeId <= keys[j].electrode.electrodeId)
            && (forall k :: 0 <= k < |keys| ==> keys[k].electrode.electrodeId in ids && keys[k].electrode in rows)
            && (forall id :: id in ids ==> exists k :: 0 <= k < |keys| && keys[k].electrode.electrodeId == id)
  {
    var keys := ElectrodeKeys(rows, ids, groupName, filterName).value;
    var m := LocByIds(rows, ids);
    LocByIdsSorted(rows, ids);
    LocByIdsCovers(rows, ids);
    LocByIdsInRows(rows, ids);
    assert forall k :: 0 <= k < |keys| ==> keys[k].electrode == m[k];
    forall id | id in ids ensures exists k :: 0 <= k < |keys| && keys[k].electrode.electrodeId == id {
      var k :| 0 <= k < |m| && m[k].electrodeId == id;
      assert keys[k].electrode == m[k];
    }
  }

  lemma {:induction false} LocByIdsInRows(rows: seq<BandElectrode>, ids: seq<int>)
    requires forall k :: 0 <= k < |ids| ==> ids[k] in ElectrodeIds(rows)
    ensures forall k :: 0 <= k < |LocByIds(rows, ids)| ==> LocByIds(rows, ids)[k] in rows
  {
    if ids != [] {
      LocByIdsInRows(rows, ids[1..]);
      var head := RowsWithId(rows, ids[0]);
      var m := LocByIds(rows, ids);
      forall k | 0 <= k < |m| ensures m[k] in rows {
        if k >= |head| {
          assert m[k] == LocByIds(rows, ids[1..])[k - |head|];
        }
      }
    }
  }

  /** Without an explicit list every electrode of the band table is valid, so only the filter name can fail. */
  lemma DefaultListHasNoUnknown(rows: seq<BandElectrode>, ids: seq<int>, groupName: string, filterName: string)
    requires multiset(ids) == multiset(DefaultElectrodeList(rows))
    ensures ElectrodeKeys(rows, ids, groupName, filterName).Err? ==>
              ElectrodeKeys(rows, ids, groupName, filterName).error == NotARippleFilter
  {
    forall k | 0 <= k < |ids| ensures ids[k] in ElectrodeIds(rows) {
      assert ids[k] in multiset(ids);
    }
  }

  // ---------------------------------------------------------------------
  // The in-place sort of the caller's list

  /** `electrode_list.sort()`: ascending, in place, a permutation of what was there. */
  method SortInPlace(a: array<int>)
    modifies a
    ensures Sorted(a[..])
    ensures multiset(a[..]) == old(multiset(a[..]))
  {
    var i := 0;
    while i < a.Length
      invariant 0 <= i <= a.Length
      invariant Sorted(a[..i])
      invariant multiset(a[..]) == old(multiset(a[..]))
    {
      Sink(a, i);
      i := i + 1;
    }
    assert a[..] == a[..a.Length];
  }

  /** One insertion step: `a[i]` sinks into the sorted prefix `a[..i]`, leaving `a[..i + 1]` sorted. */
  method Sink(a: array<int>, i: nat)
    requires i < a.Length && Sorted(a[..i])
    modifies a
    ensures Sorted(a[..i + 1])
    ensures multiset(a[..]) == old(multiset(a[..]))
  {
    var j := i;
    while j > 0 && a[j - 1] > a[j]
      invariant 0 <= j <= i
      invariant forall m, n :: 0 <= m < n <= i && m != j && n != j ==> a[m] <= a[n]
      invariant forall n :: j < n <= i ==> a[j] < a[n]
      invariant multiset(a[..]) == old(multiset(a[..]))
    {
      a[j - 1], a[j] := a[j], a[j - 1];
      j := j - 1;
    }
  }

  /** A sorted arrangement of a multiset of ids is unique. */
  lemma {:induction false} SortedPermutationUnique(a: seq<int>, b: seq<int>)
    requires Sorted(a) && Sorted(b) && multiset(a) == multiset(b)
    ensures a == b
  {
    assert |a| == |multiset(a)| == |multiset(b)| == |b|;
    if a != [] {
      SortedHeads(a, b);
      MultisetTail(a);
      MultisetTail(b);
      SortedPermutationUnique(a[1..], b[1..]);
      assert a == [a[0]] + a[1..] && b == [b[0]] + b[1..];
    }
  }

  /** Two sorted sequences with the same elements start with the same (least) element. */
  lemma SortedHeads(a: seq<int>, b: seq<int>)
    requires Sorted(a) && Sorted(b) && multiset(a) == multiset(b) && a != [] && b != []
    ensures a[0] == b[0]
  {
    assert a[0] in multiset(b) && b[0] in multiset(a);
    var i :| 0 <= i < |b| && b[i] == a[0];
    var j :| 0 <= j < |a| && a[j] == b[0];
    assert b[0] <= b[i] && a[0] <= a[j];
  }

  lemma MultisetTail(a: seq<int>)
    requires a != []
    ensures multiset(a[1..]) == multiset(a) - multiset{a[0]}
  {
    assert a == [a[0]] + a[1..];
  }

  /**
   * `set_lfp_electrodes`: sort the caller's list in place (or the band
   * table's ids when there is none) and return the rows it would insert.
   */
  method SetLfpElectrodes(rows: seq<BandElectrode>, electrodeList: Option<array<int>>,
                          groupName: string, filterName: string)
    returns (r: Result<seq<RippleElectrode>, SelectionError>)
    modifies if electrodeList.Some? then {electrodeList.value} else {}
    ensures electrodeList.Some? ==>
              Sorted(electrodeList.value[..]) &&
              multiset(electrodeList.value[..]) == old(multiset(electrodeList.value[..])) &&
              r == ElectrodeKeys(rows, electrodeList.value[..], groupName, filterName)
    ensures electrodeList.None? ==>
              exists ids :: Sorted(ids) && multiset(ids) == multiset(DefaultElectrodeList(rows)) &&
                            r == ElectrodeKeys(rows, ids, groupName, filterName)
  {
    var list: array<int>;
    if electrodeList.Some? {
      list := electrodeList.value;
    } else {
      var ids := DefaultElectrodeList(rows);
      list := new int[|ids|](k requires 0 <= k < |ids| => ids[k]);
      assert list[..] == ids;
    }
    SortInPlace(list);
    r := ElectrodeKeys(rows, list[..], groupName, filterName);
  }

  // ---------------------------------------------------------------------
  // RIPPLE_DETECTION_ALGORITHMS

  /** The two entries of the registry. */
  datatype Detector = Kay | Karlsson

  function DetectorName(d: Detector): string {
    match d
    case Kay => "Kay_ripple_detector"
    case Karlsson => "Karlsson_ripple_detector"
  }

  /** `RIPPLE_DETECTION_ALGORITHMS[name]`; `None` is the `KeyError` of an unknown name. */
  function DetectorNamed(name: string): Option<Detector> {
    if name == "Kay_ripple_detector" then Some(Kay)
    else if name == "Karlsson_ripple_detector" then Some(Karlsson)
    else None
  }

  /** The lookup finds exactly the registered names, each naming its own detector. */
  lemma DetectorRegistryClosed(name: string)
    ensures DetectorNamed(name).Some? <==> name == "Kay_ripple_detector" || name == "Karlsson_ripple_detector"
    ensures DetectorNamed(name).Some? ==> DetectorName(DetectorNamed(name).value) == name
    ensures forall d :: DetectorNamed(DetectorName(d)) == Some(d)
  {
  }
}

=== FILE: Settings.dfy ===
/**
 * `SpyglassConfig` in settings.py: where the Spyglass and Kachery data
 * directories come from, how their environment-variable names are formed,
 * the cached configuration `load_config` builds, and the DataJoint
 * configuration `_generate_dj_config` merges from it.
 *
 * What the configuration reads from outside the process — the DataJoint
 * `custom` settings, the environment and which paths exist — is passed in
 * as a `World`; writing the environment, creating directories and updating
 * the global DataJoint configuration are not modelled.
 */
module Settings {
  import opened Wrappers
  import Text

  // ---------------------------------------------------------------------
  // relative_dirs and dir_to_var

  /** One family of `relative_dirs`: its prefix and each key with its default name under the base. */
  datatype DirGroup = DirGroup(prefix: string, dirs: seq<(string, string)>)

  /** One directory the configuration resolves: its prefix, its key and its default name under the base. */
  datatype DirEntry = DirEntry(prefix: string, key: string, name: string)

  const SpyglassDirs: seq<(string, string)> := [
    ("raw", "raw"), ("analysis", "analysis"), ("recording", "recording"),
    ("sorting", "spikesorting"), ("waveforms", "waveforms"), ("temp", "tmp"),
    ("video", "video")]

  const KacheryDirs: seq<(string, string)> := [
    ("cloud", "kachery_storage"), ("storage", "kachery_storage"), ("temp", "tmp")]

  const RelativeDirs: seq<DirGroup> := [DirGroup("spyglass", SpyglassDirs), DirGroup("kachery", KacheryDirs)]

  /** `d.get(key, default)` on a dictionary given as its items in order. */
  function LookupOr(items: seq<(string, string)>, key: string, default: string): (v: string)
    ensures (forall i :: 0 <= i < |items| ==> items[i].0 != key) ==> v == default
  {
    if items == [] then default
    else if items[0].0 == key then items[0].1
    else LookupOr(items[1..], key, default)
  }

  /** `relative_dirs.get(prefix, {})`. */
  function DirsOf(groups: seq<DirGroup>, prefix: string): seq<(string, string)> {
    if groups == [] then []
    else if groups[0].prefix == prefix then groups[0].dirs
    else DirsOf(groups[1..], prefix)
  }

  /** The variable of a directory of family `prefix` whose default name is `name`. */
  function VarFor(prefix: string, name: string): string {
    Text.Upper(prefix) + "_" + Text.Upper(name) + "_DIR"
  }

  /**
   * `dir_to_var(key, prefix)`: `{PREFIX}_{NAME}_DIR`, upper-cased, where
   * NAME is the default directory name of the key (not the key itself),
   * and `base` for a key the family does not have.
   */
  function DirToVar(key: string, prefix: string): string {
    VarFor(prefix, LookupOr(DirsOf(RelativeDirs, prefix), key, "base"))
  }

  /** No key appears twice, as in a Python dictionary. */
  predicate KeysDistinct(items: seq<(string, string)>) {
    forall i, j :: 0 <= i < j < |items| ==> items[i].0 != items[j].0
  }

  /** Looking up a key of a dictionary finds its own value. */
  lemma {:induction false} LookupOrFinds(items: seq<(string, string)>, i: nat, default: string)
    requires KeysDistinct(items) && i < |items|
    ensures LookupOr(items, items[i].0, default) == items[i].1
  {
    if i > 0 {
      assert items[0].0 != items[i].0;
      assert items[1..][i - 1] == items[i];
      LookupOrFinds(items[1..], i - 1, default);
    }
  }

  /** A string with no capital letter. */
  predicate NoUpper(s: string) {
    forall i :: 0 <= i < |s| ==> !('A' <= s[i] <= 'Z')
  }

  /** Upper-casing tells apart strings that have no capital letters. */
  lemma UpperInjective(a: string, b: string)
    requires NoUpper(a) && NoUpper(b) && Text.Upper(a) == Text.Upper(b)
    ensures a == b
  {
    forall i | 0 <= i < |a|
      ensures a[i] == b[i]
    {
      assert Text.Upper(a)[i] == Text.Upper(b)[i];
    }
  }

  /** Within one family, two default names share a variable exactly when they are the same name. */
  lemma VarForSamePrefix(prefix: string, n1: string, n2: string)
    requires NoUpper(n1) && NoUpper(n2)
    ensures VarFor(prefix, n1) == VarFor(prefix, n2) <==> n1 == n2
  {
    if VarFor(prefix, n1) == VarFor(prefix, n2) {
      var u := Text.Upper(prefix) + "_";
      var v1, v2 := VarFor(prefix, n1), VarFor(prefix, n2);
      assert |n1| == |n2|;
      assert v1[|u|..|u| + |n1|] == Text.Upper(n1);
      assert v2[|u|..|u| + |n2|] == Text.Upper(n2);
      UpperInjective(n1, n2);
    }
  }

  /** A variable starts with its family's first letter, upper-cased. */
  lemma VarForLead(prefix: string, name: string)
    requires prefix != []
    ensures VarFor(prefix, name)[0] == Text.UpperChar(prefix[0])
  {
  }

  /** Every key that is not a directory of its family names the family's base directory. */
  lemma DirToVarUnknownKey(key: string, prefix: string)
    requires forall i :: 0 <= i < |DirsOf(RelativeDirs, prefix)| ==> DirsOf(RelativeDirs, prefix)[i].0 != key
    ensures DirToVar(key, prefix) == VarFor(prefix, "base")
  {
  }

  /** Every directory of `relative_dirs`, in the order `load_config` visits them. */
  function DirEntries(groups: seq<DirGroup>): (es: seq<DirEntry>)
    ensures |es| == if groups == [] then 0 else |DirEntries(groups[..|groups| - 1])| + |groups[|groups| - 1].dirs|
  {
    if groups == [] then []
    else DirEntries(groups[..|groups| - 1]) + Tagged(groups[|groups| - 1])
  }

  /** The directories of one family, each tagged with the family's prefix. */
  function Tagged(g: DirGroup): (es: seq<DirEntry>)
    ensures |es| == |g.dirs|
    ensures forall i :: 0 <= i < |es| ==> es[i] == DirEntry(g.prefix, g.dirs[i].0, g.dirs[i].1)
  {
    seq(|g.dirs|, i requires 0 <= i < |g.dirs| => DirEntry(g.prefix, g.dirs[i].0, g.dirs[i].1))
  }

  const AllEntries: seq<DirEntry> := [
    DirEntry("spyglass", "raw", "raw"), DirEntry("spyglass", "analysis", "analysis"),
    DirEntry("spyglass", "recording", "recording"), DirEntry("spyglass", "sorting", "spikesorting"),
    DirEntry("spyglass", "waveforms", "waveforms"), DirEntry("spyglass", "temp", "tmp"),
    DirEntry("spyglass", "video", "video"), DirEntry("kachery", "cloud", "kachery_storage"),
    DirEntry("kachery", "storage", "kachery_storage"), DirEntry("kachery", "temp", "tmp")]

  /** The ten directories `load_config` resolves, seven Spyglass ones then three Kachery ones. */
  lemma RelativeDirEntries()
    ensures DirEntries(RelativeDirs) == AllEntries
  {
    assert RelativeDirs[..1] == [DirGroup("spyglass", SpyglassDirs)];
    assert RelativeDirs[..1][..0] == [];
    assert DirEntries(RelativeDirs[..1]) == [] + Tagged(RelativeDirs[0]);
    assert [] + Tagged(RelativeDirs[0]) == AllEntries[..7];
    assert Tagged(RelativeDirs[1]) == AllEntries[7..];
    assert AllEntries[..7] + AllEntries[7..] == AllEntries;
  }

  /** Each directory's variable is named after its family and its default name. */
  lemma EntryVars()
    ensures forall i :: 0 <= i < |AllEntries| ==>
              DirToVar(AllEntries[i].key, AllEntries[i].prefix) == VarFor(AllEntries[i].prefix, AllEntries[i].name)
  {
    assert DirsOf(RelativeDirs, "spyglass") == SpyglassDirs;
    assert DirsOf(RelativeDirs, "kachery") == KacheryDirs;
    assert KeysDistinct(SpyglassDirs) && KeysDistinct(KacheryDirs);
    forall i | 0 <= i < |AllEntries|
      ensures DirToVar(AllEntries[i].key, AllEntries[i].prefix) == VarFor(AllEntries[i].prefix, AllEntries[i].name)
    {
      if i < 7 {
        assert AllEntries[i] == DirEntry("spyglass", SpyglassDirs[i].0, SpyglassDirs[i].1);
        LookupOrFinds(SpyglassDirs, i, "base");
      } else {
        assert AllEntries[i] == DirEntry("kachery", KacheryDirs[i - 7].0, KacheryDirs[i - 7].1);
        LookupOrFinds(KacheryDirs, i - 7, "base");
      }
    }
  }

  /** The families and default names of the ten directories. */
  lemma EntryNames()
    ensures forall i :: 0 <= i < |AllEntries| ==>
              NoUpper(AllEntries[i].name) && AllEntries[i].name != "base"
              && AllEntries[i].prefix == if i < 7 then "spyglass" else "kachery"
  {
  }

  /** Only Kachery's `cloud` and `storage` share a family and a default name. */
  lemma EntryNamesDistinct()
    ensures forall i, j :: 0 <= i < j < |AllEntries| ==>
              (AllEntries[i].prefix == AllEntries[j].prefix && AllEntries[i].name == AllEntries[j].name <==> i == 7 && j == 8)
  {
  }

  /** Of the ten directories only Kachery's `cloud` and `storage` share a variable. */
  lemma EntryVarsCollide()
    ensures forall i, j :: 0 <= i < j < |AllEntries| ==>
              (DirToVar(AllEntries[i].key, AllEntries[i].prefix) == DirToVar(AllEntries[j].key, AllEntries[j].prefix)
               <==> i == 7 && j == 8)
  {
    EntryVars();
    EntryNames();
    EntryNamesDistinct();
    forall i, j | 0 <= i < j < |AllEntries|
      ensures DirToVar(AllEntries[i].key, AllEntries[i].prefix) == DirToVar(AllEntries[j].key, AllEntries[j].prefix)
              <==> i == 7 && j == 8
    {
      var a, b := AllEntries[i], AllEntries[j];
      if a.prefix == b.prefix {
        VarForSamePrefix(a.prefix, a.name, b.name);
      } else {
        VarForLead(a.prefix, a.name);
        VarForLead(b.prefix, b.name);
      }
    }
  }

  /** No directory is named like the base directory of either family. */
  lemma EntryVarsNotBase()
    ensures forall i :: 0 <= i < |AllEntries| ==>
              DirToVar(AllEntries[i].key, AllEntries[i].prefix) != VarFor("spyglass", "base")
              && DirToVar(AllEntries[i].key, AllEntries[i].prefix) != VarFor("kachery", "base")
  {
    EntryVars();
    EntryNames();
    EntryNamesDistinct();
    assert NoUpper("base");
    forall i | 0 <= i < |AllEntries|
      ensures DirToVar(AllEntries[i].key, AllEntries[i].prefix) != VarFor("spyglass", "base")
              && DirToVar(AllEntries[i].key, AllEntries[i].prefix) != VarFor("kachery", "base")
    {
      var a := AllEntries[i];
      VarForSamePrefix(a.prefix, a.name, "base");
      VarForLead(a.prefix, a.name);
      VarForLead("spyglass", "base");
      VarForLead("kachery", "base");
    }
  }

  // ---------------------------------------------------------------------
  // What the configuration reads

  /** The values the loaded configuration holds. */
  datatype Value = Str(s: string) | Flag(b: bool) | Number(n: int) | Null

  /** The part of `dj.config["custom"]` the configuration reads. */
  datatype DjCustom = DjCustom(
    spyglassDirs: map<string, string>,  // custom["spyglass_dirs"]
    kacheryDirs: map<string, string>,   // custom["kachery_dirs"]
    kacheryZone: Option<string>,        // custom["kachery_zone"]
    debugMode: Option<Value>)           // custom["debug_mode"]

  /** The DataJoint custom settings, `os.environ`, and the set of paths that exist. */
  datatype World = World(custom: DjCustom, env: map<string, string>, existing: set<string>)

  /** Python truthiness of an optional string: present and not empty. */
  predicate Truthy(o: Option<string>) {
    o.Some? && o.value != ""
  }

  /** `d.get(key)`. */
  function Get<V>(d: map<string, V>, key: string): (o: Option<V>)
    ensures o.Some? <==> key in d
    ensures o.Some? ==> o.value == d[key]
  {
    if key in d then Some(d[key]) else None
  }

  /** Python's `a or b` on optional strings. */
  function Or(a: Option<string>, b: Option<string>): Option<string> {
    if Truthy(a) then a else b
  }

  /** Python's `a or b` whose right operand is a string. */
  function OrElse(a: Option<string>, b: string): string {
    if Truthy(a) then a.value else b
  }

  // ---------------------------------------------------------------------
  // Resolution

  /** The base directory: the supplied one, else the custom `base`, else `SPYGLASS_BASE_DIR`. */
  function ResolveBase(supplied: Option<string>, w: World): (b: Option<string>)
    ensures Truthy(b) <==> Truthy(supplied) || Truthy(Get(w.custom.spyglassDirs, "base")) || Truthy(Get(w.env, "SPYGLASS_BASE_DIR"))
  {
    Or(supplied, Or(Get(w.custom.spyglassDirs, "base"), Get(w.env, "SPYGLASS_BASE_DIR")))
  }

  /** The documented precedence of the base directory's three sources. */
  lemma ResolveBasePrecedence(supplied: Option<string>, w: World)
    ensures Truthy(supplied) ==> ResolveBase(supplied, w) == supplied
    ensures !Truthy(supplied) && Truthy(Get(w.custom.spyglassDirs, "base")) ==>
              ResolveBase(supplied, w) == Some(w.custom.spyglassDirs["base"])
    ensures !Truthy(supplied) && !Truthy(Get(w.custom.spyglassDirs, "base")) ==>
              ResolveBase(supplied, w) == Get(w.env, "SPYGLASS_BASE_DIR")
  {
  }

  /** The base directory is usable: set, and an existing path. */
  predicate BaseFound(supplied: Option<string>, w: World) {
    var b := ResolveBase(supplied, w);
    Truthy(b) && b.value in w.existing
  }

  /** `str(Path(base) / name)` for a plain name. */
  function JoinPath(base: string, name: string): (p: string)
    ensures |p| > |base| + |name| - 1 && p[..|base|] == base && p[|p| - |name|..] == name
  {
    if base != [] && base[|base| - 1] == '/' then base + name else base + "/" + name
  }

  /** `s.replace('"', "")`. */
  function StripQuotes(s: string): (r: string)
    ensures forall i :: 0 <= i < |r| ==> r[i] != '"'
    ensures (forall i :: 0 <= i < |s| ==> s[i] != '"') ==> r == s
  {
    Text.ReplaceAllDeletes(s, '"');
    if forall i :: 0 <= i < |s| ==> s[i] != '"' then Text.ReplaceAllAbsent(s, '"'); Text.ReplaceAll(s, ['"'], [])
    else Text.ReplaceAll(s, ['"'], [])
  }

  /**
   * One directory of `load_config`: the custom Spyglass entry for its key,
   * else the custom Kachery entry, else its environment variable (not read
   * when a base directory was supplied), else its default name under the
   * base; double quotes removed.
   */
  function ResolveDir(e: DirEntry, supplied: Option<string>, w: World, base: string): (d: string)
    ensures forall i :: 0 <= i < |d| ==> d[i] != '"'
  {
    var envLoc := if Truthy(supplied) then None else Get(w.env, DirToVar(e.key, e.prefix));
    StripQuotes(OrElse(Get(w.custom.spyglassDirs, e.key),
                OrElse(Get(w.custom.kacheryDirs, e.key),
                OrElse(envLoc, JoinPath(base, e.name)))))
  }

  /** The documented order of precedence of a directory's four sources. */
  lemma ResolveDirPrecedence(e: DirEntry, supplied: Option<string>, w: World, base: string)
    ensures var spy := Get(w.custom.spyglassDirs, e.key);
            var kach := Get(w.custom.kacheryDirs, e.key);
            var env := Get(w.env, DirToVar(e.key, e.prefix));
            var d := ResolveDir(e, supplied, w, base);
            (Truthy(spy) ==> d == StripQuotes(spy.value))
            && (!Truthy(spy) && Truthy(kach) ==> d == StripQuotes(kach.value))
            && (!Truthy(spy) && !Truthy(kach) && !Truthy(supplied) && Truthy(env) ==> d == StripQuotes(env.value))
            && (!Truthy(spy) && !Truthy(kach) && (Truthy(supplied) || !Truthy(env)) ==>
                  d == StripQuotes(JoinPath(base, e.name)))
  {
  }

  /** With a base directory supplied, no environment variable changes any directory. */
  lemma ResolveDirIgnoresEnv(e: DirEntry, supplied: Option<string>, w: World, env: map<string, string>, base: string)
    requires Truthy(supplied)
    ensures ResolveDir(e, supplied, w, base) == ResolveDir(e, supplied, w.(env := env), base)
  {
  }

  /** `KACHERY_ZONE`: the environment, else the custom setting, else `franklab.default`; never empty. */
  function KacheryZone(w: World): (z: string)
    ensures z != ""
    ensures Truthy(Get(w.env, "KACHERY_ZONE")) ==> z == w.env["KACHERY_ZONE"]
    ensures !Truthy(Get(w.env, "KACHERY_ZONE")) && Truthy(w.custom.kacheryZone) ==> z == w.custom.kacheryZone.value
    ensures !Truthy(Get(w.env, "KACHERY_ZONE")) && !Truthy(w.custom.kacheryZone) ==> z == "franklab.default"
  {
    OrElse(Get(w.env, "KACHERY_ZONE"), OrElse(w.custom.kacheryZone, "franklab.default"))
  }

  // ---------------------------------------------------------------------
  // config_dirs

  /**
   * `config_dirs` once the loop has handled `entries`: the base directory
   * under `SPYGLASS_BASE_DIR`, then each entry's resolved directory under
   * its variable, a later entry replacing an earlier one of the same name.
   */
  function ConfigDirs(entries: seq<DirEntry>, supplied: Option<string>, w: World, base: string): map<string, string> {
    if entries == [] then map["SPYGLASS_BASE_DIR" := base]
    else
      var e := entries[|entries| - 1];
      ConfigDirs(entries[..|entries| - 1], supplied, w, base)[DirToVar(e.key, e.prefix) := ResolveDir(e, supplied, w, base)]
  }

  /** The variables `config_dirs` holds: the base one and one per entry. */
  lemma {:induction false} ConfigDirsKeys(entries: seq<DirEntry>, supplied: Option<string>, w: World, base: string)
    ensures ConfigDirs(entries, supplied, w, base).Keys
            == {"SPYGLASS_BASE_DIR"} + set e | e in entries :: DirToVar(e.key, e.prefix)
  {
    if entries != [] {
      var init := entries[..|entries| - 1];
      var last := entries[|entries| - 1];
      ConfigDirsKeys(init, supplied, w, base);
      assert (set e | e in entries :: DirToVar(e.key, e.prefix))
             == (set e | e in init :: DirToVar(e.key, e.prefix)) + {DirToVar(last.key, last.prefix)} by {
        assert forall e :: e in entries <==> e in init || e == last;
      }
    }
  }

  /** An entry no later entry shares a variable with keeps its resolved directory. */
  lemma {:induction false} ConfigDirsLastWins(entries: seq<DirEntry>, i: nat, supplied: Option<string>, w: World, base: string)
    requires i < |entries|
    requires forall j :: i < j < |entries| ==>
               DirToVar(entries[j].key, entries[j].prefix) != DirToVar(entries[i].key, entries[i].prefix)
    ensures DirToVar(entries[i].key, entries[i].prefix) in ConfigDirs(entries, supplied, w, base)
    ensures ConfigDirs(entries, supplied, w, base)[DirToVar(entries[i].key, entries[i].prefix)]
            == ResolveDir(entries[i], supplied, w, base)
  {
    if i < |entries| - 1 {
      var init := entries[..|entries| - 1];
      assert init[i] == entries[i];
      ConfigDirsLastWins(init, i, supplied, w, base);
    }
  }

  /** The base variable keeps the base directory when no entry is named after it. */
  lemma {:induction false} ConfigDirsBase(entries: seq<DirEntry>, supplied: Option<string>, w: World, base: string)
    requires forall j :: 0 <= j < |entries| ==> DirToVar(entries[j].key, entries[j].prefix) != "SPYGLASS_BASE_DIR"
    ensures "SPYGLASS_BASE_DIR" in ConfigDirs(entries, supplied, w, base)
    ensures ConfigDirs(entries, supplied, w, base)["SPYGLASS_BASE_DIR"] == base
  {
    if entries != [] {
      ConfigDirsBase(entries[..|entries| - 1], supplied, w, base);
    }
  }

  /** The base variable is `SPYGLASS_BASE_DIR`, and the Kachery family's would be `KACHERY_BASE_DIR`. */
  lemma BaseVarNames()
    ensures VarFor("spyglass", "base") == "SPYGLASS_BASE_DIR"
    ensures VarFor("kachery", "base") == "KACHERY_BASE_DIR"
  {
    assert Text.Upper("spyglass") == "SPYGLASS" && Text.Upper("base") == "BASE";
    assert Text.Upper("kachery") == "KACHERY";
  }

  /** Every variable ends in `_DIR`, so in `R`. */
  lemma VarForEndsInR(prefix: string, name: string)
    ensures var v := VarFor(prefix, name); v != [] && v[|v| - 1] == 'R'
  {
  }

  /** Every variable of `config_dirs` ends in `R`. */
  lemma ConfigDirsVarsEndInR(entries: seq<DirEntry>, supplied: Option<string>, w: World, base: string)
    ensures forall k :: k in ConfigDirs(entries, supplied, w, base) ==> k != [] && k[|k| - 1] == 'R'
  {
    ConfigDirsKeys(entries, supplied, w, base);
    forall k | k in ConfigDirs(entries, supplied, w, base)
      ensures k != [] && k[|k| - 1] == 'R'
    {
      if k != "SPYGLASS_BASE_DIR" {
        var e :| e in entries && k == DirToVar(e.key, e.prefix);
        VarForEndsInR(e.prefix, LookupOr(DirsOf(RelativeDirs, e.prefix), e.key, "base"));
      }
    }
  }

  // ---------------------------------------------------------------------
  // _load_env_vars

  const EnvDefaults: seq<(string, string)> := [
    ("FIGURL_CHANNEL", "franklab2"), ("DJ_SUPPORT_FILEPATH_MANAGEMENT", "TRUE"),
    ("KACHERY_CLOUD_EPHEMERAL", "TRUE")]

  /** `os.getenv(var, default)` for each default in turn, collected into a dictionary. */
  function EnvFold(defaults: seq<(string, string)>, env: map<string, string>): map<string, string> {
    if defaults == [] then map[]
    else
      var d := defaults[|defaults| - 1];
      EnvFold(defaults[..|defaults| - 1], env)[d.0 := if d.0 in env then env[d.0] else d.1]
  }

  /** The variables `_load_env_vars` sets are exactly those it has defaults for. */
  lemma {:induction false} EnvFoldKeys(defaults: seq<(string, string)>, env: map<string, string>)
    ensures EnvFold(defaults, env).Keys == set i | 0 <= i < |defaults| :: defaults[i].0
  {
    if defaults != [] {
      var init := defaults[..|defaults| - 1];
      EnvFoldKeys(init, env);
      assert (set i | 0 <= i < |defaults| :: defaults[i].0)
             == (set i | 0 <= i < |init| :: init[i].0) + {defaults[|defaults| - 1].0};
    }
  }

  /** Each variable is taken from the environment when it is set there, else from its default. */
  lemma {:induction false} EnvFoldValues(defaults: seq<(string, string)>, env: map<string, string>)
    requires KeysDistinct(defaults)
    ensures forall i :: 0 <= i < |defaults| ==>
              defaults[i].0 in EnvFold(defaults, env)
              && EnvFold(defaults, env)[defaults[i].0] == if defaults[i].0 in env then env[defaults[i].0] else defaults[i].1
  {
    if defaults != [] {
      var init := defaults[..|defaults| - 1];
      EnvFoldValues(init, env);
      forall i | 0 <= i < |defaults| - 1
        ensures defaults[i].0 != defaults[|defaults| - 1].0 && init[i] == defaults[i]
      {
      }
    }
  }

  // ---------------------------------------------------------------------
  // The loaded configuration

  /** `dj_custom.get("debug_mode", False)`. */
  function DebugModeSetting(c: DjCustom): Value {
    if c.debugMode.Some? then c.debugMode.value else Flag(false)
  }

  /** A dictionary of strings seen as a dictionary of values. */
  function StrValues(m: map<string, string>): (r: map<string, Value>)
    ensures r.Keys == m.Keys
    ensures forall k :: k in m ==> r[k] == Str(m[k])
  {
    map k | k in m :: Str(m[k])
  }

  /** The variables `_load_env_vars` sets. */
  predicate IsEnvName(k: string) {
    k == "FIGURL_CHANNEL" || k == "DJ_SUPPORT_FILEPATH_MANAGEMENT" || k == "KACHERY_CLOUD_EPHEMERAL"
  }

  /** `_load_env_vars` sets exactly its three variables, each from the environment when set there, else from its default. */
  lemma LoadedEnvValues(env: map<string, string>)
    ensures forall k :: k in EnvFold(EnvDefaults, env) <==> IsEnvName(k)
    ensures forall i :: 0 <= i < |EnvDefaults| ==>
              EnvDefaults[i].0 in EnvFold(EnvDefaults, env)
              && EnvFold(EnvDefaults, env)[EnvDefaults[i].0] == if EnvDefaults[i].0 in env then env[EnvDefaults[i].0] else EnvDefaults[i].1
  {
    assert KeysDistinct(EnvDefaults);
    EnvFoldKeys(EnvDefaults, env);
    EnvFoldValues(EnvDefaults, env);
    forall k
      ensures k in (set i | 0 <= i < |EnvDefaults| :: EnvDefaults[i].0) <==> IsEnvName(k)
    {
      assert EnvDefaults[0].0 == "FIGURL_CHANNEL";
      assert EnvDefaults[1].0 == "DJ_SUPPORT_FILEPATH_MANAGEMENT";
      assert EnvDefaults[2].0 == "KACHERY_CLOUD_EPHEMERAL";
    }
  }

  /**
   * `dict(debug_mode=..., **config_defaults, **config_dirs, **kachery_zone,
   * **loaded_env)`: the keys of the parts are disjoint, so no part
   * overrides another.
   */
  function Assemble(dirs: map<string, string>, env: map<string, string>, zone: string, debug: Value): map<string, Value> {
    map["debug_mode" := debug, "prepopulate" := Flag(true)]
    + StrValues(dirs)
    + map["KACHERY_ZONE" := Str(zone)]
    + StrValues(env)
  }

  /** The parts `load_config` assembles have the names it gives them. */
  predicate PartsNamed(dirs: map<string, string>, env: map<string, string>) {
    (forall k :: k in dirs ==> k != [] && k[|k| - 1] == 'R')
    && (forall k :: k in env ==> IsEnvName(k))
  }

  /** A directory keeps its location in the assembled configuration. */
  lemma AssembleDir(dirs: map<string, string>, env: map<string, string>, zone: string, debug: Value, k: string)
    requires PartsNamed(dirs, env) && k in dirs
    ensures k in Assemble(dirs, env, zone, debug) && Assemble(dirs, env, zone, debug)[k] == Str(dirs[k])
  {
    NameEndingInR(k);
  }

  /** The names `load_config` gives its settings and environment defaults do not end in `R`, as directory variables do. */
  lemma NameEndingInR(k: string)
    requires k != [] && k[|k| - 1] == 'R'
    ensures !IsEnvName(k) && k != "debug_mode" && k != "prepopulate" && k != "KACHERY_ZONE"
  {
    assert k != "debug_mode" && k != "prepopulate" && k != "KACHERY_ZONE" by {
      assert "debug_mode"[9] == 'e' && "prepopulate"[10] == 'e' && "KACHERY_ZONE"[11] == 'E';
    }
    assert !IsEnvName(k) by {
      assert "FIGURL_CHANNEL"[13] == 'L' && "DJ_SUPPORT_FILEPATH_MANAGEMENT"[29] == 'T';
      assert "KACHERY_CLOUD_EPHEMERAL"[22] == 'L';
    }
  }

  /** The setting names are no environment default's name. */
  lemma SettingNamesNotEnv()
    ensures !IsEnvName("KACHERY_ZONE") && !IsEnvName("debug_mode") && !IsEnvName("prepopulate")
  {
  }

  /** The zone, the debug mode and `prepopulate` of the assembled configuration. */
  lemma AssembleSettings(dirs: map<string, string>, env: map<string, string>, zone: string, debug: Value)
    requires PartsNamed(dirs, env)
    ensures var c := Assemble(dirs, env, zone, debug);
            && "KACHERY_ZONE" in c && c["KACHERY_ZONE"] == Str(zone)
            && "debug_mode" in c && c["debug_mode"] == debug
            && "prepopulate" in c && c["prepopulate"] == Flag(true)
  {
    AssembleSetting(dirs, env, zone, debug, "KACHERY_ZONE");
    AssembleSetting(dirs, env, zone, debug, "debug_mode");
    AssembleSetting(dirs, env, zone, debug, "prepopulate");
  }

  /** One setting of the assembled configuration: no directory and no environment default overrides it. */
  lemma AssembleSetting(dirs: map<string, string>, env: map<string, string>, zone: string, debug: Value, k: string)
    requires PartsNamed(dirs, env)
    requires k == "KACHERY_ZONE" || k == "debug_mode" || k == "prepopulate"
    ensures k in Assemble(dirs, env, zone, debug)
    ensures Assemble(dirs, env, zone, debug)[k]
            == if k == "KACHERY_ZONE" then Str(zone) else if k == "debug_mode" then debug else Flag(true)
  {
    SettingNamesNotEnv();
    if k in dirs {
      NameEndingInR(k);
    }
    var front := map["debug_mode" := debug, "prepopulate" := Flag(true)] + StrValues(dirs);
    var zoned := front + map["KACHERY_ZONE" := Str(zone)];
    MergeKeep(zoned, StrValues(env), k);
    if k != "KACHERY_ZONE" {
      MergeKeep(front, map["KACHERY_ZONE" := Str(zone)], k);
      MergeKeep(map["debug_mode" := debug, "prepopulate" := Flag(true)], StrValues(dirs), k);
    }
  }

  /** A key the right operand of a merge lacks keeps the left operand's value. */
  lemma MergeKeep<V>(a: map<string, V>, b: map<string, V>, k: string)
    requires k !in b
    ensures k in a + b <==> k in a
    ensures k in a ==> (a + b)[k] == a[k]
  {
  }

  /**
   * The configuration `load_config` caches once the base directory is
   * found: `debug_mode`, `prepopulate`, every resolved directory, the zone
   * and the loaded environment defaults.
   */
  function LoadedConfig(supplied: Option<string>, w: World, base: string): map<string, Value> {
    Assemble(ConfigDirs(AllEntries, supplied, w, base), EnvFold(EnvDefaults, w.env), KacheryZone(w), DebugModeSetting(w.custom))
  }

  /** The parts of the loaded configuration are named as `load_config` names them. */
  lemma LoadedPartsNamed(supplied: Option<string>, w: World, base: string)
    ensures PartsNamed(ConfigDirs(AllEntries, supplied, w, base), EnvFold(EnvDefaults, w.env))
  {
    ConfigDirsVarsEndInR(AllEntries, supplied, w, base);
    LoadedEnvValues(w.env);
  }

  /** An entry no later entry shares a variable with keeps its resolved directory in the assembled configuration. */
  lemma AssembledLastWins(entries: seq<DirEntry>, j: nat, supplied: Option<string>, w: World, base: string)
    requires j < |entries|
    requires forall l :: j < l < |entries| ==>
               DirToVar(entries[l].key, entries[l].prefix) != DirToVar(entries[j].key, entries[j].prefix)
    ensures var c := Assemble(ConfigDirs(entries, supplied, w, base), EnvFold(EnvDefaults, w.env), KacheryZone(w), DebugModeSetting(w.custom));
            var v := DirToVar(entries[j].key, entries[j].prefix);
            v in c && c[v] == Str(ResolveDir(entries[j], supplied, w, base))
  {
    var dirs := ConfigDirs(entries, supplied, w, base);
    ConfigDirsLastWins(entries, j, supplied, w, base);
    ConfigDirsVarsEndInR(entries, supplied, w, base);
    LoadedEnvValues(w.env);
    AssembleDir(dirs, EnvFold(EnvDefaults, w.env), KacheryZone(w), DebugModeSetting(w.custom),
                DirToVar(entries[j].key, entries[j].prefix));
  }

  /**
   * What `load_config` resolves, read back by variable: each directory's
   * resolved location, except that Kachery's `cloud` variable, which
   * `storage` shares, holds the `storage` location.
   */
  lemma LoadedConfigDir(supplied: Option<string>, w: World, base: string, i: nat)
    requires i < |AllEntries|
    ensures var v := DirToVar(AllEntries[i].key, AllEntries[i].prefix);
            v in LoadedConfig(supplied, w, base)
            && LoadedConfig(supplied, w, base)[v] == Str(ResolveDir(AllEntries[if i == 7 then 8 else i], supplied, w, base))
  {
    var j := if i == 7 then 8 else i;
    EntryVarsCollide();
    AssembledLastWins(AllEntries, j, supplied, w, base);
  }

  /** The base directory, the zone, the debug mode and `prepopulate` as `load_config` records them. */
  lemma LoadedConfigSettings(supplied: Option<string>, w: World, base: string)
    ensures var c := LoadedConfig(supplied, w, base);
            && "SPYGLASS_BASE_DIR" in c && c["SPYGLASS_BASE_DIR"] == Str(base)
            && "KACHERY_ZONE" in c && c["KACHERY_ZONE"] == Str(KacheryZone(w))
            && "debug_mode" in c && c["debug_mode"] == DebugModeSetting(w.custom)
            && "prepopulate" in c && c["prepopulate"] == Flag(true)
  {
    var dirs, env := ConfigDirs(AllEntries, supplied, w, base), EnvFold(EnvDefaults, w.env);
    EntryVarsNotBase();
    BaseVarNames();
    ConfigDirsBase(AllEntries, supplied, w, base);
    LoadedPartsNamed(supplied, w, base);
    AssembleDir(dirs, env, KacheryZone(w), DebugModeSetting(w.custom), "SPYGLASS_BASE_DIR");
    AssembleSettings(dirs, env, KacheryZone(w), DebugModeSetting(w.custom));
  }

  /** A key that is not a directory of any family is in no `config_dirs` built from entries that do not name it. */
  lemma {:induction false} ConfigDirsAbsent(entries: seq<DirEntry>, supplied: Option<string>, w: World, base: string, k: string)
    requires k != "SPYGLASS_BASE_DIR"
    requires forall j :: 0 <= j < |entries| ==> DirToVar(entries[j].key, entries[j].prefix) != k
    ensures k !in ConfigDirs(entries, supplied, w, base)
  {
    if entries != [] {
      ConfigDirsAbsent(entries[..|entries| - 1], supplied, w, base, k);
    }
  }

  /** A name ending in `R` that is not a directory variable is not in the assembled configuration. */
  lemma AssembleAbsent(dirs: map<string, string>, env: map<string, string>, zone: string, debug: Value, k: string)
    requires PartsNamed(dirs, env) && k !in dirs && k != [] && k[|k| - 1] == 'R'
    ensures k !in Assemble(dirs, env, zone, debug)
  {
    NameEndingInR(k);
  }

  // ---------------------------------------------------------------------
  // Property getters

  /** A Spyglass directory property (`base_dir`, `raw_dir`, ...): `config.get(dir_to_var(key))`. */
  function SpyglassDir(config: map<string, Value>, key: string): Option<Value> {
    Get(config, DirToVar(key, "spyglass"))
  }

  /** A Kachery directory as `_dj_custom` reads it: `config.get(dir_to_var(key, "kachery"))`. */
  function KacheryDir(config: map<string, Value>, key: string): Option<Value> {
    Get(config, DirToVar(key, "kachery"))
  }

  /** `debug_mode`: `config.get("debug_mode", False)`. */
  function DebugMode(config: map<string, Value>): Value {
    if "debug_mode" in config then config["debug_mode"] else Flag(false)
  }

  /** A key that is no Spyglass directory reads the base directory's variable. */
  lemma SpyglassUnknownKey(key: string)
    requires forall i :: 0 <= i < |SpyglassDirs| ==> SpyglassDirs[i].0 != key
    ensures DirToVar(key, "spyglass") == "SPYGLASS_BASE_DIR"
  {
    assert DirsOf(RelativeDirs, "spyglass") == SpyglassDirs;
    DirToVarUnknownKey(key, "spyglass");
    BaseVarNames();
  }

  /** After loading, each Spyglass directory property returns that directory's resolved location. */
  lemma SpyglassDirAfterLoad(supplied: Option<string>, w: World, base: string, i: nat)
    requires i < |SpyglassDirs|
    ensures SpyglassDir(LoadedConfig(supplied, w, base), SpyglassDirs[i].0)
            == Some(Str(ResolveDir(DirEntry("spyglass", SpyglassDirs[i].0, SpyglassDirs[i].1), supplied, w, base)))
  {
    assert AllEntries[i] == DirEntry("spyglass", SpyglassDirs[i].0, SpyglassDirs[i].1);
    LoadedConfigDir(supplied, w, base, i);
  }

  /** After loading, `base_dir` returns the base directory and `debug_mode` the custom setting or false. */
  lemma BaseDirAfterLoad(supplied: Option<string>, w: World, base: string)
    ensures SpyglassDir(LoadedConfig(supplied, w, base), "base") == Some(Str(base))
    ensures DebugMode(LoadedConfig(supplied, w, base)) == DebugModeSetting(w.custom)
  {
    SpyglassUnknownKey("base");
    LoadedConfigSettings(supplied, w, base);
  }

  // ---------------------------------------------------------------------
  // waveform_dir

  /** `waveform_dir` as written: the variable of the key `waveform`, which no family has. */
  function WaveformDirAsWritten(config: map<string, Value>): Option<Value> {
    SpyglassDir(config, "waveform")
  }

  /** `waveform_dir` as evidently meant: the `waveforms` directory, as `waveforms_dir` reads it. */
  function WaveformDir(config: map<string, Value>): Option<Value> {
    SpyglassDir(config, "waveforms")
  }

  const WaveformsEntry: DirEntry := DirEntry("spyglass", "waveforms", "waveforms")

  /** Nothing sets a directory: no custom entry, and no environment variable that would be read. */
  predicate Unset(e: DirEntry, supplied: Option<string>, w: World) {
    !Truthy(Get(w.custom.spyglassDirs, e.key)) && !Truthy(Get(w.custom.kacheryDirs, e.key))
    && (Truthy(supplied) || !Truthy(Get(w.env, DirToVar(e.key, e.prefix))))
  }

  /** A directory nothing sets is its default name under the base. */
  lemma UnsetDirIsDefault(e: DirEntry, supplied: Option<string>, w: World, base: string)
    requires Unset(e, supplied, w)
    ensures ResolveDir(e, supplied, w, base) == StripQuotes(JoinPath(base, e.name))
  {
  }

  /** A path under the base, with its quotes removed, is never the base itself. */
  lemma JoinedIsNotBase(base: string, name: string)
    requires name != [] && forall i :: 0 <= i < |name| ==> name[i] != '"'
    ensures StripQuotes(JoinPath(base, name)) != base
  {
    var p := JoinPath(base, name);
    if exists i :: 0 <= i < |base| && base[i] == '"' {
      var i :| 0 <= i < |base| && base[i] == '"';
    } else {
      assert forall i :: 0 <= i < |p| ==> p[i] != '"' by {
        forall i | 0 <= i < |p|
          ensures p[i] != '"'
        {
          if i < |base| {
            assert p[i] == base[i];
          } else if i >= |p| - |name| {
            assert p[i] == name[i - (|p| - |name|)];
          }
        }
      }
    }
  }

  lemma WaveformsQuoteFree()
    ensures forall i :: 0 <= i < |"waveforms"| ==> "waveforms"[i] != '"'
  {
  }

  /**
   * As written, `waveform_dir` is the base directory whatever the
   * configuration says about waveforms ...
   */
  lemma WaveformDirIsBaseDir(supplied: Option<string>, w: World, base: string)
    ensures WaveformDirAsWritten(LoadedConfig(supplied, w, base)) == Some(Str(base))
  {
    WaveformReadsBaseVar(LoadedConfig(supplied, w, base));
    LoadedConfigSettings(supplied, w, base);
  }

  /** As written, `waveform_dir` reads `SPYGLASS_BASE_DIR`. */
  lemma WaveformReadsBaseVar(config: map<string, Value>)
    ensures WaveformDirAsWritten(config) == Get(config, "SPYGLASS_BASE_DIR")
  {
    forall i | 0 <= i < |SpyglassDirs|
      ensures SpyglassDirs[i].0 != "waveform"
    {
      assert |SpyglassDirs[i].0| != 8 || SpyglassDirs[i].0[0] == 'a';
    }
    SpyglassUnknownKey("waveform");
  }

  /** ... and so differs from `waveforms_dir` whenever nothing sets the waveforms directory. */
  lemma WaveformDirMisses(supplied: Option<string>, w: World, base: string)
    requires Unset(WaveformsEntry, supplied, w)
    ensures WaveformDirAsWritten(LoadedConfig(supplied, w, base)) != WaveformDir(LoadedConfig(supplied, w, base))
  {
    WaveformsQuoteFree();
    JoinedIsNotBase(base, "waveforms");
    WaveformDirIsBaseDir(supplied, w, base);
    WaveformDirIsWaveformsDir(supplied, w, base);
  }

  /**
   * The corrected `waveform_dir` is the waveforms directory: its custom
   * or environment setting, else `waveforms` under the base.
   */
  lemma WaveformDirIsWaveformsDir(supplied: Option<string>, w: World, base: string)
    ensures WaveformDir(LoadedConfig(supplied, w, base)) == Some(Str(ResolveDir(WaveformsEntry, supplied, w, base)))
    ensures Unset(WaveformsEntry, supplied, w) ==>
              WaveformDir(LoadedConfig(supplied, w, base)) == Some(Str(StripQuotes(JoinPath(base, "waveforms"))))
  {
    SpyglassDirAfterLoad(supplied, w, base, 4);
  }

  // ---------------------------------------------------------------------
  // The DataJoint configuration

  /** A DataJoint configuration value: a plain value or a nested dictionary. */
  datatype Entry = Leaf(v: Value) | Dict(entries: map<string, Entry>)

  /** A getter's result as a configuration value: `None` when absent. */
  function LeafOf(o: Option<Value>): Entry {
    Leaf(if o.Some? then o.value else Null)
  }

  /** `str(v)` for the values the configuration holds. */
  function PyStr(v: Value): string {
    match v
    case Str(s) => s
    case Flag(b) => if b then "True" else "False"
    case Number(n) => Text.IntToString(n)
    case Null => "None"
  }

  /** The keys of `spyglass_dirs` in `_dj_custom`: `base` and every Spyglass directory. */
  const SpyglassSectionKeys: set<string> := {"base"} + set i | 0 <= i < |SpyglassDirs| :: SpyglassDirs[i].0

  /** The keys of `kachery_dirs` in `_dj_custom`: every Kachery directory. */
  const KacherySectionKeys: set<string> := set i | 0 <= i < |KacheryDirs| :: KacheryDirs[i].0

  /** `spyglass_dirs` of `_dj_custom`: each Spyglass directory property under its key. */
  function SpyglassDirsSection(config: map<string, Value>): (m: map<string, Entry>)
    ensures m.Keys == SpyglassSectionKeys
  {
    map k | k in SpyglassSectionKeys :: LeafOf(SpyglassDir(config, k))
  }

  /** `kachery_dirs` of `_dj_custom` as written: `temp` reads the variable of the key `tmp`, which Kachery does not have. */
  function KacheryDirsAsWritten(config: map<string, Value>): (m: map<string, Entry>)
    ensures m.Keys == KacherySectionKeys
  {
    map k | k in KacherySectionKeys :: LeafOf(KacheryDir(config, if k == "temp" then "tmp" else k))
  }

  /** `kachery_dirs` of `_dj_custom` as evidently meant: each key reads its own variable. */
  function KacheryDirsSection(config: map<string, Value>): (m: map<string, Entry>)
    ensures m.Keys == KacherySectionKeys
  {
    map k | k in KacherySectionKeys :: LeafOf(KacheryDir(config, k))
  }

  /** A key that is no Kachery directory reads the (never set) `KACHERY_BASE_DIR`. */
  lemma KacheryUnknownKey(key: string)
    requires forall i :: 0 <= i < |KacheryDirs| ==> KacheryDirs[i].0 != key
    ensures DirToVar(key, "kachery") == "KACHERY_BASE_DIR"
  {
    assert DirsOf(RelativeDirs, "kachery") == KacheryDirs;
    DirToVarUnknownKey(key, "kachery");
    BaseVarNames();
  }

  /** `load_config` never records `KACHERY_BASE_DIR`. */
  lemma LoadedConfigHasNoKacheryBase(supplied: Option<string>, w: World, base: string)
    ensures "KACHERY_BASE_DIR" !in LoadedConfig(supplied, w, base)
  {
    var k := "KACHERY_BASE_DIR";
    EntryVarsNotBase();
    BaseVarNames();
    assert k != "SPYGLASS_BASE_DIR" by {
      assert k[0] != "SPYGLASS_BASE_DIR"[0];
    }
    ConfigDirsAbsent(AllEntries, supplied, w, base, k);
    LoadedPartsNamed(supplied, w, base);
    assert k[|k| - 1] == 'R';
    AssembleAbsent(ConfigDirs(AllEntries, supplied, w, base), EnvFold(EnvDefaults, w.env), KacheryZone(w),
                   DebugModeSetting(w.custom), k);
  }

  /** As written, the Kachery `temp` of `_dj_custom` reads `KACHERY_BASE_DIR`. */
  lemma KacheryTempReadsBaseVar(config: map<string, Value>)
    ensures "temp" in KacheryDirsAsWritten(config)
            && KacheryDirsAsWritten(config)["temp"] == LeafOf(Get(config, "KACHERY_BASE_DIR"))
  {
    assert KacheryDirs[2].0 == "temp";
    KacheryUnknownKey("tmp");
  }

  /** As written, the Kachery `temp` of `_dj_custom` is `None` after any load, whatever the Kachery temp directory is. */
  lemma KacheryTempIsAlwaysNone(supplied: Option<string>, w: World, base: string)
    ensures "temp" in KacheryDirsAsWritten(LoadedConfig(supplied, w, base))
            && KacheryDirsAsWritten(LoadedConfig(supplied, w, base))["temp"] == Leaf(Null)
  {
    KacheryTempReadsBaseVar(LoadedConfig(supplied, w, base));
    LoadedConfigHasNoKacheryBase(supplied, w, base);
  }

  /**
   * The corrected `kachery_dirs` holds each Kachery directory as resolved,
   * `cloud` holding the `storage` location as the shared variable does.
   */
  lemma KacheryDirsAfterLoad(supplied: Option<string>, w: World, base: string, j: nat)
    requires j < |KacheryDirs|
    ensures KacheryDirs[j].0 in KacheryDirsSection(LoadedConfig(supplied, w, base))
            && KacheryDirsSection(LoadedConfig(supplied, w, base))[KacheryDirs[j].0]
               == Leaf(Str(ResolveDir(AllEntries[if j == 0 then 8 else 7 + j], supplied, w, base)))
  {
    assert AllEntries[7 + j] == DirEntry("kachery", KacheryDirs[j].0, KacheryDirs[j].1);
    LoadedConfigDir(supplied, w, base, 7 + j);
  }

  /** `spyglass_dirs` holds the base directory as `base`. */
  lemma SpyglassSectionBase(supplied: Option<string>, w: World, base: string)
    ensures "base" in SpyglassDirsSection(LoadedConfig(supplied, w, base))
            && SpyglassDirsSection(LoadedConfig(supplied, w, base))["base"] == Leaf(Str(base))
  {
    BaseDirAfterLoad(supplied, w, base);
  }

  /** `spyglass_dirs` holds each Spyglass directory as resolved. */
  lemma SpyglassSectionDir(supplied: Option<string>, w: World, base: string, j: nat)
    requires j < |SpyglassDirs|
    ensures SpyglassDirs[j].0 in SpyglassDirsSection(LoadedConfig(supplied, w, base))
            && SpyglassDirsSection(LoadedConfig(supplied, w, base))[SpyglassDirs[j].0]
               == Leaf(Str(ResolveDir(AllEntries[j], supplied, w, base)))
  {
    var config := LoadedConfig(supplied, w, base);
    SpyglassDirAfterLoad(supplied, w, base, j);
    SpyglassEntry(j);
    SpyglassSectionReads(config, SpyglassDirs[j].0);
  }

  /** The first seven directories are the Spyglass ones, in order. */
  lemma SpyglassEntry(j: nat)
    requires j < |SpyglassDirs|
    ensures AllEntries[j] == DirEntry("spyglass", SpyglassDirs[j].0, SpyglassDirs[j].1)
  {
  }

  /** Each key of `spyglass_dirs` holds what the property getter reads for it. */
  lemma SpyglassSectionReads(config: map<string, Value>, key: string)
    requires key in SpyglassSectionKeys
    ensures key in SpyglassDirsSection(config) && SpyglassDirsSection(config)[key] == LeafOf(SpyglassDir(config, key))
  {
  }

  /** A `file` store whose location and stage are both `loc`. */
  function FileStore(loc: Entry): Entry {
    Dict(map["protocol" := Leaf(Str("file")), "location" := loc, "stage" := loc])
  }

  /** The stores of `_dj_stores`: `raw` and `analysis`, file stores at the raw and analysis directories. */
  function DjStores(config: map<string, Value>): (e: Entry)
    ensures e.Dict? && e.entries.Keys == {"raw", "analysis"}
  {
    Dict(map k | k in {"raw", "analysis"} :: FileStore(LeafOf(SpyglassDir(config, k))))
  }

  /** The keys of the `custom` section. */
  const DjCustomKeys: set<string> := {"debug_mode", "spyglass_dirs", "kachery_dirs", "kachery_zone"}

  /** A `custom` section: the debug mode as lower-case text, both directory sections and the fixed zone. */
  function DjCustomWith(config: map<string, Value>, kachery: map<string, Entry>): (e: Entry)
    ensures e.Dict? && e.entries.Keys == DjCustomKeys
  {
    Dict(map[
      "debug_mode" := Leaf(Str(Text.Lower(PyStr(DebugMode(config))))),
      "spyglass_dirs" := Dict(SpyglassDirsSection(config)),
      "kachery_dirs" := Dict(kachery),
      "kachery_zone" := Leaf(Str("franklab.default"))])
  }

  /** The `custom` section of `_dj_custom` as written, its Kachery `temp` reading the variable of `tmp`. */
  function DjCustomSection(config: map<string, Value>): (e: Entry)
    ensures e.Dict? && e.entries.Keys == DjCustomKeys
    ensures e.entries["kachery_dirs"] == Dict(KacheryDirsAsWritten(config))
  {
    DjCustomWith(config, KacheryDirsAsWritten(config))
  }

  /** The `custom` section as evidently meant: built like the program's, but with the `kachery_dirs` that reads each key's own variable. */
  function DjCustomSectionCorrected(config: map<string, Value>): (e: Entry)
    ensures e.Dict? && e.entries.Keys == DjCustomKeys
    ensures e.entries["kachery_dirs"] == Dict(KacheryDirsSection(config))
  {
    DjCustomWith(config, KacheryDirsSection(config))
  }

  /** The `kachery_dirs` of the program's `custom` section and of the corrected one agree on every key but `temp`. */
  lemma DjCustomKachery(config: map<string, Value>)
    ensures var written := DjCustomSection(config).entries["kachery_dirs"];
            var meant := DjCustomSectionCorrected(config).entries["kachery_dirs"];
            && written == Dict(KacheryDirsAsWritten(config)) && meant == Dict(KacheryDirsSection(config))
            && written.entries.Keys == meant.entries.Keys == KacherySectionKeys
            && forall k :: k in KacherySectionKeys && k != "temp" ==> written.entries[k] == meant.entries[k]
  {
  }

  /** The raw (`j == 0`) and analysis (`j == 1`) stores sit at the resolved raw and analysis directories. */
  lemma DjStoreAfterLoad(supplied: Option<string>, w: World, base: string, j: nat)
    requires j < 2
    ensures var st := DjStores(LoadedConfig(supplied, w, base)).entries;
            SpyglassDirs[j].0 in st && st[SpyglassDirs[j].0] == FileStore(Leaf(Str(ResolveDir(AllEntries[j], supplied, w, base))))
  {
    var config := LoadedConfig(supplied, w, base);
    SpyglassDirAfterLoad(supplied, w, base, j);
    SpyglassEntry(j);
    StoreReads(config, SpyglassDirs[j].0);
  }

  /** Each store is a file store at the directory the property getter reads for it. */
  lemma StoreReads(config: map<string, Value>, key: string)
    requires key == "raw" || key == "analysis"
    ensures key in DjStores(config).entries && DjStores(config).entries[key] == FileStore(LeafOf(SpyglassDir(config, key)))
  {
  }

  /** The debug mode a custom `True` or `False` flag is written back as: `true` or `false`. */
  lemma DebugModeText(b: bool)
    ensures Text.Lower(PyStr(Flag(b))) == if b then "true" else "false"
  {
  }

  /** `dj_defaults`: connection settings from the constructor's keyword arguments, else their defaults. */
  function DjDefaults(kwargs: map<string, Value>): map<string, Entry> {
    map[
      "database.host" := Leaf(if "database_host" in kwargs then kwargs["database_host"] else Str("lmf-db.cin.ucsf.edu")),
      "database.user" := Leaf(if "database_user" in kwargs then kwargs["database_user"] else Null),
      "database.port" := Leaf(if "database_port" in kwargs then kwargs["database_port"] else Number(3306)),
      "database.use_tls" := Leaf(if "database_use_tls" in kwargs then kwargs["database_use_tls"] else Flag(true)),
      "filepath_checksum_size_limit" := Leaf(Number(1024 * 1024 * 1024)),
      "enable_python_native_blobs" := Leaf(Flag(true))]
  }

  /** The keyword arguments of `_generate_dj_config` once the user (when given), host, port and TLS are set. */
  function Overrides(kwargs: map<string, Entry>, user: Option<string>, host: string, port: int, tls: bool): map<string, Entry> {
    var withUser := if Truthy(user) then kwargs["database.user" := Leaf(Str(user.value))] else kwargs;
    withUser["database.host" := Leaf(Str(host))]["database.port" := Leaf(Number(port))]["database.use_tls" := Leaf(Flag(tls))]
  }

  /** `dj_defaults | {"stores": ...} | {"custom": ...} | kwargs`, a later dictionary winning. */
  function Merge(defaults: map<string, Entry>, stores: Entry, custom: Entry, overrides: map<string, Entry>): map<string, Entry> {
    defaults + map["stores" := stores] + map["custom" := custom] + overrides
  }

  /** The result of `_generate_dj_config` for the loaded configuration `config`. */
  function DjConfig(defaults: map<string, Entry>, config: map<string, Value>, user: Option<string>, host: string,
                    port: int, tls: bool, kwargs: map<string, Entry>): map<string, Entry> {
    Merge(defaults, DjStores(config), DjCustomSection(config), Overrides(kwargs, user, host, port, tls))
  }

  /** The connection settings `_generate_dj_config` always sets. */
  predicate IsConnectionKey(k: string) {
    k == "database.host" || k == "database.port" || k == "database.use_tls"
  }

  /** What the keyword arguments hold once the user, host, port and TLS are set. */
  lemma OverridesHold(kwargs: map<string, Entry>, user: Option<string>, host: string, port: int, tls: bool)
    ensures var o := Overrides(kwargs, user, host, port, tls);
            && (forall k :: k in o <==> k in kwargs || IsConnectionKey(k) || (k == "database.user" && Truthy(user)))
            && "database.host" in o && o["database.host"] == Leaf(Str(host))
            && "database.port" in o && o["database.port"] == Leaf(Number(port))
            && "database.use_tls" in o && o["database.use_tls"] == Leaf(Flag(tls))
            && (Truthy(user) ==> "database.user" in o && o["database.user"] == Leaf(Str(user.value)))
            && (forall k :: k in kwargs && !IsConnectionKey(k) && !(k == "database.user" && Truthy(user)) ==> o[k] == kwargs[k])
  {
  }

  /** In the merge a later dictionary wins: the overrides, then `custom`, then `stores`, then the defaults. */
  lemma MergePrecedence(defaults: map<string, Entry>, stores: Entry, custom: Entry, overrides: map<string, Entry>)
    ensures var m := Merge(defaults, stores, custom, overrides);
            && (forall k :: k in m <==> k in defaults || k in overrides || k == "stores" || k == "custom")
            && (forall k :: k in overrides ==> m[k] == overrides[k])
            && ("custom" !in overrides ==> m["custom"] == custom)
            && ("stores" !in overrides ==> m["stores"] == stores)
            && (forall k :: k in defaults && k !in overrides && k != "stores" && k != "custom" ==> m[k] == defaults[k])
  {
  }

  /**
   * The generated DataJoint configuration (`DjConfig`, whose `stores` and
   * `custom` come from the loaded configuration) holds every key of each
   * part, and nothing else.
   */
  lemma DjConfigKeys(defaults: map<string, Entry>, stores: Entry, custom: Entry, user: Option<string>,
                     host: string, port: int, tls: bool, kwargs: map<string, Entry>)
    ensures var m := Merge(defaults, stores, custom, Overrides(kwargs, user, host, port, tls));
            forall k :: k in m <==> k in defaults || k in kwargs || k == "stores" || k == "custom"
                                    || IsConnectionKey(k) || (k == "database.user" && Truthy(user))
  {
    OverridesHold(kwargs, user, host, port, tls);
    MergePrecedence(defaults, stores, custom, Overrides(kwargs, user, host, port, tls));
  }

  /** Host, port and TLS always come from the arguments, and the user does when one is given. */
  lemma DjConfigConnection(defaults: map<string, Entry>, stores: Entry, custom: Entry, user: Option<string>,
                           host: string, port: int, tls: bool, kwargs: map<string, Entry>)
    ensures var m := Merge(defaults, stores, custom, Overrides(kwargs, user, host, port, tls));
            && "database.host" in m && m["database.host"] == Leaf(Str(host))
            && "database.port" in m && m["database.port"] == Leaf(Number(port))
            && "database.use_tls" in m && m["database.use_tls"] == Leaf(Flag(tls))
            && (Truthy(user) ==> "database.user" in m && m["database.user"] == Leaf(Str(user.value)))
  {
    OverridesHold(kwargs, user, host, port, tls);
    MergePrecedence(defaults, stores, custom, Overrides(kwargs, user, host, port, tls));
  }

  /**
   * Any other key comes from the keyword arguments, else from the
   * `custom` and `stores` sections, else from the defaults.
   */
  lemma DjConfigPrecedence(defaults: map<string, Entry>, stores: Entry, custom: Entry, user: Option<string>,
                           host: string, port: int, tls: bool, kwargs: map<string, Entry>)
    ensures var m := Merge(defaults, stores, custom, Overrides(kwargs, user, host, port, tls));
            forall k :: k in kwargs && !IsConnectionKey(k) && !(k == "database.user" && Truthy(user)) ==>
              k in m && m[k] == kwargs[k]
    ensures var m := Merge(defaults, stores, custom, Overrides(kwargs, user, host, port, tls));
            && ("custom" !in kwargs ==> "custom" in m && m["custom"] == custom)
            && ("stores" !in kwargs ==> "stores" in m && m["stores"] == stores)
    ensures var m := Merge(defaults, stores, custom, Overrides(kwargs, user, host, port, tls));
            forall k :: k in defaults && k !in kwargs && k != "stores" && k != "custom" && !IsConnectionKey(k)
                        && !(k == "database.user" && Truthy(user)) ==>
              k in m && m[k] == defaults[k]
  {
    OverridesHold(kwargs, user, host, port, tls);
    MergePrecedence(defaults, stores, custom, Overrides(kwargs, user, host, port, tls));
  }

  // ---------------------------------------------------------------------
  // SpyglassConfig

  /** `load_config`'s `ValueError`: the base directory is unset or does not exist. */
  datatype ConfigError = BaseDirNotFound(resolved: Option<string>)

  /** Handling one more directory records its resolved location under its variable. */
  lemma ConfigDirsStep(entries: seq<DirEntry>, n: nat, e: DirEntry, supplied: Option<string>, w: World, base: string)
    requires n < |entries| && entries[n] == e
    ensures ConfigDirs(entries[..n + 1], supplied, w, base)
            == ConfigDirs(entries[..n], supplied, w, base)[DirToVar(e.key, e.prefix) := ResolveDir(e, supplied, w, base)]
  {
    assert entries[..n + 1][..n] == entries[..n];
  }

  lemma PrefixAll<T>(s: seq<T>, n: nat)
    requires n == |s|
    ensures s[..n] == s
  {
  }

  /** The directories of the first `g + 1` families: those of the first `g`, then the next family's. */
  lemma DirEntriesStep(groups: seq<DirGroup>, g: nat)
    requires g < |groups|
    ensures DirEntries(groups[..g + 1]) == DirEntries(groups[..g]) + Tagged(groups[g])
  {
    assert groups[..g + 1][..g] == groups[..g];
  }

  /** After `d` directories of `group`, `config_dirs` holds those visited before it and the first `d` of its own. */
  ghost predicate Visited(done: seq<DirEntry>, group: DirGroup, d: nat, updated: map<string, string>,
                          supplied: Option<string>, w: World, base: string)
  {
    d <= |group.dirs| && updated == ConfigDirs(done + Tagged(group)[..d], supplied, w, base)
  }

  lemma VisitedNone(done: seq<DirEntry>, group: DirGroup, supplied: Option<string>, w: World, base: string)
    ensures Visited(done, group, 0, ConfigDirs(done, supplied, w, base), supplied, w, base)
  {
    assert done + Tagged(group)[..0] == done;
  }

  lemma VisitedNext(done: seq<DirEntry>, group: DirGroup, d: nat, updated: map<string, string>,
                    supplied: Option<string>, w: World, base: string)
    requires Visited(done, group, d, updated, supplied, w, base) && d < |group.dirs|
    ensures var e := DirEntry(group.prefix, group.dirs[d].0, group.dirs[d].1);
            Visited(done, group, d + 1, updated[DirToVar(e.key, e.prefix) := ResolveDir(e, supplied, w, base)], supplied, w, base)
  {
    var e := DirEntry(group.prefix, group.dirs[d].0, group.dirs[d].1);
    var entries := done + Tagged(group)[..d + 1];
    TakeNext(done, Tagged(group), d);
    ConfigDirsStep(entries, |done| + d, e, supplied, w, base);
    PrefixAll(entries, |done| + d + 1);
  }

  /** Extending a prefix of `t` after `done` by one element. */
  lemma TakeNext<T>(done: seq<T>, t: seq<T>, d: nat)
    requires d < |t|
    ensures |done + t[..d + 1]| == |done| + d + 1
    ensures (done + t[..d + 1])[..|done| + d] == done + t[..d]
    ensures (done + t[..d + 1])[|done| + d] == t[d]
  {
    assert forall i :: 0 <= i < |done| + d ==> (done + t[..d + 1])[..|done| + d][i] == (done + t[..d])[i];
  }

  lemma VisitedAll(done: seq<DirEntry>, group: DirGroup, updated: map<string, string>,
                   supplied: Option<string>, w: World, base: string)
    requires Visited(done, group, |group.dirs|, updated, supplied, w, base)
    ensures updated == ConfigDirs(done + Tagged(group), supplied, w, base)
  {
    assert Tagged(group)[..|group.dirs|] == Tagged(group);
  }

  /**
   * The inner loop of `load_config` over one family of `relative_dirs`:
   * each of its directories in turn resolved and recorded under its
   * variable, after the directories `done` already visited.
   */
  method CollectGroup(configDirs: map<string, string>, group: DirGroup, ghost done: seq<DirEntry>,
                      supplied: Option<string>, w: World, base: string)
    returns (updated: map<string, string>)
    requires configDirs == ConfigDirs(done, supplied, w, base)
    ensures updated == ConfigDirs(done + Tagged(group), supplied, w, base)
  {
    VisitedNone(done, group, supplied, w, base);
    updated := configDirs;
    var d := 0;
    while d < |group.dirs|
      invariant Visited(done, group, d, updated, supplied, w, base)
    {
      var e := DirEntry(group.prefix, group.dirs[d].0, group.dirs[d].1);
      VisitedNext(done, group, d, updated, supplied, w, base);
      updated := updated[DirToVar(e.key, e.prefix) := ResolveDir(e, supplied, w, base)];
      d := d + 1;
    }
    VisitedAll(done, group, updated, supplied, w, base);
  }

  /**
   * The loop of `load_config` over `relative_dirs`: `config_dirs` starts
   * with the base directory, and each family's directories are added in
   * turn.
   */
  method CollectConfigDirs(groups: seq<DirGroup>, supplied: Option<string>, w: World, base: string)
    returns (configDirs: map<string, string>)
    ensures configDirs == ConfigDirs(DirEntries(groups), supplied, w, base)
  {
    configDirs := map["SPYGLASS_BASE_DIR" := base];
    for g := 0 to |groups|
      invariant configDirs == ConfigDirs(DirEntries(groups[..g]), supplied, w, base)
    {
      DirEntriesStep(groups, g);
      configDirs := CollectGroup(configDirs, groups[g], DirEntries(groups[..g]), supplied, w, base);
    }
    PrefixAll(groups, |groups|);
  }

  class SpyglassConfig {
    var suppliedBaseDir: Option<string>
    var config: map<string, Value>
    const djDefaults: map<string, Entry>

    /** `SpyglassConfig(base_dir, **kwargs)`: nothing loaded yet. */
    constructor (baseDir: Option<string>, kwargs: map<string, Value>)
      ensures suppliedBaseDir == baseDir && config == map[] && djDefaults == DjDefaults(kwargs)
    {
      suppliedBaseDir := baseDir;
      config := map[];
      djDefaults := DjDefaults(kwargs);
    }

    /** `_load_env_vars`: each default variable read from the environment, else its default value. */
    method LoadEnvVars(env: map<string, string>) returns (loaded: map<string, string>)
      ensures loaded == EnvFold(EnvDefaults, env)
      ensures forall k :: k in loaded <==> IsEnvName(k)
    {
      loaded := map[];
      for i := 0 to |EnvDefaults|
        invariant loaded == EnvFold(EnvDefaults[..i], env)
      {
        assert EnvDefaults[..i + 1][..i] == EnvDefaults[..i];
        var (name, default) := EnvDefaults[i];
        loaded := loaded[name := if name in env then env[name] else default];
      }
      assert EnvDefaults[..|EnvDefaults|] == EnvDefaults;
      LoadedEnvValues(env);
    }

    /**
     * `load_config(force_reload)`: the cached configuration when there is
     * one and no reload is forced; otherwise an error when the base
     * directory is unset or missing, and else the configuration built
     * from `w`, which is cached.
     */
    method LoadConfig(forceReload: bool, w: World) returns (r: Result<map<string, Value>, ConfigError>)
      modifies this
      ensures suppliedBaseDir == old(suppliedBaseDir)
      ensures old(config) != map[] && !forceReload ==> r == Ok(old(config)) && config == old(config)
      ensures old(config) == map[] || forceReload ==>
                && (r.Err? <==> !BaseFound(suppliedBaseDir, w))
                && (r.Err? ==> r.error == BaseDirNotFound(ResolveBase(suppliedBaseDir, w)) && config == old(config))
                && (r.Ok? ==> config == LoadedConfig(suppliedBaseDir, w, ResolveBase(suppliedBaseDir, w).value))
      ensures r.Ok? ==> r.value == config && config != map[]
    {
      if config != map[] && !forceReload {
        return Ok(config);
      }
      var resolved := ResolveBase(suppliedBaseDir, w);
      if !Truthy(resolved) || resolved.value !in w.existing {
        return Err(BaseDirNotFound(resolved));
      }
      var base := resolved.value;
      var configDirs := CollectConfigDirs(RelativeDirs, suppliedBaseDir, w, base);
      RelativeDirEntries();
      var loadedEnv := LoadEnvVars(w.env);
      config := Assemble(configDirs, loadedEnv, KacheryZone(w), DebugModeSetting(w.custom));
      LoadedConfigSettings(suppliedBaseDir, w, base);
      r := Ok(config);
    }

    /**
     * `_generate_dj_config`: reload from a given base directory first;
     * then, from the loaded configuration, the defaults, the stores, the
     * custom section and the connection arguments merged.
     */
    method GenerateDjConfig(baseDir: Option<string>, databaseUser: Option<string>, databaseHost: string,
                            databasePort: int, useTls: bool, kwargs: map<string, Entry>, w: World)
      returns (r: Result<map<string, Entry>, ConfigError>)
      modifies this
      ensures suppliedBaseDir == if Truthy(baseDir) then baseDir else old(suppliedBaseDir)
      ensures r.Err? <==> (Truthy(baseDir) || old(config) == map[]) && !BaseFound(suppliedBaseDir, w)
      ensures r.Err? ==> config == old(config)
      ensures r.Ok? ==> r.value == DjConfig(djDefaults, config, databaseUser, databaseHost, databasePort, useTls, kwargs)
      ensures r.Ok? && (Truthy(baseDir) || old(config) == map[]) ==>
                config == LoadedConfig(suppliedBaseDir, w, ResolveBase(suppliedBaseDir, w).value)
      ensures !Truthy(baseDir) && old(config) != map[] ==> config == old(config)
    {
      if Truthy(baseDir) {
        suppliedBaseDir := baseDir;
        var reloaded := LoadConfig(true, w);
        if reloaded.Err? {
          return Err(reloaded.error);
        }
      }
      var loaded := LoadConfig(false, w);
      if loaded.Err? {
        return Err(loaded.error);
      }
      r := Ok(DjConfig(djDefaults, loaded.value, databaseUser, databaseHost, databasePort, useTls, kwargs));
    }
  }
}

=== FILE: Text.dfy ===
/**
 * The few Python `str` operations the model relies on, over ASCII:
 * case mapping, the `in` substring test, `replace`, `int()` and the
 * decimal and zero-padded (`{n:02d}`) formats.
 */
module Text {
  import opened Wrappers

  function LowerChar(c: char): char {
    if 'A' <= c <= 'Z' then (c as int + 32) as char else c
  }

  function UpperChar(c: char): char {
    if 'a' <= c <= 'z' then (c as int - 32) as char else c
  }

  /** `s.lower()` on ASCII letters; every other character is kept. */
  function Lower(s: string): (r: string)
    ensures |r| == |s|
    ensures forall i :: 0 <= i < |s| ==> r[i] == LowerChar(s[i])
  {
    seq(|s|, i requires 0 <= i < |s| => LowerChar(s[i]))
  }

  /** `s.upper()` on ASCII letters; every other character is kept. */
  function Upper(s: string): (r: string)
    ensures |r| == |s|
    ensures forall i :: 0 <= i < |s| ==> r[i] == UpperChar(s[i])
  {
    seq(|s|, i requires 0 <= i < |s| => UpperChar(s[i]))
  }

  predicate StartsWith(s: string, p: string) {
    |p| <= |s| && s[..|p|] == p
  }

  /** `sub` occurs in `s` starting at position `i`. */
  predicate OccursAt(s: string, sub: string, i: int) {
    0 <= i && i + |sub| <= |s| && s[i..i + |sub|] == sub
  }

  /** Python's `sub in s`, scanning from the left. */
  predicate Contains(s: string, sub: string)
    decreases |s|
  {
    StartsWith(s, sub) || (|s| > 0 && Contains(s[1..], sub))
  }

  /** The scanning test agrees with "occurs at some position". */
  lemma {:induction false} ContainsIffOccurs(s: string, sub: string)
    ensures Contains(s, sub) <==> exists i :: OccursAt(s, sub, i)
    decreases |s|
  {
    if StartsWith(s, sub) {
      assert OccursAt(s, sub, 0);
    } else if |s| > 0 {
      ContainsIffOccurs(s[1..], sub);
      if Contains(s[1..], sub) {
        var i :| OccursAt(s[1..], sub, i);
        assert s[1..][i..i + |sub|] == s[i + 1..i + 1 + |sub|];
        assert OccursAt(s, sub, i + 1);
      }
      if exists i :: OccursAt(s, sub, i) {
        var i :| OccursAt(s, sub, i);
        assert i != 0;
        assert s[1..][i - 1..i - 1 + |sub|] == s[i..i + |sub|];
        assert OccursAt(s[1..], sub, i - 1);
      }
    } else {
      assert forall i :: !OccursAt(s, sub, i);
    }
  }

  /** Python's `s.replace(pat, rep)`: every non-overlapping occurrence, left to right. */
  function ReplaceAll(s: string, pat: string, rep: string): string
    requires pat != []
    decreases |s|
  {
    if s == [] then []
    else if StartsWith(s, pat) then rep + ReplaceAll(s[|pat|..], pat, rep)
    else [s[0]] + ReplaceAll(s[1..], pat, rep)
  }

  /** A prefix that cannot start the pattern passes through `replace` unchanged. */
  lemma {:induction false} ReplaceAllSkips(a: string, b: string, pat: string, rep: string)
    requires pat != []
    requires forall i :: 0 <= i < |a| ==> a[i] != pat[0]
    ensures ReplaceAll(a + b, pat, rep) == a + ReplaceAll(b, pat, rep)
    decreases |a|
  {
    if a != [] {
      assert (a + b)[0] == a[0];
      assert !StartsWith(a + b, pat);
      assert (a + b)[1..] == a[1..] + b;
      ReplaceAllSkips(a[1..], b, pat, rep);
    } else {
      assert a + b == b;
    }
  }

  /** An occurrence at the very start is replaced first. */
  lemma ReplaceAllAtStart(pat: string, rest: string, rep: string)
    requires pat != []
    ensures ReplaceAll(pat + rest, pat, rep) == rep + ReplaceAll(rest, pat, rep)
  {
    assert StartsWith(pat + rest, pat);
    assert (pat + rest)[|pat|..] == rest;
  }

  /** Removing the last occurrence: `(a + pat).replace(pat, rep)` when `a` cannot start `pat`. */
  lemma ReplaceAllAtEnd(a: string, pat: string, rep: string)
    requires pat != []
    requires forall i :: 0 <= i < |a| ==> a[i] != pat[0]
    ensures ReplaceAll(a + pat, pat, rep) == a + rep
  {
    ReplaceAllSkips(a, pat, pat, rep);
    assert pat[|pat|..] == [];
  }

  /** Deleting a character (`s.replace(c, "")`) leaves none of it behind. */
  lemma {:induction false} ReplaceAllDeletes(s: string, c: char)
    ensures forall i :: 0 <= i < |ReplaceAll(s, [c], [])| ==> ReplaceAll(s, [c], [])[i] != c
    decreases |s|
  {
    if s != [] {
      ReplaceAllDeletes(s[1..], c);
    }
  }

  /** A string without the character comes through its deletion unchanged. */
  lemma ReplaceAllAbsent(s: string, c: char)
    requires forall i :: 0 <= i < |s| ==> s[i] != c
    ensures ReplaceAll(s, [c], []) == s
  {
    assert s + [] == s;
    ReplaceAllSkips(s, [], [c], []);
  }

  // ---------------------------------------------------------------------
  // Decimal numerals

  predicate IsDigit(c: char) {
    '0' <= c <= '9'
  }

  predicate AllDigits(s: string) {
    forall i :: 0 <= i < |s| ==> IsDigit(s[i])
  }

  function DigitChar(d: nat): (c: char)
    requires d < 10
    ensures IsDigit(c) && c as int - '0' as int == d
  {
    ('0' as int + d) as char
  }

  /** The decimal numeral of `n`, without leading zeros. */
  function NatToString(n: nat): (r: string)
    ensures r != [] && AllDigits(r)
    decreases n
  {
    if n < 10 then [DigitChar(n)] else NatToString(n / 10) + [DigitChar(n % 10)]
  }

  /** `str(i)` for an integer. */
  function IntToString(i: int): string {
    if i < 0 then "-" + NatToString(-i) else NatToString(i)
  }

  /** The value of a string of decimal digits (leading zeros allowed). */
  function DigitsValue(s: string): nat
    requires AllDigits(s)
  {
    if s == [] then 0
    else DigitsValue(s[..|s| - 1]) * 10 + (s[|s| - 1] as int - '0' as int)
  }

  lemma {:induction false} DigitsValueOfNat(n: nat)
    ensures DigitsValue(NatToString(n)) == n
    decreases n
  {
    if n >= 10 {
      var s := NatToString(n);
      assert s[..|s| - 1] == NatToString(n / 10);
      DigitsValueOfNat(n / 10);
    }
  }

  predicate IsSpace(c: char) {
    c == ' ' || c == '\t' || c == '\n' || c == '\r' || c == '\U{000B}' || c == '\U{000C}'
  }

  function StripLeft(s: string): (r: string)
    ensures |r| <= |s|
  {
    if s != [] && IsSpace(s[0]) then StripLeft(s[1..]) else s
  }

  function StripRight(s: string): (r: string)
    ensures |r| <= |s|
  {
    if s != [] && IsSpace(s[|s| - 1]) then StripRight(s[..|s| - 1]) else s
  }

  /** Python's `int(s)` on a base-10 string: surrounding whitespace, an optional sign, then digits. */
  function ParseInt(s: string): Option<int> {
    var t := StripRight(StripLeft(s));
    if t == [] then None
    else if t[0] == '-' || t[0] == '+' then
      var ds := t[1..];
      if ds != [] && AllDigits(ds) then
        Some(if t[0] == '-' then 0 - DigitsValue(ds) as int else DigitsValue(ds) as int)
      else None
    else if AllDigits(t) then Some(DigitsValue(t))
    else None
  }

  /** Stripping whitespace from the left keeps every other character. */
  lemma {:induction false} StripLeftKeeps(s: string, c: char)
    requires c in s && !IsSpace(c)
    ensures c in StripLeft(s)
  {
    if s != [] && IsSpace(s[0]) {
      var i :| 0 <= i < |s| && s[i] == c;
      assert s[1..][i - 1] == c;
      StripLeftKeeps(s[1..], c);
    }
  }

  /** Stripping whitespace from the right keeps every other character. */
  lemma {:induction false} StripRightKeeps(s: string, c: char)
    requires c in s && !IsSpace(c)
    ensures c in StripRight(s)
  {
    if s != [] && IsSpace(s[|s| - 1]) {
      var i :| 0 <= i < |s| && s[i] == c;
      assert s[..|s| - 1][i] == c;
      StripRightKeeps(s[..|s| - 1], c);
    }
  }

  /** A character that is neither whitespace, a sign nor a digit makes `int(s)` fail, wherever it stands. */
  lemma ParseIntRejects(s: string, c: char)
    requires c in s && !IsSpace(c) && !IsDigit(c) && c != '-' && c != '+'
    ensures ParseInt(s) == None
  {
    StripLeftKeeps(s, c);
    StripRightKeeps(StripLeft(s), c);
    var t := StripRight(StripLeft(s));
    var i :| 0 <= i < |t| && t[i] == c;
    if t[0] == '-' || t[0] == '+' {
      assert t[1..][i - 1] == c;
    }
  }

  lemma StripDigits(s: string)
    requires s != [] && !IsSpace(s[0]) && !IsSpace(s[|s| - 1])
    ensures StripRight(StripLeft(s)) == s
  {
  }

  /** `int(str(i)) == i`. */
  lemma ParseIntToString(i: int)
    ensures ParseInt(IntToString(i)) == Some(i)
  {
    if i < 0 {
      ParseNegative(-i);
    } else {
      ParseNatural(i);
    }
  }

  lemma ParseNatural(n: nat)
    ensures ParseInt(NatToString(n)) == Some(n)
  {
    StripDigits(NatToString(n));
    DigitsValueOfNat(n);
  }

  lemma ParseNegative(n: nat)
    ensures ParseInt("-" + NatToString(n)) == Some(0 - n)
  {
    var ds := NatToString(n);
    var s := "-" + ds;
    assert s[|s| - 1] == ds[|ds| - 1];
    StripDigits(s);
    assert s[1..] == ds;
    DigitsValueOfNat(n);
  }

  /** Python's `f"{e:02d}"`: zero-padded to width two; a sign counts toward the width. */
  function Format02(e: int): string {
    if 0 <= e < 10 then "0" + NatToString(e) else IntToString(e)
  }

  /** The padded form still reads back as the same number and is at least two characters wide. */
  lemma ParseFormat02(e: int)
    ensures |Format02(e)| >= 2
    ensures ParseInt(Format02(e)) == Some(e)
  {
    if 0 <= e < 10 {
      var s := Format02(e);
      assert s == ['0', DigitChar(e)];
      StripDigits(s);
      assert s[..1] == "0";
      assert DigitsValue(s[..1]) == 0;
    } else {
      ParseIntToString(e);
      if e >= 10 {
        assert NatToString(e) == NatToString(e / 10) + [DigitChar(e % 10)];
      }
    }
  }
}

=== FILE: Wrappers.dfy ===
/** Optional values and results with an error, used by every module of the model. */
module Wrappers {

  datatype Option<+T> = None | Some(value: T)

  datatype Result<+T, +E> = Ok(value: T) | Err(error: E)
}
